=== FILE: README.md ===
# Digital forest cards: the media upload pipeline and its helpers, in Dafny

This project models the Digital Forest tree cards application (hasadna/digital-forest-cards) and
proves properties of the model. Its core is the pipeline that lets visitors attach photos to a
tree and lets moderators review them.

- **Upload URL issuer** (`create-upload-url`). It validates a request and derives an object key
  `tree-media/<sanitised id>/<token>[.<ext>]`. It answers with a presigned upload ticket.
- **Upload recorder** (`record-upload`). It validates the same fields plus the key, the metadata
  and the status. It probes the object store for the key and inserts a `tree_media` row whose
  metadata is the caller's metadata overlaid with derived values and compacted.
- **Upload proxy** (`upload-proxy`). This is the one-step fallback. It reads a multipart form with
  defaults, validates, writes the object, then inserts the row.
- **Review gateway** (`review-media`). It lists rows by status, newest first, one page at a time,
  or changes the status of one row.
- **Tree card.** Its upload dialog is a stage machine `idle → creating → uploading → saving →
  idle` with one fallback to the proxy. The card also has a photo gallery.
- **Review dashboard.** It filters a page on the client by municipality and date, collects the
  page's distinct tree ids, and steps an offset 50 rows at a time.

The project also models the application's smaller self-contained logic:

- merging the database rows of one tree into the card's record;
- the CSV export script;
- the KML-to-CSV converter: styles, StyleMaps, layers and placemarks;
- the style analysis report;
- SQL quote escaping and the example query builders;
- analytics label normalisation;
- the search box's tree-id/internal-id detection.

## How the model is organised

One module per source file, one file per module:

| Module | File | Contents |
|---|---|---|
| `Wrappers` | `wrappers.dfy` | `Option` and `Result` |
| `Text` | `text.dfy` | The JavaScript and Python string operations the sources use: `trim`/`strip`, `split`, `replace` with a regular expression, `includes`, `toLowerCase` on the characters that matter, `String(n)` |
| `Json` | `json.dfy` | Request bodies as a dynamically typed `Value`, with JavaScript nullishness and truthiness |
| `Media` | `media.dfy` | Shared vocabulary: the six statuses, the size ceiling, the `tree_media` row, the HTTP outcome, and the two stores as classes |
| `Sorting` | `sorting.dfy` | A stable descending sort by key; JavaScript's `Array.prototype.sort` is stable |
| `UploadUrl`, `RecordUpload`, `UploadProxy`, `ReviewMedia` | one file each | The four server functions |
| `TreeCard`, `ReviewDashboard`, `TreeIdInput`, `Analytics` | one file each | The client components |
| `TreeApi`, `QueryRunner`, `CsvExport`, `KmzConvert`, `AnalyzeStyles` | one file each | The services and the scripts |

Where the source changes state, the model does too:

- **Stores.** The object store (`Media.ObjectStore`, a set of keys) and the moderation table
  (`Media.ModerationStore`, rows in insertion order, ids unique) are classes. The handlers are
  methods that change them.
- **Upload dialog.** It is a class (`TreeCard.UploadDialog`) with the component's state hooks as
  fields, plus two logs: the calls made and the stages set.
- **Dashboard paging.** It is a class (`ReviewDashboard.ReviewPager`).
- **Loops.** The loops of `transformTreeData`, the converter's table building and traversal,
  `analyze_styles` and `runQueries` are methods with loop invariants. Each is proved equal to a
  specification function, and the properties are lemmas about that function.

Every external outcome is a parameter: the signer's URL, a probe, put or insert failure, the row
id and clock the database assigns, a thrown exception, and the fresh UUID.

Behaviour modelled as the code has it, even where one might expect otherwise:

- The proxy puts the tree id into the object key exactly as sent, without the issuer's
  sanitising (`upload-proxy/index.ts:99`). Unlike the issuer, the proxy does not clean the tree id
  in the key (`UploadProxy.ProxyKeyKeepsRawId`).
- The proxy turns an unknown status into `pending`, while the recorder refuses it with 400.
- The review gateway's list also turns an unknown status into `pending`.
- The proxy's extension keeps its case and has no mime fallback.
- A review update of an id that no row has is a store error, so it answers 500.
- The merged tree id is subject to the same merge rule as every other field. It starts as the
  first row's id, and a falsy first id is replaced by the first truthy one that follows.
- A non-empty `data-analytics-label` is reported verbatim, without normalisation.
- The converter stops with an error, and writes no rows, when a StyleMap with an id has a
  `normal` Pair whose `styleUrl` has no text (`url.text.strip` on `None`). `KmzConvert.Converted`
  is `None` then.

## Model

| member | source | states |
|---|---|---|
| Json.Get | supabase/functions/record-upload/index.ts:75-84 | Destructuring a property gives the field's value when the body is an object that has it, and `undefined` otherwise |
| Json.Compact | supabase/functions/record-upload/index.ts:66-67 | `compactObject` keeps exactly the entries that are neither null nor undefined, with their values |
| Media.ParseStatus | supabase/functions/record-upload/index.ts:106-110 | A text is accepted exactly when it names one of the six statuses, and is read as that status |
| Media.ParseStatusName | supabase/functions/review-media/index.ts:36 | Every status name is accepted and read back as its own status, so no two statuses share a name |
| Media.AppendWellFormed | supabase/functions/record-upload/index.ts:127-139 | Inserting a row that passed the checks keeps every stored row well-formed |
| Media.StatusChangeWellFormed | supabase/functions/review-media/index.ts:74-79 | Changing only a row's status keeps the table well-formed |
| Media.FindRow | supabase/functions/review-media/index.ts:77 | `eq("id", id)` finds the first row with that id, or reports that there is none |
| Media.ObjectStore.constructor | supabase/functions/record-upload/index.ts:35-43 | The object store starts with the given keys |
| Media.ObjectStore.Probe | supabase/functions/record-upload/index.ts:112-117 | `HeadObject` succeeds exactly when the service answers and the key holds an object, and it changes nothing |
| Media.ObjectStore.Put | supabase/functions/upload-proxy/index.ts:101-109 | `PutObject` adds the key unless the service fails, and changes nothing else |
| Media.ModerationStore.constructor | supabase/functions/record-upload/index.ts:127-128 | The `tree_media` table starts empty, with unique ids |
| Media.ModerationStore.Insert | supabase/functions/record-upload/index.ts:127-139 | The insert appends the row exactly when there is no fault and its id is new; ids stay unique and well-formedness is kept |
| Media.ModerationStore.UpdateStatus | supabase/functions/review-media/index.ts:74-84 | The update succeeds exactly when there is no fault and the id exists; only that row's status changes, and the changed row is returned |
| UploadUrl.ExtensionFromMime | supabase/functions/create-upload-url/index.ts:43-55 | The eight listed types map to their own extensions. Any other type with a `/` gets the word characters of the part after its first `/`; a type without `/` gets none (the table is read as a dictionary of its own keys only). There is an extension exactly when it has only word characters, and every image type has one |
| UploadUrl.ExtensionOfSubtype | supabase/functions/create-upload-url/index.ts:54 | For an unlisted `kind/subtype`, the extension is the subtype with every non-word character removed |
| UploadUrl.ResolveExtension | supabase/functions/create-upload-url/index.ts:57-65 | The extension has only word characters; without a file name it is the mime extension, else `img` |
| UploadUrl.ResolveFromName | supabase/functions/create-upload-url/index.ts:57-62 | A name ending in `.` and a letters-and-digits extension gives that extension in lower case |
| UploadUrl.ResolveRejectsName | supabase/functions/create-upload-url/index.ts:57-65 | A name whose last extension is empty or has a character outside `[a-z0-9]` after lower-casing falls back to the mime type, else `img` |
| UploadUrl.ResolveWithoutDot | supabase/functions/create-upload-url/index.ts:57-65 | A name without `.` falls back to the mime type, else `img` |
| UploadUrl.SanitizeTreeId | supabase/functions/create-upload-url/index.ts:67-70 | The id is trimmed, its whitespace runs become `-`, and every character outside `[A-Za-z0-9_-]` is dropped; when nothing is left the result is `tree`. So the result is non-empty, has only those characters, and never has a `/` |
| UploadUrl.SanitizeNothingLeft | supabase/functions/create-upload-url/index.ts:67-70 | An id with no key character and no inner whitespace (for example blank) sanitises to `tree` |
| UploadUrl.SanitizeFixedPoints | supabase/functions/create-upload-url/index.ts:67-70 | An id is left unchanged exactly when it is non-empty and has only key characters |
| UploadUrl.SanitizeIdempotent | supabase/functions/create-upload-url/index.ts:67-70 | Sanitising twice gives the same id as sanitising once |
| UploadUrl.SanitizeBlank | supabase/functions/create-upload-url/index.ts:68-69 | A blank id becomes `tree` |
| UploadUrl.ObjectKey | supabase/functions/create-upload-url/index.ts:103 | The key starts `tree-media/<id>/<token>`, and has no suffix when the extension is empty |
| UploadUrl.ObjectKeyExtension | supabase/functions/create-upload-url/index.ts:103 | The text after the key's last `.` is the extension |
| UploadUrl.ObjectKeySegments | supabase/functions/create-upload-url/index.ts:101-103 | Split on `/`, the key is exactly `tree-media`, the id, and the token with its suffix |
| UploadUrl.CreateUploadUrl | supabase/functions/create-upload-url/index.ts:81-128 | `treeId` is checked first, then `mimeType`, then the size, each refused with its own 400 exactly when the earlier checks pass and it fails. A 500 comes exactly from a missing body, an unusable `fileName` or a signer that gives no URL. A ticket is issued exactly when all pass and the signer answers. The ticket has `expiresIn` 300, `maxFileSize` 50 MiB, the request's content type and the sanitised key |
| UploadUrl.SizeBoundary | supabase/functions/create-upload-url/index.ts:97-99 | Exactly 50 MiB is accepted; one byte more and zero are refused |
| UploadUrl.IssueTicket | supabase/functions/create-upload-url/index.ts:101-123 | A request that passes every check is answered with the ticket for its own fields |
| UploadUrl.TicketKey | supabase/functions/create-upload-url/index.ts:101-103 | A clean id and an alphanumeric extension give `tree-media/<id>/<token>.<lower-cased ext>` |
| RecordUpload.RequesterIp | supabase/functions/record-upload/index.ts:58-64 | The address is the trimmed first entry of a non-empty `x-forwarded-for`, else `x-real-ip`, else `cf-connecting-ip`, else none |
| RecordUpload.ForwardedFirstHop | supabase/functions/record-upload/index.ts:59-61 | A proxy chain yields its trimmed first hop |
| RecordUpload.MetadataPayload | supabase/functions/record-upload/index.ts:119-125 | The derived keys are present exactly when their values are; every other key is the caller's, kept exactly when it is not nullish |
| RecordUpload.AbsentIpRemovesCallerKey | supabase/functions/record-upload/index.ts:120-125 | A caller's `uploaderIp` is dropped when no address is known |
| RecordUpload.RequestedStatus | supabase/functions/record-upload/index.ts:106-110 | A missing, empty or non-string status means `pending`; a non-empty string is accepted exactly when it names a status |
| RecordUpload.CheckRecord | supabase/functions/record-upload/index.ts:75-110 | Checks run in order: `treeId`, `s3Key`, `mimeType`, size, `metadata` (defaulting to `{}`, refused when not an object), then status. Each message is returned exactly when the earlier checks pass and its own fails. Accepted fields are copied verbatim |
| RecordUpload.CheckedIsWellFormed | supabase/functions/record-upload/index.ts:86-100 | Every accepted request describes a well-formed row |
| RecordUpload.RecordRow | supabase/functions/record-upload/index.ts:127-137 | The inserted row carries the checked tree id, key, type, size, status and uploader unchanged, and the compacted metadata |
| RecordUpload.StatusRules | supabase/functions/record-upload/index.ts:106-110 | An empty status is stored as `pending`; `archived` is refused with 400 |
| RecordUpload.RecordUpload | supabase/functions/record-upload/index.ts:69-151 | A failed check gives 400 and no row. A missing or failing probe gives 400 and no row. A failed insert gives 500. A row is appended exactly when every check, the probe and the insert succeed, and it is the row built from the request with the compacted metadata. Well-formedness of the table is kept |
| RecordUpload.SaveRecord | supabase/functions/record-upload/index.ts:112-146 | The probe comes first: no object means 400 and no insert. Otherwise the insert decides between the stored row and 500 |
| UploadProxy.TextOr | supabase/functions/upload-proxy/index.ts:69-70 | A non-empty text field wins; a missing or empty one gives the fallback; a file part where text belongs gives none (the string method throws) |
| UploadProxy.SizeField | supabase/functions/upload-proxy/index.ts:71-76 | The size is the converted text field, else the file's size, else 0 |
| UploadProxy.LenientStatus | supabase/functions/upload-proxy/index.ts:92-95 | An allowed status text is kept; anything else becomes `pending` |
| UploadProxy.SafeExtension | supabase/functions/upload-proxy/index.ts:97-98 | The suffix is non-empty exactly when the name has a `.` and the text after its last `.` is a non-empty run of ASCII letters and digits; it is then `.` and that text, and otherwise empty |
| UploadProxy.SafeExtensionOfName | supabase/functions/upload-proxy/index.ts:97-98 | A letters-and-digits extension is kept as it is, case included |
| UploadProxy.SafeExtensionRejectsName | supabase/functions/upload-proxy/index.ts:97-98 | A name whose last extension is empty or holds a character other than an ASCII letter or digit gives no suffix |
| UploadProxy.SafeExtensionWithoutDot | supabase/functions/upload-proxy/index.ts:97-98 | A name without `.` gives no suffix, whatever the mime type |
| UploadProxy.ProxyKey | supabase/functions/upload-proxy/index.ts:99 | The key is `tree-media/`, the tree id as sent, `/`, the token, then the safe extension of the file name and nothing else |
| UploadProxy.ProxyKeyKeepsRawId | supabase/functions/upload-proxy/index.ts:99 | Spaces and slashes of the tree id reach the key unchanged |
| UploadProxy.ProxyRow | supabase/functions/upload-proxy/index.ts:99-120 | The inserted row has the key `tree-media/<treeId>/<token>` followed by the safe extension, the form's tree id, type, size and status, metadata `{originalFileName}` and no uploader |
| UploadProxy.CheckProxy | supabase/functions/upload-proxy/index.ts:66-95 | Checks run in order: `treeId`, the file, the size, the image type. Each 400 is returned exactly when the earlier checks pass and its own fails. The 500 is returned exactly when the size passes and `mimeType`, or for an image `fileName`, is a file part, on which the string methods throw. A form is accepted exactly when all pass, and its fields are then the defaulted ones |
| UploadProxy.MissingFileRejected | supabase/functions/upload-proxy/index.ts:82-84 | A form with a tree id and no file is refused with 400 |
| UploadProxy.NonImageRejected | supabase/functions/upload-proxy/index.ts:88-90 | A non-image file of valid size is refused with 400 |
| UploadProxy.UnknownStatusBecomesPending | supabase/functions/upload-proxy/index.ts:92-95 | An unknown status text does not refuse the upload and is stored as `pending` |
| UploadProxy.ProxyCheckedIsWellFormed | supabase/functions/upload-proxy/index.ts:79-90 | Every accepted form describes a well-formed row under any key |
| UploadProxy.PlanProxy | supabase/functions/upload-proxy/index.ts:61-95 | A content type without `multipart/form-data` is refused with 400 before the form is read; an unreadable form is a 500 |
| UploadProxy.UploadProxy | supabase/functions/upload-proxy/index.ts:55-134 | A refused request writes nothing. An accepted one writes the object first, then inserts the row with metadata `{originalFileName}`. A failed put is 500 with no row. A failed insert is 500 and leaves the object behind |
| UploadProxy.StoreUpload | supabase/functions/upload-proxy/index.ts:101-129 | The object is put before the row is inserted, and the row is inserted only when the put succeeded |
| ReviewMedia.ListStatus | supabase/functions/review-media/index.ts:90 | An allowed status string is listed, anything else lists `pending` |
| ReviewMedia.SafeLimit | supabase/functions/review-media/index.ts:91 | A positive limit is capped at 200, anything else is 50; the page size is always between 1 and 200 |
| ReviewMedia.SafeOffset | supabase/functions/review-media/index.ts:92 | A number of at least 0 is kept, anything else is 0 |
| ReviewMedia.TreeFilter | supabase/functions/review-media/index.ts:101-103 | Only a non-empty array restricts the list, to exactly its items |
| ReviewMedia.Matching | supabase/functions/review-media/index.ts:94-103 | A row is listed exactly when it has the status and, with a filter, its tree is named; a single row gives itself or nothing |
| ReviewMedia.MatchingAppend | supabase/functions/review-media/index.ts:94-103 | The selection works piece by piece, so the selected rows keep store order, each once |
| ReviewMedia.Window | supabase/functions/review-media/index.ts:99 | The inclusive range `[offset, offset+limit-1]` holds at most `limit` rows, the ordered rows from `offset` on |
| ReviewMedia.WindowSorted | supabase/functions/review-media/index.ts:98-99 | A window of a newest-first order is newest-first |
| ReviewMedia.PageRows | supabase/functions/review-media/index.ts:94-103 | Every row of a page is a selected row of the store |
| ReviewMedia.WindowsAdjacent | supabase/functions/review-media/index.ts:99 | Two adjacent windows together are one window twice as long |
| ReviewMedia.ListMedia | supabase/functions/review-media/index.ts:94-117 | A page holds at most `limit` selected store rows, newest first, and is exactly the window of that order. The count is all matching rows, and the effective status is echoed |
| ReviewMedia.ConsecutivePages | supabase/functions/review-media/index.ts:94-99 | Consecutive pages are consecutive stretches of one order |
| ReviewMedia.ReviewMedia | supabase/functions/review-media/index.ts:52-122 | OPTIONS is the preflight; another method is 405. An update with a blank id or an unknown status is 400 and changes nothing. Otherwise only the named row's status changes, or the answer is 500. A list changes nothing and answers the page |
| Sorting.InsertDesc | src/components/TreeCard.tsx:131 | Inserting adds exactly one element |
| Sorting.InsertDescBound | src/components/TreeCard.tsx:131 | Inserting under a bound keeps every key under it |
| Sorting.InsertDescSorted | src/components/TreeCard.tsx:131 | Inserting into a descending sequence keeps it descending |
| Sorting.SortDesc | src/components/TreeCard.tsx:124-131 | The sort is a permutation of its input, largest key first |
| Sorting.SortDescOfSorted | src/components/TreeCard.tsx:131 | A sequence already in order is left as it is |
| Sorting.SortDescSameElements | src/components/TreeCard.tsx:124-131 | The sort keeps exactly the input's elements |
| Sorting.SortDescStable | src/components/TreeCard.tsx:124-131 | The sort is stable, as `Array.prototype.sort` is: elements with equal keys keep their input order |
| TreeCard.ErrorText | src/components/TreeCard.tsx:207 | An `Error` shows its message; any other thrown value shows the fixed fallback text |
| TreeCard.DirectCalls | src/components/TreeCard.tsx:174-192 | The direct path always asks for an upload URL first with the file's name, type and size, makes at most three calls, and never calls the proxy |
| TreeCard.DirectStages | src/components/TreeCard.tsx:173-185 | The direct path sets `creating` first and at most three stages, none of them `idle` |
| TreeCard.PlannedCalls | src/components/TreeCard.tsx:172-197 | The proxy is called exactly when the direct path failed, and then last; an upload makes at most four calls |
| TreeCard.PlannedStages | src/components/TreeCard.tsx:172-210 | The stages start with `creating` and end with `idle`, with no earlier `idle` before the reset; a failed direct path is followed by `saving` |
| TreeCard.PlannedStagesParts | src/components/TreeCard.tsx:172-210 | The stages are those of the inner `try`, the reset on success, then the final `idle` |
| TreeCard.UploadDialog.constructor | src/components/TreeCard.tsx:40-43 | The dialog starts closed, with no file, no error and stage `idle` |
| TreeCard.UploadDialog.IsUploading | src/components/TreeCard.tsx:44 | `isUploading` holds exactly in the three busy stages |
| TreeCard.UploadDialog.ResetDialogState | src/components/TreeCard.tsx:137-141 | Resetting clears file and error and sets `idle`, and changes nothing else |
| TreeCard.UploadDialog.HandleDialogChange | src/components/TreeCard.tsx:143-148 | Opening keeps the state; closing also resets it |
| TreeCard.UploadDialog.HandleFileChange | src/components/TreeCard.tsx:150-162 | The error is cleared. A picked image is selected. A non-image sets an error and keeps the old selection. No file clears the selection |
| TreeCard.UploadDialog.TryDirect | src/components/TreeCard.tsx:173-192 | The direct path makes its calls and sets its stages, and reports success exactly when all three calls return |
| TreeCard.UploadDialog.UploadWithFallback | src/components/TreeCard.tsx:172-197 | After a failed direct path the proxy is called once at stage `saving`; only the proxy's failure remains |
| TreeCard.UploadDialog.HandleUpload | src/components/TreeCard.tsx:164-211 | Without a file nothing happens; a non-image type only sets an error and calls no service. On success the dialog closes, file and error are cleared and completion fires once. On total failure the proxy's error is shown. The stage always ends `idle` |
| TreeCard.CallsAgree | src/components/TreeCard.tsx:175-196 | Every call names the card's tree; the record call uses the issued key and the file's type and size; the proxy gets the selected file |
| TreeCard.MediaDate | src/components/TreeCard.tsx:106-111 | The date is `createdAt`, else `created_at`, else `updatedAt`, else `updated_at` |
| TreeCard.Approved | src/components/TreeCard.tsx:113 | Exactly the approved media are kept; a single item gives itself or nothing |
| TreeCard.ApprovedAppend | src/components/TreeCard.tsx:113 | The filter works piece by piece, so the approved media keep their order, each once |
| TreeCard.CommunityEntries | src/components/TreeCard.tsx:124-130 | Each entry keeps its item's id and URL and is keyed by its parsed date, 0 without one |
| TreeCard.GalleryItems | src/components/TreeCard.tsx:105-133 | The official photo comes first when there is one, then exactly the approved community entries, newest first |
| TreeCard.EntryOrigin | src/components/TreeCard.tsx:124-130 | Every community entry comes from an item it was built from |
| TreeCard.GalleryOnlyApproved | src/components/TreeCard.tsx:113-132 | Every gallery entry other than the official photo names an approved item |
| ReviewDashboard.Keep | src/pages/ReviewDashboard.tsx:73-91 | An empty query with no dates keeps every row; a range whose end is before its start keeps none |
| ReviewDashboard.FilteredItems | src/pages/ReviewDashboard.tsx:71-92 | A row is kept exactly when its municipality (unknown by default) contains the trimmed, lower-cased query and its date is within the set bounds |
| ReviewDashboard.FilteredKeepsOrder | src/pages/ReviewDashboard.tsx:77-91 | The filtered rows are a subsequence of the page |
| ReviewDashboard.NoFilterKeepsAll | src/pages/ReviewDashboard.tsx:79-85 | An empty box and no dates keep the whole page |
| ReviewDashboard.TreeIds | src/pages/ReviewDashboard.tsx:52-55 | The looked-up tree ids are exactly the page's tree ids, each once |
| ReviewDashboard.TreeIdsStartWithFirst | src/pages/ReviewDashboard.tsx:53 | The first row's tree is the first id |
| ReviewDashboard.TreeIdsFirstAppearance | src/pages/ReviewDashboard.tsx:52-55 | The ids are in order of first appearance: an earlier id's first row comes before a later id's first row, and each id has a row |
| ReviewDashboard.ReviewPager.constructor | src/pages/ReviewDashboard.tsx:29-33 | The dashboard starts listing `pending` from offset 0, with no previous page |
| ReviewDashboard.ReviewPager.SetStatus | src/pages/ReviewDashboard.tsx:128-131 | Choosing a status resets the offset to 0 |
| ReviewDashboard.ReviewPager.First | src/pages/ReviewDashboard.tsx:275 | First sets the offset to 0 |
| ReviewDashboard.ReviewPager.Prev | src/pages/ReviewDashboard.tsx:280 | Prev goes back 50 but never below 0, and moves back whenever there is a previous page |
| ReviewDashboard.ReviewPager.Next | src/pages/ReviewDashboard.tsx:287 | Next goes on 50; while `hasNext` holds the new page starts inside the list, and there is then a previous page |
| ReviewDashboard.PrevAfterNext | src/pages/ReviewDashboard.tsx:113-115 | Prev undoes Next from any offset the dashboard can reach |
| TreeApi.Merged | src/services/treeApi.ts:62-78 | A truthy starting value is never replaced, and a nullish result means no row gave a non-nullish value over the start |
| TreeApi.MergeStep | src/services/treeApi.ts:72-77 | A truthy merged value is never replaced, and a nullish incoming value changes nothing |
| TreeApi.MergedPrefix | src/services/treeApi.ts:70-78 | Merging one more row is one more merge step |
| TreeApi.MergedKeepsTruthy | src/services/treeApi.ts:74 | A truthy starting value survives every row |
| TreeApi.MergedStaysTruthy | src/services/treeApi.ts:74 | Once a truthy value is merged, later rows leave it |
| TreeApi.MergedFalsy | src/services/treeApi.ts:70-78 | Without a truthy value anywhere the merge stays falsy |
| TreeApi.MergedFirstTruthy | src/services/treeApi.ts:70-78 | From a falsy start the merged value is the first truthy value in row order |
| TreeApi.MergedLastNonNull | src/services/treeApi.ts:70-78 | With no truthy value the merged value is the last non-nullish one |
| TreeApi.MergedAllNull | src/services/treeApi.ts:73 | With only nullish values the starting value survives |
| TreeApi.IdFromFirstRow | src/services/treeApi.ts:62-64 | A non-empty first-row tree id is the record's id |
| TreeApi.Sources | src/services/treeApi.ts:81-86 | There is at most one credit per row; each row adds its own credit (`SourceOf`) after those of the rows before it |
| TreeApi.SourcesOne | src/services/treeApi.ts:81-86 | A single row gives its credit when it has a truthy source and a truthy date, and nothing otherwise |
| TreeApi.SourcesAppend | src/services/treeApi.ts:70-86 | The credits of two tables one after the other are the credits of the first followed by those of the second, so they keep row order and duplicates |
| TreeApi.SourcesExact | src/services/treeApi.ts:81-86 | A credit is listed exactly when some row has that source and that date, both truthy |
| TreeApi.InternalIds | src/services/treeApi.ts:89-91 | Every listed internal id is truthy, at most one per row; a single row gives its id when it is truthy, and nothing otherwise |
| TreeApi.InternalIdsComplete | src/services/treeApi.ts:89-91 | Every truthy internal id of every row is listed |
| TreeApi.InternalIdsAppend | src/services/treeApi.ts:70-91 | The ids of two tables one after the other are the ids of the first followed by those of the second, so they keep row order and duplicates |
| TreeApi.Coordinates | src/services/treeApi.ts:95-98 | Coordinates exist exactly when both merged values are truthy, as `"<y>, <x>"` |
| TreeApi.RecordOf | src/services/treeApi.ts:100-120 | The record is `identified` exactly when the merged species is truthy, and `ageEstimated` exactly when the merged value is `"true"`. The id and source lists are present exactly when non-empty |
| TreeApi.RecordOfFields | src/services/treeApi.ts:103-120 | The record depends on the merged fields only through their values |
| TreeApi.AllKeys | src/services/treeApi.ts:72 | Every key of every row and the tree id key are merged |
| TreeApi.MergedOutside | src/services/treeApi.ts:62-64 | A key no row has merges to `undefined` |
| TreeApi.MergedFields | src/services/treeApi.ts:62-78 | Every key's merged value is the merge of that key across the rows |
| TreeApi.MergeRow | src/services/treeApi.ts:72-78 | The loop over a row's keys applies one merge step to every key |
| TreeApi.AbsorbRow | src/services/treeApi.ts:70-92 | One pass merges the row, credits its source and keeps its internal id |
| TreeApi.Transformed | src/services/treeApi.ts:62-120 | A truthy first-row tree id is the record's id; the source and id lists are present exactly when some row contributes to them |
| TreeApi.TransformTreeData | src/services/treeApi.ts:58-121 | No rows give no record; otherwise the record is built from the merged fields, the credits and the internal ids |
| QueryRunner.EscapeSql | src/services/queryRunner.ts:186-188 | Escaping adds one character per quote, keeps the same characters, and changes a quote-free value not at all |
| QueryRunner.NoDoubling | src/services/queryRunner.ts:187 | A value without quotes is not changed by doubling |
| QueryRunner.UnescapeSql | src/services/queryRunner.ts:186-188 | Collapsing each `''` of an escaped value gives the value back |
| QueryRunner.DoubledIsOneLiteral | src/services/queryRunner.ts:187 | A doubled value followed by a quote reads back as exactly that value |
| QueryRunner.EscapedIsOneLiteral | src/services/queryRunner.ts:186-188 | An escaped value inside quotes is one SQL string literal holding exactly that value |
| QueryRunner.RawQuoteEndsLiteral | src/services/queryRunner.ts:45-46 | Without escaping, a quote in a value ends the literal early and the rest is read as SQL |
| QueryRunner.FindBy | src/services/queryRunner.ts:45-129 | An equality builder starts with the fixed select and the column |
| QueryRunner.FindByLiteral | src/services/queryRunner.ts:45-129 | The builders interpolate verbatim: the value sits in one literal only when it was escaped first |
| QueryRunner.SearchSpecies | src/services/queryRunner.ts:172-173 | The term appears inside a `'%...%'` pattern |
| QueryRunner.FindWithHealthScore | src/services/queryRunner.ts:134-137 | A given score gives a `>=` bound; none gives `IS NOT NULL` |
| QueryRunner.RecentDataSources | src/services/queryRunner.ts:160-161 | The interval is the given number of days, 30 by default |
| QueryRunner.GetSample | src/services/queryRunner.ts:178-179 | The limit is the given one, 10 by default |
| QueryRunner.RunQueries | src/services/queryRunner.ts:220-232 | The queries run in order with the same row limit. Success means one result per query, in input order. The first failure ends the run and is reported |
| CsvExport.CsvField | scripts/export-municipality-examples-no-canopy.ts:14-26 | Null is an empty field. A value with a comma, quote or line feed is quoted with inner quotes doubled. Any other value is unchanged |
| CsvExport.FieldRoundTrip | scripts/export-municipality-examples-no-canopy.ts:20-25 | Reading a written field back gives the value |
| CsvExport.Keys | scripts/export-municipality-examples-no-canopy.ts:36 | The header is the row's column names in its own order |
| CsvExport.Fields | scripts/export-municipality-examples-no-canopy.ts:15-27 | A line is the row's fields in its own order |
| CsvExport.JoinAvoids | scripts/export-municipality-examples-no-canopy.ts:27 | Joining pieces that avoid a character by a separator that avoids it gives a string that avoids it |
| CsvExport.LineFree | scripts/export-municipality-examples-no-canopy.ts:14-27 | Values without a line feed give a line without one |
| CsvExport.Lines | scripts/export-municipality-examples-no-canopy.ts:36-40 | The file's lines are the header, then one line per row |
| CsvExport.ArrayToCsv | scripts/export-municipality-examples-no-canopy.ts:33-41 | No rows give an empty file; otherwise the file starts with the header |
| CsvExport.JoinStartsWith | scripts/export-municipality-examples-no-canopy.ts:40 | A join starts with its first piece |
| CsvExport.CsvLineCount | scripts/export-municipality-examples-no-canopy.ts:33-41 | When no name or value has a line feed, the file splits into exactly the rows plus one lines |
| CsvExport.WithoutRn | scripts/export-municipality-examples-no-canopy.ts:77 | Exactly the `rn` column is removed; a single column gives itself or nothing |
| CsvExport.WithoutRnAppend | scripts/export-municipality-examples-no-canopy.ts:77 | Dropping `rn` works piece by piece, so the other columns keep their order |
| CsvExport.WithoutRnIdentity | scripts/export-municipality-examples-no-canopy.ts:77 | A row without `rn` is unchanged |
| CsvExport.ExportCsv | scripts/export-municipality-examples-no-canopy.ts:69-84 | No results write no file (`None`); otherwise the file's header is the first row's columns without `rn` |
| KmzConvert.CleanText | scripts/convert_kmz_to_csv.py:6-10 | A missing or empty text gives `""`; otherwise every left-to-right mark is removed and the rest is stripped, so the result has neither a mark nor surrounding whitespace |
| KmzConvert.CleanTextIdempotent | scripts/convert_kmz_to_csv.py:6-10 | Cleaning twice is cleaning once |
| KmzConvert.CleanTextKeeps | scripts/convert_kmz_to_csv.py:6-10 | A text that is already clean is kept |
| KmzConvert.FruitName | scripts/convert_kmz_to_csv.py:13-98 | Every fruit group has a non-empty name |
| KmzConvert.LegitimacyName | scripts/convert_kmz_to_csv.py:13-98 | Every legitimacy is written as one of the three names |
| KmzConvert.Lookup | scripts/convert_kmz_to_csv.py:242-245 | A style URL is found exactly when it is a key of the mapping, with that key's value |
| KmzConvert.QualifiedLocal | scripts/convert_kmz_to_csv.py:187 | A tag built from a local name strips back to it |
| KmzConvert.NamespaceOfRoot | scripts/convert_kmz_to_csv.py:129-132 | A root tagged `{uri}local` gives the namespace `uri` |
| KmzConvert.FirstIndex | scripts/convert_kmz_to_csv.py:141 | The first candidate with the tag |
| KmzConvert.Find | scripts/convert_kmz_to_csv.py:141-152 | `find` returns an element with the tag |
| KmzConvert.FindFirst | scripts/convert_kmz_to_csv.py:141-152 | `find` returns the candidate with the tag that comes before every other candidate with it |
| KmzConvert.FindNone | scripts/convert_kmz_to_csv.py:141-152 | `find` gives nothing exactly when no candidate has the tag |
| KmzConvert.FindAll | scripts/convert_kmz_to_csv.py:136 | `findall` returns only elements with the tag, and one candidate gives itself when it has the tag and nothing otherwise |
| KmzConvert.FindAllMembers | scripts/convert_kmz_to_csv.py:136 | `findall` keeps exactly the candidates with the tag |
| KmzConvert.FindAllAppend | scripts/convert_kmz_to_csv.py:136 | The matches of two candidate lists one after the other are those of the first followed by those of the second, so document order is kept |
| KmzConvert.StyleOf | scripts/convert_kmz_to_csv.py:141-152 | A Style has a colour or an icon only when it has an `IconStyle` below it |
| KmzConvert.StylesTable | scripts/convert_kmz_to_csv.py:135-154 | The Style table has at most one entry per Style element |
| KmzConvert.StylesTableKeys | scripts/convert_kmz_to_csv.py:136-154 | A Style table key is exactly the id of some Style that has one; Styles without an id are skipped |
| KmzConvert.StylesTableLastWins | scripts/convert_kmz_to_csv.py:154 | Of several Styles with one id, the last wins |
| KmzConvert.BuildStyles | scripts/convert_kmz_to_csv.py:134-154 | The loop fills exactly the Style table of the document's Styles |
| KmzConvert.NormalOfStep | scripts/convert_kmz_to_csv.py:166-172 | One step of the Pair search |
| KmzConvert.NormalOfFirst | scripts/convert_kmz_to_csv.py:166-172 | The first `normal` Pair decides |
| KmzConvert.NormalOfNone | scripts/convert_kmz_to_csv.py:164-175 | Without a `normal` Pair a StyleMap has no reference |
| KmzConvert.FindNormal | scripts/convert_kmz_to_csv.py:163-172 | The Pair loop stops at the first `normal` Pair and gives its reference |
| KmzConvert.Entries | scripts/convert_kmz_to_csv.py:158-175 | One entry per StyleMap, in order |
| KmzConvert.StyleMapsCrash | scripts/convert_kmz_to_csv.py:158-175 | The conversion stops exactly when a StyleMap with an id has a `normal` `styleUrl` without text |
| KmzConvert.MapsTableStep | scripts/convert_kmz_to_csv.py:174-175 | An entry that does not crash adds its reference under its id when both are non-empty |
| KmzConvert.CrashAt | scripts/convert_kmz_to_csv.py:171 | A crashing entry ends the whole table |
| KmzConvert.MapsTableCrash | scripts/convert_kmz_to_csv.py:158-175 | The table fails exactly when some entry crashes |
| KmzConvert.CrashPersists | scripts/convert_kmz_to_csv.py:171 | Once a prefix has crashed the whole table has |
| KmzConvert.MapsTable | scripts/convert_kmz_to_csv.py:157-175 | Without a crash, the StyleMap table has at most one entry per StyleMap |
| KmzConvert.MapsTableKeys | scripts/convert_kmz_to_csv.py:159-175 | Without a crash, a key is exactly the id of a StyleMap with a non-empty `normal` reference |
| KmzConvert.MapsTableNonEmpty | scripts/convert_kmz_to_csv.py:174-175 | Every recorded reference is non-empty |
| KmzConvert.BuildStyleMaps | scripts/convert_kmz_to_csv.py:156-175 | The loop fills exactly the StyleMap table, or stops |
| KmzConvert.StyleMapsOf | scripts/convert_kmz_to_csv.py:158-175 | The loop over the found StyleMaps computes their table |
| KmzConvert.CoordinatePair | scripts/convert_kmz_to_csv.py:229-233 | A missing or empty text gives two empty parts, and neither part ever holds a comma |
| KmzConvert.CoordinatePairSplit | scripts/convert_kmz_to_csv.py:226-233 | `lon,lat,...` gives longitude and latitude as the first two parts |
| KmzConvert.CoordinatePairNoComma | scripts/convert_kmz_to_csv.py:230-231 | Fewer than two parts leave both empty |
| KmzConvert.PlacemarkRow | scripts/convert_kmz_to_csv.py:201-259 | The row of one Placemark; its fields are stated by `InferredIffKnown`, `ColorAndIcon`, `CoordinatePair` and `CleanText` |
| KmzConvert.InferredIffKnown | scripts/convert_kmz_to_csv.py:236-245 | Fruit type and legitimacy are filled exactly when the stripped style URL is a mapping key, and are empty otherwise |
| KmzConvert.ColorAndIcon | scripts/convert_kmz_to_csv.py:247-257 | Colour and icon come from the Style the URL leads to, and are empty when there is none |
| KmzConvert.StyleTarget | scripts/convert_kmz_to_csv.py:247-251 | A reference that is not a StyleMap id is the style URL with `#` stripped |
| KmzConvert.StyleMapFollowedOnce | scripts/convert_kmz_to_csv.py:247-251 | The StyleMap table is followed once, never twice |
| KmzConvert.Rows | scripts/convert_kmz_to_csv.py:185-260 | `process_element`; its rows are stated by `PlacemarkOneRow`, `NamedFolderLayer`, `DocumentKeepsLayer`, `OtherTagsSkipped` and `RowsAtMostPlacemarks` |
| KmzConvert.RowsOf | scripts/convert_kmz_to_csv.py:198-199 | The children loop; its rows are stated by `RowsOfStep`, `PlacemarkRows` and `InheritedLayer` |
| KmzConvert.RowsOfStep | scripts/convert_kmz_to_csv.py:198-199 | One more sibling adds its own rows |
| KmzConvert.InheritedLayer | scripts/convert_kmz_to_csv.py:189-199 | Below elements with no named Folder, every row carries the inherited layer |
| KmzConvert.InheritedLayerOne | scripts/convert_kmz_to_csv.py:189-199 | The same for one element |
| KmzConvert.NamedFolderLayer | scripts/convert_kmz_to_csv.py:190-195 | A named Folder sets the layer of its rows to its name |
| KmzConvert.DocumentKeepsLayer | scripts/convert_kmz_to_csv.py:192-193 | A Document passes the layer on unchanged, named or not |
| KmzConvert.PlacemarkOneRow | scripts/convert_kmz_to_csv.py:201-259 | A Placemark gives exactly its own row |
| KmzConvert.PlacemarkRows | scripts/convert_kmz_to_csv.py:201-264 | Sibling Placemarks give one row each, in order |
| KmzConvert.OtherTagsSkipped | scripts/convert_kmz_to_csv.py:189-201 | Any other tag gives no row and is not descended into |
| KmzConvert.PlacemarkCountConcat | scripts/convert_kmz_to_csv.py:198-199 | Placemark counts add up over concatenation |
| KmzConvert.RowsAtMostPlacemarks | scripts/convert_kmz_to_csv.py:185-264 | There are no more rows than Placemark elements |
| KmzConvert.RowsOfOneAtMost | scripts/convert_kmz_to_csv.py:185-260 | The same bound for one element |
| KmzConvert.Output.constructor | scripts/convert_kmz_to_csv.py:178-183 | The CSV starts with no rows and a count of 0 |
| KmzConvert.Output.WriteRow | scripts/convert_kmz_to_csv.py:259 | `writerow` appends exactly the row |
| KmzConvert.ProcessElement | scripts/convert_kmz_to_csv.py:185-260 | `process_element` writes the element's rows and keeps the count equal to the rows written |
| KmzConvert.ProcessChildren | scripts/convert_kmz_to_csv.py:198-199 | The loop over children writes their rows in order |
| KmzConvert.Converted | scripts/convert_kmz_to_csv.py:129-266 | The conversion stops exactly when some StyleMap with an id has a `normal` Pair whose `styleUrl` has no text |
| KmzConvert.ConvertKml | scripts/convert_kmz_to_csv.py:129-266 | The conversion writes exactly the converted rows, counted, or nothing when it stops |
| AnalyzeStyles.EntriesOf | scripts/analyze_styles.py:10-14 | A style's group has at most one entry per row |
| AnalyzeStyles.StylesOf | scripts/analyze_styles.py:19 | The styles are listed once each |
| AnalyzeStyles.StylesOfMembers | scripts/analyze_styles.py:14-19 | The styles listed are exactly those of some row |
| AnalyzeStyles.EntriesOfPresent | scripts/analyze_styles.py:14 | A style that occurs has a non-empty group |
| AnalyzeStyles.EntriesOfAbsent | scripts/analyze_styles.py:14 | A style that does not occur has no entries |
| AnalyzeStyles.EntriesStep | scripts/analyze_styles.py:14 | One more row adds its entry to its own style's group only |
| AnalyzeStyles.StylesStep | scripts/analyze_styles.py:14 | One more row adds its style to the key order when it is new |
| AnalyzeStyles.OrderStep | scripts/analyze_styles.py:14 | The dictionary's key order after one more row |
| AnalyzeStyles.ListsStep | scripts/analyze_styles.py:14 | The dictionary's lists after one more row |
| AnalyzeStyles.GroupedStep | scripts/analyze_styles.py:10-14 | One more row keeps the grouping state that of the longer table |
| AnalyzeStyles.GroupRow | scripts/analyze_styles.py:11-14 | One pass of the loop appends the row to its style's list |
| AnalyzeStyles.GroupByStyle | scripts/analyze_styles.py:6-14 | The loop groups the rows by style: keys in first-appearance order, each list exactly that style's rows in order and non-empty |
| AnalyzeStyles.Classify | scripts/analyze_styles.py:29-35 | The checks run semi, then not, then plain; the first that matches decides |
| AnalyzeStyles.MarkedIffKeyword | scripts/analyze_styles.py:34 | A description is counted at all exactly when it contains the plain keyword |
| AnalyzeStyles.Tally | scripts/analyze_styles.py:27-35 | A count is at most the group's size |
| AnalyzeStyles.TallyTotal | scripts/analyze_styles.py:27-35 | Every entry is counted under exactly one class |
| AnalyzeStyles.CountLegitimacy | scripts/analyze_styles.py:27-35 | The counter loop gives the three tallies, and `yes + semi + no` is at most the group size |
| AnalyzeStyles.MostCommon | scripts/analyze_styles.py:23-24 | The common layer is a layer of the group with the highest count, the first such one |
| AnalyzeStyles.Layers | scripts/analyze_styles.py:23 | The layers of the group, in order |
| AnalyzeStyles.AnalyzeStyles | scripts/analyze_styles.py:5-39 | One line per style in first-appearance order, with its non-zero count of rows and its three tallies, which add up to at most that count. Its layer is the group's most frequent layer, the first in file order among ties, cut to 30 characters |
| Analytics.Clip | src/lib/analytics.ts:8 | A prefix of the input of length 120, or the whole input when it is shorter |
| Analytics.CollapseSingleSpaced | src/lib/analytics.ts:7 | Replacing whitespace runs leaves single spaces only |
| Analytics.SingleSpacedSlice | src/lib/analytics.ts:7-8 | Trimming and clipping keep a string single-spaced |
| Analytics.NormalizeLabel | src/lib/analytics.ts:5-9 | Missing or empty gives nothing. Otherwise whitespace runs collapse to one space, the ends are trimmed and the result is clipped to 120; it is nothing exactly when that trimmed text is empty. The result is single-spaced, non-empty, and starts with no space |
| Analytics.NormalizeValue | src/lib/analytics.ts:11-15 | Only the ends are trimmed and the result is clipped to 120; it is nothing exactly when the trimmed value is empty |
| Analytics.NormalizeValueClean | src/lib/analytics.ts:11-15 | A short value without whitespace is sent unchanged |
| Analytics.FirstNonEmpty | src/lib/analytics.ts:47-52 | The `\|\|` chain gives a non-empty candidate, or nothing exactly when all are blank |
| Analytics.FirstNonEmptyIsFirst | src/lib/analytics.ts:47-52 | The first non-blank candidate is chosen |
| Analytics.EventName | src/lib/analytics.ts:40-41 | A non-empty `data-analytics-event` wins over the default |
| Analytics.AnalyticsLabel | src/lib/analytics.ts:43-44 | The analytics label, else the fallback, else nothing |
| Analytics.TrackButtonClick | src/lib/analytics.ts:64-73 | Without the tag nothing is sent. Otherwise the event carries the chosen name, the page path, the id, `name` and `role` when non-empty, the chosen label or `unlabeled`, the element's type or `button`, and no value |
| Analytics.TrackInputChange | src/lib/analytics.ts:75-86 | As for a click, with `text` as the default type; the value is sent exactly when `data-analytics-include-value` is `"true"` and the trimmed value is non-empty, and then it is the normalised value |
| Analytics.AnalyticsLabelVerbatim | src/lib/analytics.ts:43-44 | A non-empty analytics label is reported as written |
| Analytics.UnlabeledButton | src/lib/analytics.ts:46-70 | A button with no label source is reported as `unlabeled` |
| TreeIdInput.DetectSearchType | src/components/TreeIdInput.tsx:14-16 | A value is a tree id exactly when it contains `+` |
| TreeIdInput.HandleSubmit | src/components/TreeIdInput.tsx:18-25 | A blank value searches nothing; otherwise the trimmed value is searched with the type detected on it |
| TreeIdInput.TrimKeepsPlus | src/components/TreeIdInput.tsx:21-22 | Trimming never removes a `+` |
| TreeIdInput.SubmitTypeOfRaw | src/components/TreeIdInput.tsx:20-22 | The type of the trimmed value is that of the raw value |
| TreeIdInput.DefaultIsTreeId | src/components/TreeIdInput.tsx:11 | The initial value is searched as a tree id |
| Text.LeadingCount | supabase/functions/create-upload-url/index.ts:68 | Counts exactly the leading characters that `trim` removes |
| Text.TrailingCount | supabase/functions/create-upload-url/index.ts:68 | Counts exactly the trailing characters that `trim` removes |
| Text.Strip | supabase/functions/create-upload-url/index.ts:68 | `trim` and `strip` give the middle of the string: it starts after the leading removable characters and, unless all are removable, is as long as what remains once the trailing ones are dropped too. It starts and ends with a kept character and is empty exactly for a blank string |
| Text.StripKeeps | supabase/functions/create-upload-url/index.ts:68 | Trimming keeps any property every character has |
| Text.StripOfClean | supabase/functions/create-upload-url/index.ts:68 | A string with no removable character is kept |
| Text.StripIdempotent | supabase/functions/create-upload-url/index.ts:68 | Trimming twice is trimming once |
| Text.StripOfTrimmed | scripts/convert_kmz_to_csv.py:10 | A string not starting or ending with a removable character is kept |
| Text.IndexOf | supabase/functions/create-upload-url/index.ts:58 | The first position of the character, or the length when there is none |
| Text.Split | supabase/functions/record-upload/index.ts:61 | `split` gives at least one piece and no piece holds the separator |
| Text.JoinSplit | supabase/functions/record-upload/index.ts:61 | Splitting and joining again gives the string back |
| Text.SplitClean | supabase/functions/record-upload/index.ts:61 | A string without the separator is one piece |
| Text.SplitJoin | supabase/functions/record-upload/index.ts:61 | Splitting a join of separator-free pieces gives the pieces back |
| Text.LastPiece | supabase/functions/create-upload-url/index.ts:59 | `split(sep).pop()` has no separator |
| Text.LastPieceAfter | supabase/functions/create-upload-url/index.ts:59 | After the last separator comes the final piece |
| Text.FirstPiece | supabase/functions/record-upload/index.ts:61 | `split(sep)[0]` is a separator-free prefix, the first piece of the split |
| Text.ReplaceSpaceRunsClean | supabase/functions/create-upload-url/index.ts:68 | Replacing whitespace runs by a whitespace-free text leaves no whitespace |
| Text.ReplaceSpaceRunsIdentity | supabase/functions/create-upload-url/index.ts:68 | A whitespace-free string is left alone |
| Text.Filter | supabase/functions/create-upload-url/index.ts:68 | Removing a character class leaves only the kept characters; a single character gives itself or nothing |
| Text.FilterAppend | supabase/functions/create-upload-url/index.ts:68 | Filtering works piece by piece, so every kept character remains, in order |
| Text.FilterIdentity | supabase/functions/create-upload-url/index.ts:68 | A string of kept characters is unchanged |
| Text.FilterKeepsClean | supabase/functions/create-upload-url/index.ts:68 | Removing characters adds none |
| Text.LowerChar | supabase/functions/create-upload-url/index.ts:59-60 | Only an ASCII letter or digit, or the Kelvin sign, lower-cases to `[a-z0-9]` |
| Text.LowerAscii | supabase/functions/create-upload-url/index.ts:59 | Lower-casing works character by character and keeps the length |
| Text.NatToString | supabase/functions/create-upload-url/index.ts:98 | A number is written with at least one digit and digits only |
| Text.NatToStringValue | supabase/functions/create-upload-url/index.ts:98 | The digits read back as the number, with no leading zero except for 0 itself |
| Text.Double | src/services/queryRunner.ts:187 | Doubling a character adds one per occurrence and keeps the same characters |
| Text.UndoubleDouble | src/services/queryRunner.ts:187 | Collapsing undoes doubling |

## Left out

- HTTP plumbing: `Deno.serve`, CORS headers, JSON encoding of responses and environment loading are not modelled. A response is a preflight marker, a 200 body or an error code with its message.
- The S3 SDK and the Supabase client: signing, `PutObject`, `HeadObject`, the insert and the update are store operations with a success or failure parameter. The presigned URL is an opaque string given to `UploadUrl.CreateUploadUrl`.
- `crypto.randomUUID` is a token parameter; uniqueness across clients and races between moderators are not modelled.
- Multipart parsing is not modelled: the parsed form is a parameter, `None` when the body is not a form. `Number(...)` is a function parameter returning an integer, so a non-numeric size string, which is NaN in JavaScript and passes the proxy's range check, is not modelled.
- Numbers are integers: fractional sizes, limits, offsets and coordinates are not modelled.
- Dates: `Date` parsing is a `parseTime` parameter, and the dashboard's day bounds are given as instants (`Option<int>`). `toLocaleLowerCase` is a `lower` parameter. `formatMonthYear` and the gallery labels are not modelled.
- TreeCard.UploadDialog.HandleUpload: runs to completion as one step. An interleaving with the dialog being closed mid-upload is not modelled. The toast is left out, and `onUploadComplete` is a completion counter.
- The dashboard's status update mutation, its refresh button and the per-row status select (`ReviewDashboard.tsx` lines 94-111, 171 and 241) are calls to the review gateway, which is modelled by `ReviewMedia.ReviewMedia`. React Query caching and the municipality lookup request are not modelled.
- ReviewMedia.ReviewMedia: the database's order among rows with equal `created_at` is taken to be store order. A failed list query is a fault flag; the error's details are not modelled.
- JavaScript object key order is modelled as a sequence of pairs in the CSV export. `String(value)` for non-string values is not modelled: a field's value is given as its string form.
- The converter's zip, XML and CSV input and output and its printing are not modelled. The parsed document is an element tree, and the CSV is the `Output` object's rows.
- `STYLE_MAPPING` is a list of distinct pairs rather than a dictionary; lookups agree because no key repeats.
- `trackUiEvent`'s call to `gtag` is not modelled: the event it would send is the result. The tag's presence and the page path are parameters.
- The fixed query texts (`findWithPhotos`, `countByMunicipality` and the like) and `findByBoundingBox` have no properties beyond their text. `runQuery`'s fetch and Base64 encoding are the `run` parameter of `QueryRunner.RunQueries`, and `runQueryWithLogging` is left out because it only logs.
- `fetchTreeData` is network I/O and is left out. The rows it returns are the input of `TreeApi.TransformTreeData`, and JavaScript's number-to-string conversion there is a `show` parameter.
- Analyze styles: reading the CSV and printing the report are not modelled. The report is a sequence of lines, and its column padding is not modelled.
- Analytics.Clip: counts characters, while JavaScript's `slice` counts UTF-16 code units, so a label with characters outside the Basic Multilingual Plane (emoji) is cut at a different place, and `slice` can split a surrogate pair.
- TreeCard.GalleryItems: `parseTime` returns an integer, so an unparsable `created_at`, which is NaN in JavaScript and makes the comparator inconsistent, is not modelled.
- Text.LowerChar: models `toLowerCase` only as far as it decides membership in `[a-z0-9]`. Other characters are mapped to themselves, which is weaker than full Unicode lower-casing.
- UploadUrl.ExtensionFromMime: the extension table is a JavaScript object read with `map[mimeType]`, so a type named like an inherited member (`constructor`, `toString`) would find that member instead of nothing. The model reads only the table's own keys. The handler calls it only after refusing every type that does not start with `image/` (supabase/functions/create-upload-url/index.ts:93), so such a type cannot reach it.

=== FILE: analytics.dfy ===
/**
  Analytics for buttons and inputs: which event name and label a click or an input change is
  reported with, how labels and values are normalised, and which parameters are sent to the
  analytics tag when it is present.
 */
module Analytics {
  import opened Wrappers
  import opened Text

  const MAX_LABEL_LENGTH: nat := 120

  /** The first `MAX_LABEL_LENGTH` characters (`slice(0, 120)`). */
  function Clip(s: string): (r: string)
    ensures |r| <= MAX_LABEL_LENGTH && r <= s
    ensures |r| == if |s| <= MAX_LABEL_LENGTH then |s| else MAX_LABEL_LENGTH
  {
    if |s| <= MAX_LABEL_LENGTH then s else s[..MAX_LABEL_LENGTH]
  }

  /** The only whitespace is a plain space, and never two in a row. */
  predicate SingleSpaced(s: string) {
    forall i | 0 <= i < |s| && IsSpace(s[i]) :: s[i] == ' ' && (i + 1 < |s| ==> !IsSpace(s[i + 1]))
  }

  /** Replacing every whitespace run by one space leaves a single-spaced string. */
  lemma {:induction false} CollapseSingleSpaced(s: string)
    ensures SingleSpaced(ReplaceSpaceRuns(s, " "))
    ensures s != [] && !IsSpace(s[0]) ==> ReplaceSpaceRuns(s, " ")[0] == s[0]
    decreases |s|
  {
    if s != [] {
      var r := ReplaceSpaceRuns(s, " ");
      if IsSpace(s[0]) {
        var t := s[LeadingCount(s, IsSpace)..];
        CollapseSingleSpaced(t);
        assert r == " " + ReplaceSpaceRuns(t, " ");
        assert forall i | 1 <= i < |r| :: r[i] == ReplaceSpaceRuns(t, " ")[i - 1];
      } else {
        CollapseSingleSpaced(s[1..]);
        assert r == [s[0]] + ReplaceSpaceRuns(s[1..], " ");
        assert forall i | 1 <= i < |r| :: r[i] == ReplaceSpaceRuns(s[1..], " ")[i - 1];
      }
    }
  }

  /** A stretch of a single-spaced string is single-spaced. */
  lemma SingleSpacedSlice(s: string, a: nat, b: nat)
    requires a <= b <= |s| && SingleSpaced(s)
    ensures SingleSpaced(s[a..b])
  {
    var t := s[a..b];
    forall i | 0 <= i < |t| && IsSpace(t[i])
      ensures t[i] == ' ' && (i + 1 < |t| ==> !IsSpace(t[i + 1]))
    {
      assert t[i] == s[a + i];
      if i + 1 < |t| {
        assert t[i + 1] == s[a + i + 1];
      }
    }
  }

  /** `normalizeLabel`: whitespace runs become one space, the ends are trimmed, the rest is clipped. */
  function NormalizeLabel(v: Option<string>): (r: Option<string>)
    ensures v.None? || v.value == [] ==> r.None?
    ensures r.None? <==> v.None? || Trim(ReplaceSpaceRuns(v.value, " ")) == []
    ensures r.Some? ==> r.value != [] && |r.value| <= MAX_LABEL_LENGTH && !IsSpace(r.value[0])
    ensures r.Some? ==> r.value <= Trim(ReplaceSpaceRuns(v.value, " ")) && SingleSpaced(r.value)
    ensures r.Some? ==> r.value == Clip(Trim(ReplaceSpaceRuns(v.value, " ")))
  {
    if v.None? || v.value == [] then None
    else
      var collapsed := ReplaceSpaceRuns(v.value, " ");
      var n := Trim(collapsed);
      CollapseSingleSpaced(v.value);
      SingleSpacedSlice(collapsed, LeadingCount(collapsed, IsSpace), LeadingCount(collapsed, IsSpace) + |n|);
      SingleSpacedSlice(n, 0, |Clip(n)|);
      assert Clip(n) == n[0..|Clip(n)|];
      if n == [] then None else Some(Clip(n))
  }

  /** `normalizeValue`: only the ends are trimmed; inner whitespace is kept. */
  function NormalizeValue(v: Option<string>): (r: Option<string>)
    ensures r.None? <==> v.None? || Trim(v.value) == []
    ensures r.Some? ==> r.value != [] && |r.value| <= MAX_LABEL_LENGTH && r.value <= Trim(v.value)
    ensures r.Some? ==> r.value == Clip(Trim(v.value))
  {
    if v.None? || v.value == [] then None
    else
      var n := Trim(v.value);
      if n == [] then None else Some(Clip(n))
  }

  /** A short value without whitespace is sent unchanged. */
  lemma NormalizeValueClean(v: string)
    requires NoneIn(v, IsSpace) && 0 < |v| <= MAX_LABEL_LENGTH
    ensures NormalizeValue(Some(v)) == Some(v)
  {
    StripOfClean(v, IsSpace);
  }

  /** An element as the analytics code reads it; an attribute that is not set is absent from the map. */
  datatype Element = Element(
    attributes: map<string, string>,
    id: string,
    textContent: Option<string>,
    elementType: string,
    value: string)

  function Attribute(e: Element, name: string): Option<string> {
    if name in e.attributes then Some(e.attributes[name]) else None
  }

  /** A value JavaScript's `||` skips: missing or empty. */
  predicate Blank(v: Option<string>) {
    v.None? || v.value == []
  }

  /** JavaScript `a || b || …` over optional strings: the first non-empty one. */
  function FirstNonEmpty(candidates: seq<Option<string>>): (r: Option<string>)
    ensures r.Some? ==> r.value != [] && r in candidates
    ensures r.None? <==> forall i | 0 <= i < |candidates| :: Blank(candidates[i])
  {
    if candidates == [] then None
    else if !Blank(candidates[0]) then candidates[0]
    else
      var r := FirstNonEmpty(candidates[1..]);
      assert forall i | 1 <= i < |candidates| :: candidates[i] == candidates[1..][i - 1];
      r
  }

  /** The first non-blank candidate is the one chosen, whatever follows it. */
  lemma {:induction false} FirstNonEmptyIsFirst(candidates: seq<Option<string>>, i: nat)
    requires i < |candidates| && !Blank(candidates[i])
    requires forall j | 0 <= j < i :: Blank(candidates[j])
    ensures FirstNonEmpty(candidates) == candidates[i]
    decreases i
  {
    if i > 0 {
      var rest := candidates[1..];
      assert rest[i - 1] == candidates[i];
      assert forall j | 0 <= j < i - 1 :: rest[j] == candidates[j + 1];
      FirstNonEmptyIsFirst(rest, i - 1);
    }
  }

  /** A button's own label: analytics label, ARIA label, title, name, then its text. */
  function ButtonLabel(button: Element): Option<string> {
    NormalizeLabel(FirstNonEmpty([Attribute(button, "data-analytics-label"), Attribute(button, "aria-label"),
      Attribute(button, "title"), Attribute(button, "name"), button.textContent]))
  }

  /** An input's own label: analytics label, ARIA label, placeholder, name, then id. */
  function InputLabel(input: Element): Option<string> {
    NormalizeLabel(FirstNonEmpty([Attribute(input, "data-analytics-label"), Attribute(input, "aria-label"),
      Attribute(input, "placeholder"), Attribute(input, "name"), Attribute(input, "id")]))
  }

  /** `getAnalyticsEvent`: the element's own event name when set and non-empty. */
  function EventName(e: Element, fallback: string): (r: string)
    ensures Attribute(e, "data-analytics-event").Some? && Attribute(e, "data-analytics-event").value != [] ==>
      r == Attribute(e, "data-analytics-event").value
    ensures Attribute(e, "data-analytics-event").None? || Attribute(e, "data-analytics-event").value == [] ==> r == fallback
  {
    var own := Attribute(e, "data-analytics-event");
    if own.Some? && own.value != [] then own.value else fallback
  }

  /** `getAnalyticsLabel`: the analytics label as written when non-empty, else the fallback. */
  function AnalyticsLabel(e: Element, fallback: Option<string>): (r: Option<string>)
    ensures r == FirstNonEmpty([Attribute(e, "data-analytics-label"), fallback])
  {
    var own := Attribute(e, "data-analytics-label");
    if own.Some? && own.value != [] then own
    else if fallback.Some? && fallback.value != [] then fallback
    else None
  }

  /** The parameters of one reported event. */
  datatype EventParams = EventParams(
    pagePath: Option<string>,
    elementId: Option<string>,
    elementName: Option<string>,
    elementRole: Option<string>,
    elementLabel: string,
    elementType: string,
    elementValue: Option<string>)

  /** A reported event: its name and its parameters. */
  datatype Event = Event(name: string, params: EventParams)

  /** The label sent: the chosen one, or `unlabeled`. */
  function LabelOr(chosen: Option<string>): string {
    if chosen.Some? then chosen.value else "unlabeled"
  }

  function NonEmpty(v: Option<string>): Option<string> {
    if v.Some? && v.value != [] then v else None
  }

  /**
    `trackButtonClick`: the event reported for a click, or none when the analytics tag is
    missing. `pagePath` is the current path.
   */
  function TrackButtonClick(button: Element, tagPresent: bool, pagePath: Option<string>): (r: Option<Event>)
    ensures r.None? <==> !tagPresent
    ensures r.Some? ==> r.value.name == EventName(button, "ui_button_click")
    ensures r.Some? ==> r.value.params.elementLabel == LabelOr(AnalyticsLabel(button, ButtonLabel(button)))
    ensures r.Some? ==> r.value.params.elementValue.None?
    ensures r.Some? ==> r.value.params.pagePath == pagePath
    ensures r.Some? ==> r.value.params.elementId == if button.id == [] then None else Some(button.id)
    ensures r.Some? ==> r.value.params.elementName == if Blank(Attribute(button, "name")) then None else Attribute(button, "name")
    ensures r.Some? ==> r.value.params.elementRole == if Blank(Attribute(button, "role")) then None else Attribute(button, "role")
    ensures r.Some? ==> r.value.params.elementType == if button.elementType == [] then "button" else button.elementType
  {
    if !tagPresent then None
    else
      var chosen := AnalyticsLabel(button, ButtonLabel(button));
      Some(Event(EventName(button, "ui_button_click"), EventParams(
        pagePath,
        NonEmpty(Some(button.id)),
        NonEmpty(Attribute(button, "name")),
        NonEmpty(Attribute(button, "role")),
        LabelOr(chosen),
        if button.elementType != [] then button.elementType else "button",
        None)))
  }

  /** `trackInputChange`: as a click, and the value only when the input asks for it with `"true"`. */
  function TrackInputChange(input: Element, tagPresent: bool, pagePath: Option<string>): (r: Option<Event>)
    ensures r.None? <==> !tagPresent
    ensures r.Some? ==> r.value.name == EventName(input, "ui_input_change")
    ensures r.Some? ==> r.value.params.elementLabel == LabelOr(AnalyticsLabel(input, InputLabel(input)))
    ensures r.Some? ==> (r.value.params.elementValue.Some? <==>
      Attribute(input, "data-analytics-include-value") == Some("true") && Trim(input.value) != [])
    ensures r.Some? && r.value.params.elementValue.Some? ==> r.value.params.elementValue == NormalizeValue(Some(input.value))
    ensures r.Some? ==> r.value.params.pagePath == pagePath
    ensures r.Some? ==> r.value.params.elementId == if input.id == [] then None else Some(input.id)
    ensures r.Some? ==> r.value.params.elementName == if Blank(Attribute(input, "name")) then None else Attribute(input, "name")
    ensures r.Some? ==> r.value.params.elementRole == if Blank(Attribute(input, "role")) then None else Attribute(input, "role")
    ensures r.Some? ==> r.value.params.elementType == if input.elementType == [] then "text" else input.elementType
  {
    if !tagPresent then None
    else
      var chosen := AnalyticsLabel(input, InputLabel(input));
      var wantsValue := Attribute(input, "data-analytics-include-value") == Some("true");
      Some(Event(EventName(input, "ui_input_change"), EventParams(
        pagePath,
        NonEmpty(Some(input.id)),
        NonEmpty(Attribute(input, "name")),
        NonEmpty(Attribute(input, "role")),
        LabelOr(chosen),
        if input.elementType != [] then input.elementType else "text",
        if wantsValue then NormalizeValue(Some(input.value)) else None)))
  }

  /** A non-empty analytics label is reported exactly as written, without normalisation. */
  lemma AnalyticsLabelVerbatim(button: Element, text: string)
    requires Attribute(button, "data-analytics-label") == Some(text) && text != []
    ensures TrackButtonClick(button, true, None).value.params.elementLabel == text
  {
  }

  /** A button with no usable label source is reported as `unlabeled`. */
  lemma UnlabeledButton(button: Element)
    requires Attribute(button, "data-analytics-label").None? && Attribute(button, "aria-label").None?
    requires Attribute(button, "title").None? && Attribute(button, "name").None?
    requires button.textContent.None? || button.textContent.value == []
    ensures TrackButtonClick(button, true, None).value.params.elementLabel == "unlabeled"
  {
    var candidates := [Attribute(button, "data-analytics-label"), Attribute(button, "aria-label"),
      Attribute(button, "title"), Attribute(button, "name"), button.textContent];
    assert forall i | 0 <= i < |candidates| :: Blank(candidates[i]);
    assert FirstNonEmpty(candidates).None?;
    assert ButtonLabel(button).None?;
    assert AnalyticsLabel(button, ButtonLabel(button)).None?;
  }
}

=== FILE: analyze_styles.dfy ===
/**
  The style report over the converted fruit-tree table: rows grouped by their style reference, and
  for each style the number of rows, the most frequent layer and how many descriptions call the
  tree legitimate, semi-legitimate or not legitimate.
 */
module AnalyzeStyles {
  import opened Text

  /** The three columns the report reads. */
  datatype Row = Row(style: string, layer: string, desc: string)

  /** What the report keeps of a row. */
  datatype Entry = Entry(layer: string, desc: string)

  /** The entries of the rows with `style`, in file order. */
  function EntriesOf(rows: seq<Row>, style: string): (r: seq<Entry>)
    ensures |r| <= |rows|
  {
    if rows == [] then []
    else
      var last := rows[|rows| - 1];
      EntriesOf(rows[..|rows| - 1], style) + if last.style == style then [Entry(last.layer, last.desc)] else []
  }

  /** The styles in order of first appearance, each once, as a Python dict keeps its keys. */
  function StylesOf(rows: seq<Row>): (r: seq<string>)
    ensures forall i, j | 0 <= i < j < |r| :: r[i] != r[j]
  {
    if rows == [] then []
    else
      var styles := StylesOf(rows[..|rows| - 1]);
      if rows[|rows| - 1].style in styles then styles else styles + [rows[|rows| - 1].style]
  }

  /** The order holds exactly the styles some row has. */
  lemma {:induction false} StylesOfMembers(rows: seq<Row>)
    ensures forall s :: s in StylesOf(rows) <==> exists i | 0 <= i < |rows| :: rows[i].style == s
    decreases |rows|
  {
    if rows != [] {
      var init := rows[..|rows| - 1];
      var last := rows[|rows| - 1];
      StylesOfMembers(init);
      forall s ensures s in StylesOf(rows) <==> exists i | 0 <= i < |rows| :: rows[i].style == s {
        if s in StylesOf(init) {
          var i :| 0 <= i < |init| && init[i].style == s;
          assert rows[i] == init[i];
        } else if s != last.style {
          assert forall i | 0 <= i < |init| :: rows[i] == init[i];
        }
      }
    }
  }

  /** A style that appears in the rows has at least one entry. */
  lemma {:induction false} EntriesOfPresent(rows: seq<Row>, i: nat)
    requires i < |rows|
    ensures |EntriesOf(rows, rows[i].style)| > 0
    decreases |rows|
  {
    if i < |rows| - 1 {
      var init := rows[..|rows| - 1];
      assert init[i] == rows[i];
      EntriesOfPresent(init, i);
    }
  }

  /** A style no row has has no entries. */
  lemma {:induction false} EntriesOfAbsent(rows: seq<Row>, style: string)
    requires forall i | 0 <= i < |rows| :: rows[i].style != style
    ensures EntriesOf(rows, style) == []
  {
    if rows != [] {
      EntriesOfAbsent(rows[..|rows| - 1], style);
    }
  }

  /** One more row adds its entry to its own style's group only. */
  lemma EntriesStep(seen: seq<Row>, row: Row, style: string)
    ensures EntriesOf(seen + [row], style) ==
      EntriesOf(seen, style) + if row.style == style then [Entry(row.layer, row.desc)] else []
  {
    assert (seen + [row])[..|seen|] == seen;
  }

  /** One more row adds its style to the order when the style is new. */
  lemma StylesStep(seen: seq<Row>, row: Row)
    ensures StylesOf(seen + [row]) == StylesOf(seen) + if row.style in StylesOf(seen) then [] else [row.style]
  {
    assert (seen + [row])[..|seen|] == seen;
  }

  /** The grouping state once the rows `seen` are in. */
  ghost predicate Grouped(seen: seq<Row>, groups: map<string, seq<Entry>>, order: seq<string>) {
    && order == StylesOf(seen)
    && (forall s :: s in groups <==> s in order)
    && (forall s | s in groups :: groups[s] == EntriesOf(seen, s) && groups[s] != [])
  }

  /** The key order after one more row: its style is added when it is new. */
  lemma OrderStep(seen: seq<Row>, row: Row, groups: map<string, seq<Entry>>, order: seq<string>,
                  groups': map<string, seq<Entry>>, order': seq<string>)
    requires order == StylesOf(seen) && forall s :: s in groups <==> s in order
    requires forall s :: s in groups' <==> s in groups || s == row.style
    requires order' == if row.style in groups then order else order + [row.style]
    ensures order' == StylesOf(seen + [row]) && forall s :: s in groups' <==> s in order'
  {
    StylesStep(seen, row);
  }

  /** The lists after one more row: its entry is appended to its own style's list. */
  lemma ListsStep(seen: seq<Row>, row: Row, groups: map<string, seq<Entry>>, groups': map<string, seq<Entry>>)
    requires forall s | s in groups :: groups[s] == EntriesOf(seen, s) && groups[s] != []
    requires forall s :: s in groups <==> s in StylesOf(seen)
    requires groups' == groups[row.style :=
      (if row.style in groups then groups[row.style] else []) + [Entry(row.layer, row.desc)]]
    ensures forall s | s in groups' :: groups'[s] == EntriesOf(seen + [row], s) && groups'[s] != []
  {
    forall s | s in groups'
      ensures groups'[s] == EntriesOf(seen + [row], s) && groups'[s] != []
    {
      EntriesStep(seen, row, s);
      if s == row.style && s !in groups {
        StylesOfMembers(seen);
        EntriesOfAbsent(seen, s);
      }
    }
  }

  /** One more row added to the grouping state keeps it the grouping state of the longer table. */
  lemma GroupedStep(seen: seq<Row>, row: Row, groups: map<string, seq<Entry>>, order: seq<string>,
                    groups': map<string, seq<Entry>>, order': seq<string>)
    requires Grouped(seen, groups, order)
    requires groups' == groups[row.style :=
      (if row.style in groups then groups[row.style] else []) + [Entry(row.layer, row.desc)]]
    requires order' == if row.style in groups then order else order + [row.style]
    ensures Grouped(seen + [row], groups', order')
  {
    OrderStep(seen, row, groups, order, groups', order');
    ListsStep(seen, row, groups, groups');
  }

  /** One pass of the grouping loop: the row appended to its style's list, a new style remembered. */
  method GroupRow(ghost seen: seq<Row>, row: Row, groups: map<string, seq<Entry>>, order: seq<string>)
    returns (groups': map<string, seq<Entry>>, order': seq<string>)
    requires Grouped(seen, groups, order)
    ensures Grouped(seen + [row], groups', order')
  {
    var entry := Entry(row.layer, row.desc);
    if row.style in groups {
      groups' := groups[row.style := groups[row.style] + [entry]];
      order' := order;
    } else {
      groups' := groups[row.style := [entry]];
      order' := order + [row.style];
      assert [] + [entry] == [entry];
    }
    GroupedStep(seen, row, groups, order, groups', order');
  }

  /**
    The grouping loop: `style_data[style].append(...)` for every row. `order` is the dict's key
    order.
   */
  method GroupByStyle(rows: seq<Row>) returns (groups: map<string, seq<Entry>>, order: seq<string>)
    ensures order == StylesOf(rows)
    ensures forall s :: s in groups <==> s in order
    ensures forall s | s in groups :: groups[s] == EntriesOf(rows, s) && groups[s] != []
  {
    groups := map[];
    order := [];
    var i := 0;
    assert rows[..0] == [];
    while i < |rows|
      invariant 0 <= i <= |rows|
      invariant Grouped(rows[..i], groups, order)
    {
      groups, order := GroupRow(rows[..i], rows[i], groups, order);
      assert rows[..i] + [rows[i]] == rows[..i + 1];
      i := i + 1;
    }
    assert rows[..i] == rows;
  }

  datatype Legitimacy = Semi | Not | Legit | Unmarked

  const SEMI_KEYWORD: string := "חצי לגיטימי"
  const NOT_KEYWORD: string := "לא לגיטימי"
  const LEGIT_KEYWORD: string := "לגיטימי"

  /** The keyword checks, in their order: the first that matches decides. */
  function Classify(desc: string): (r: Legitimacy)
    ensures r == Semi <==> Contains(desc, SEMI_KEYWORD)
    ensures r == Not <==> !Contains(desc, SEMI_KEYWORD) && Contains(desc, NOT_KEYWORD)
    ensures r == Legit <==> !Contains(desc, SEMI_KEYWORD) && !Contains(desc, NOT_KEYWORD) && Contains(desc, LEGIT_KEYWORD)
  {
    if Contains(desc, SEMI_KEYWORD) then Semi
    else if Contains(desc, NOT_KEYWORD) then Not
    else if Contains(desc, LEGIT_KEYWORD) then Legit
    else Unmarked
  }

  /** A piece of a piece of `s` is a piece of `s`. */
  lemma {:induction false} ContainsSuffix(s: string, t: string, u: string, k: nat)
    requires Contains(s, t) && k + |u| <= |t| && t[k..k + |u|] == u
    ensures Contains(s, u)
    decreases |s|
  {
    if t <= s {
      assert s[k..k + |u|] == u;
      ContainsAt(s, u, k);
    } else {
      ContainsSuffix(s[1..], t, u, k);
      ContainsShift(s, u);
    }
  }

  lemma ContainsShift(s: string, u: string)
    requires s != [] && Contains(s[1..], u)
    ensures Contains(s, u)
  {
  }

  /** Both qualified keywords end with the plain one, so a description is marked iff it has the plain one. */
  lemma MarkedIffKeyword(desc: string)
    ensures Classify(desc) != Unmarked <==> Contains(desc, LEGIT_KEYWORD)
  {
    if Contains(desc, SEMI_KEYWORD) {
      assert SEMI_KEYWORD[4..4 + |LEGIT_KEYWORD|] == LEGIT_KEYWORD;
      ContainsSuffix(desc, SEMI_KEYWORD, LEGIT_KEYWORD, 4);
    } else if Contains(desc, NOT_KEYWORD) {
      assert NOT_KEYWORD[3..3 + |LEGIT_KEYWORD|] == LEGIT_KEYWORD;
      ContainsSuffix(desc, NOT_KEYWORD, LEGIT_KEYWORD, 3);
    }
  }

  /** How many entries are classified `k`. */
  function Tally(entries: seq<Entry>, k: Legitimacy): (n: nat)
    ensures n <= |entries|
  {
    if entries == [] then 0
    else Tally(entries[..|entries| - 1], k) + if Classify(entries[|entries| - 1].desc) == k then 1 else 0
  }

  /** Every entry is counted under exactly one class. */
  lemma {:induction false} TallyTotal(entries: seq<Entry>)
    ensures Tally(entries, Semi) + Tally(entries, Not) + Tally(entries, Legit) + Tally(entries, Unmarked) == |entries|
  {
    if entries != [] {
      TallyTotal(entries[..|entries| - 1]);
    }
  }

  /** The counter loop: each entry increments at most one of the three counters. */
  method CountLegitimacy(entries: seq<Entry>) returns (yes: nat, semi: nat, no: nat)
    ensures yes == Tally(entries, Legit) && semi == Tally(entries, Semi) && no == Tally(entries, Not)
    ensures yes + semi + no <= |entries|
  {
    yes, semi, no := 0, 0, 0;
    var i := 0;
    while i < |entries|
      invariant 0 <= i <= |entries|
      invariant yes == Tally(entries[..i], Legit) && semi == Tally(entries[..i], Semi) && no == Tally(entries[..i], Not)
    {
      assert entries[..i + 1][..i] == entries[..i];
      var desc := entries[i].desc;
      if Contains(desc, SEMI_KEYWORD) {
        semi := semi + 1;
      } else if Contains(desc, NOT_KEYWORD) {
        no := no + 1;
      } else if Contains(desc, LEGIT_KEYWORD) {
        yes := yes + 1;
      }
      i := i + 1;
    }
    assert entries[..i] == entries;
    TallyTotal(entries);
  }

  /** Occurrences of `x` in `s`. */
  function Occurrences(s: seq<string>, x: string): nat {
    multiset(s)[x]
  }

  /**
    `Counter(layers).most_common(1)[0][0]`: a layer of highest frequency, the first such in file
    order when several tie.
   */
  method MostCommon(layers: seq<string>) returns (common: string, at: nat)
    requires layers != []
    ensures at < |layers| && layers[at] == common
    ensures forall j | 0 <= j < |layers| :: Occurrences(layers, layers[j]) <= Occurrences(layers, common)
    ensures forall j | 0 <= j < at :: Occurrences(layers, layers[j]) < Occurrences(layers, common)
  {
    at := 0;
    var i := 1;
    while i < |layers|
      invariant 1 <= i <= |layers| && at < i
      invariant forall j | 0 <= j < i :: Occurrences(layers, layers[j]) <= Occurrences(layers, layers[at])
      invariant forall j | 0 <= j < at :: Occurrences(layers, layers[j]) < Occurrences(layers, layers[at])
    {
      if Occurrences(layers, layers[i]) > Occurrences(layers, layers[at]) {
        at := i;
      }
      i := i + 1;
    }
    common := layers[at];
  }

  /** `at` is the first position of a layer of highest frequency: what `MostCommon` returns. */
  predicate FirstMostCommon(layers: seq<string>, at: nat) {
    && at < |layers|
    && (forall j | 0 <= j < |layers| :: Occurrences(layers, layers[j]) <= Occurrences(layers, layers[at]))
    && (forall j | 0 <= j < at :: Occurrences(layers, layers[j]) < Occurrences(layers, layers[at]))
  }

  /** `shown` is the most common of `layers`, first in file order among ties, cut to 30 characters. */
  predicate CommonLayerShown(layers: seq<string>, shown: string) {
    exists at | 0 <= at < |layers| :: FirstMostCommon(layers, at) && shown == if |layers[at]| <= 30 then layers[at] else layers[at][..30]
  }

  /** One line of the report. */
  datatype StyleLine = StyleLine(style: string, count: nat, commonLayer: string, yes: nat, semi: nat, no: nat)

  /** The layers of a group's entries. */
  function Layers(entries: seq<Entry>): (r: seq<string>)
    ensures |r| == |entries| && forall i | 0 <= i < |entries| :: r[i] == entries[i].layer
  {
    seq(|entries|, i requires 0 <= i < |entries| => entries[i].layer)
  }

  /** The report: one line per style, in order of first appearance; the layer is cut to 30 characters. */
  method AnalyzeStyles(rows: seq<Row>) returns (report: seq<StyleLine>)
    ensures |report| == |StylesOf(rows)|
    ensures forall k | 0 <= k < |report| ::
      && report[k].style == StylesOf(rows)[k]
      && report[k].count == |EntriesOf(rows, report[k].style)| > 0
      && report[k].yes == Tally(EntriesOf(rows, report[k].style), Legit)
      && report[k].semi == Tally(EntriesOf(rows, report[k].style), Semi)
      && report[k].no == Tally(EntriesOf(rows, report[k].style), Not)
      && report[k].yes + report[k].semi + report[k].no <= report[k].count
      && CommonLayerShown(Layers(EntriesOf(rows, report[k].style)), report[k].commonLayer)
  {
    var groups, order := GroupByStyle(rows);
    report := [];
    var k := 0;
    while k < |order|
      invariant 0 <= k <= |order| && |report| == k
      invariant forall m | 0 <= m < k ::
        && report[m].style == order[m]
        && report[m].count == |EntriesOf(rows, report[m].style)| > 0
        && report[m].yes == Tally(EntriesOf(rows, report[m].style), Legit)
        && report[m].semi == Tally(EntriesOf(rows, report[m].style), Semi)
        && report[m].no == Tally(EntriesOf(rows, report[m].style), Not)
        && report[m].yes + report[m].semi + report[m].no <= report[m].count
        && CommonLayerShown(Layers(EntriesOf(rows, report[m].style)), report[m].commonLayer)
    {
      var style := order[k];
      var entries := groups[style];
      var common, at := MostCommon(Layers(entries));
      var yes, semi, no := CountLegitimacy(entries);
      var shown := if |common| <= 30 then common else common[..30];
      assert FirstMostCommon(Layers(entries), at);
      report := report + [StyleLine(style, |entries|, shown, yes, semi, no)];
      k := k + 1;
    }
  }
}

=== FILE: csv_export.dfy ===
/**
  The export script's CSV writer: rows of a query result (one example tree per municipality) as
  comma-separated text with a header line, after the helper column `rn` is dropped. A field is quoted,
  with its quotes doubled, only when it holds a comma, a quote or a line feed (section 2 of RFC 4180
  would also quote a carriage return).
 */
module CsvExport {
  import opened Wrappers
  import opened Text

  /**
    One column of a result row: its name and its value as `String(value)` writes it, or `None` for
    null and undefined.
   */
  type Entry = (string, Option<string>)

  /** A result row, its columns in the object's own key order. */
  type Row = seq<Entry>

  /** A field must be quoted when it holds a comma, a double quote or a line feed. */
  predicate NeedsQuoting(s: string) {
    ',' in s || '"' in s || '\n' in s
  }

  /** One field as written: empty for null, quoted with inner quotes doubled when needed, else verbatim. */
  function CsvField(v: Option<string>): (r: string)
    ensures v.None? ==> r == []
    ensures v.Some? && !NeedsQuoting(v.value) ==> r == v.value
    ensures v.Some? && NeedsQuoting(v.value) ==>
      |r| == |v.value| + Count(v.value, '"') + 2 && r[0] == '"' && r[|r| - 1] == '"'
    ensures forall c | c != '"' :: c in r <==> v.Some? && c in v.value
  {
    if v.None? then []
    else if NeedsQuoting(v.value) then "\"" + Double(v.value, '"') + "\""
    else v.value
  }

  /** A CSV reader's view of one field: outer quotes removed and doubled quotes collapsed. */
  function Unquote(f: string): string {
    if |f| >= 2 && f[0] == '"' && f[|f| - 1] == '"' then Undouble(f[1..|f| - 1], '"') else f
  }

  /** Reading a written field gives back the value's text. */
  lemma FieldRoundTrip(s: string)
    ensures Unquote(CsvField(Some(s))) == s
  {
    if NeedsQuoting(s) {
      var f := CsvField(Some(s));
      assert f[1..|f| - 1] == Double(s, '"');
      UndoubleDouble(s, '"');
    } else if s != [] {
      assert s[0] in s;
    }
  }

  /** The column names of a row. */
  function Keys(row: Row): (r: seq<string>)
    ensures |r| == |row| && forall i | 0 <= i < |row| :: r[i] == row[i].0
  {
    seq(|row|, i requires 0 <= i < |row| => row[i].0)
  }

  /** The written fields of a row. */
  function Fields(row: Row): (r: seq<string>)
    ensures |r| == |row| && forall i | 0 <= i < |row| :: r[i] == CsvField(row[i].1)
  {
    seq(|row|, i requires 0 <= i < |row| => CsvField(row[i].1))
  }

  /** One data line: the row's fields, in its own column order, separated by commas. */
  function CsvLine(row: Row): string {
    Join(Fields(row), ",")
  }

  /** Joining pieces without `c` by a separator without `c` gives a string without `c`. */
  lemma {:induction false} JoinAvoids(parts: seq<string>, sep: string, c: char)
    requires c !in sep
    requires forall i | 0 <= i < |parts| :: c !in parts[i]
    ensures c !in Join(parts, sep)
  {
    if |parts| > 1 {
      JoinAvoids(parts[1..], sep, c);
    }
  }

  /** A value without a line feed is written without one. */
  lemma LineFree(row: Row)
    requires forall i | 0 <= i < |row| :: row[i].1.None? || '\n' !in row[i].1.value
    ensures '\n' !in CsvLine(row)
  {
    JoinAvoids(Fields(row), ",", '\n');
  }

  /** The lines of the file: the first row's column names, then one line per row. */
  function Lines(data: seq<Row>): (r: seq<string>)
    requires data != []
    ensures |r| == |data| + 1
    ensures r[0] == Join(Keys(data[0]), ",")
    ensures forall i | 0 <= i < |data| :: r[i + 1] == CsvLine(data[i])
  {
    [Join(Keys(data[0]), ",")] + seq(|data|, i requires 0 <= i < |data| => CsvLine(data[i]))
  }

  /** The whole file: empty for no rows, else the lines joined by line feeds. */
  function ArrayToCsv(data: seq<Row>): (r: string)
    ensures data == [] ==> r == []
    ensures data != [] ==> Join(Keys(data[0]), ",") <= r
  {
    if data == [] then []
    else
      var lines := Lines(data);
      assert lines == [lines[0]] + lines[1..];
      JoinStartsWith(lines, "\n");
      Join(lines, "\n")
  }

  /** A join starts with its first piece. */
  lemma JoinStartsWith(parts: seq<string>, sep: string)
    requires parts != []
    ensures parts[0] <= Join(parts, sep)
  {
  }

  /**
    Without line feeds in the first row's names or in any value, the file has exactly one line per
    row after the header, and the lines are the header and the rows' lines in order.
   */
  lemma CsvLineCount(data: seq<Row>)
    requires data != []
    requires forall i | 0 <= i < |data[0]| :: '\n' !in data[0][i].0
    requires forall r, i | 0 <= r < |data| && 0 <= i < |data[r]| :: data[r][i].1.None? || '\n' !in data[r][i].1.value
    ensures Split(ArrayToCsv(data), '\n') == Lines(data)
    ensures |Split(ArrayToCsv(data), '\n')| == |data| + 1
  {
    var lines := Lines(data);
    forall i | 0 <= i < |lines|
      ensures '\n' !in lines[i]
    {
      if i == 0 {
        JoinAvoids(Keys(data[0]), ",", '\n');
      } else {
        assert lines[i] == CsvLine(data[i - 1]);
        LineFree(data[i - 1]);
      }
    }
    SplitJoin(lines, '\n');
  }

  /** A row without its `rn` column, the other columns in their order. */
  function WithoutRn(row: Row): (r: Row)
    ensures |r| <= |row|
    ensures forall e :: e in r <==> e in row && e.0 != "rn"
    ensures |row| == 1 ==> r == if row[0].0 == "rn" then [] else row
  {
    if row == [] then []
    else
      assert row == [row[0]] + row[1..];
      assert forall e :: e in row <==> e == row[0] || e in row[1..];
      (if row[0].0 == "rn" then [] else [row[0]]) + WithoutRn(row[1..])
  }

  /** The other columns keep their order: dropping `rn` works piece by piece. */
  lemma {:induction false} WithoutRnAppend(a: Row, b: Row)
    ensures WithoutRn(a + b) == WithoutRn(a) + WithoutRn(b)
  {
    if a != [] {
      var ab := a + b;
      assert ab[0] == a[0] && ab[1..] == a[1..] + b;
      WithoutRnAppend(a[1..], b);
      var head := if a[0].0 == "rn" then [] else [a[0]];
      assert WithoutRn(ab) == head + WithoutRn(a[1..] + b);
      assert WithoutRn(a) == head + WithoutRn(a[1..]);
    } else {
      assert a + b == b;
    }
  }

  /** A row without an `rn` column is left as it is. */
  lemma {:induction false} WithoutRnIdentity(row: Row)
    requires forall i | 0 <= i < |row| :: row[i].0 != "rn"
    ensures WithoutRn(row) == row
  {
    if row != [] {
      WithoutRnIdentity(row[1..]);
      assert row == [row[0]] + row[1..];
    }
  }

  /** The file written: none when the query found no rows, else every row stripped of `rn`, then written. */
  function ExportCsv(results: seq<Row>): (r: Option<string>)
    ensures r.None? <==> results == []
    ensures r.Some? ==> Join(Keys(WithoutRn(results[0])), ",") <= r.value
  {
    if results == [] then None
    else Some(ArrayToCsv(seq(|results|, i requires 0 <= i < |results| => WithoutRn(results[i]))))
  }
}

=== FILE: json.dfy ===
/**
  Dynamically typed values as the server functions and the client see them after JSON decoding,
  with JavaScript's notions of nullishness and truthiness. `Undefined` stands for a missing
  property; numbers are integers.
 */
module Json {

  datatype Value =
    | Undefined
    | Null
    | Bool(b: bool)
    | Num(n: int)
    | Str(s: string)
    | Arr(items: seq<Value>)
    | Obj(fields: map<string, Value>)

  /** `v === null || v === undefined`, what `??` and optional chaining test. */
  predicate Nullish(v: Value) {
    v.Undefined? || v.Null?
  }

  /** JavaScript truthiness: what `if (v)`, `!v` and `||` test. */
  predicate Truthy(v: Value) {
    match v
    case Undefined => false
    case Null => false
    case Bool(b) => b
    case Num(n) => n != 0
    case Str(s) => s != []
    case Arr(_) => true
    case Obj(_) => true
  }

  /** Property access `v.name` on a value that is neither null nor undefined. */
  function Get(v: Value, name: string): (r: Value)
    ensures r != Undefined ==> v.Obj? && name in v.fields
    ensures v.Obj? && name in v.fields ==> r == v.fields[name]
  {
    if v.Obj? && name in v.fields then v.fields[name] else Undefined
  }

  /** `Object.fromEntries(Object.entries(m).filter(([, v]) => v !== undefined && v !== null))`. */
  function Compact(m: map<string, Value>): (r: map<string, Value>)
    ensures forall k :: k in r <==> k in m && !Nullish(m[k])
    ensures forall k | k in r :: r[k] == m[k]
  {
    map k | k in m && !Nullish(m[k]) :: m[k]
  }
}

=== FILE: kmz_convert.dfy ===
/**
  The KMZ-to-CSV converter of the fruit-tree map: the parsed KML document is an element tree; its
  Style and StyleMap elements are gathered into two lookup tables, and every Placemark reached
  through Document and Folder nesting becomes one CSV row carrying its layer (the nearest named
  Folder), its coordinates, its resolved icon and colour, and the fruit type and legitimacy that its
  style URL is known to stand for.
 */
module KmzConvert {
  import opened Wrappers
  import opened Text

  /** An XML element as ElementTree parses it: tag (with `{namespace}` when there is one), attributes, text, children. */
  datatype Element = Element(tag: string, attrs: map<string, string>, text: Option<string>, children: seq<Element>)

  /** The left-to-right mark removed from every text. */
  const LRM: char := '\U{200E}'

  predicate NotLrm(c: char) {
    c != LRM
  }

  /** A text as `clean_text` leaves it: no LRM, and no whitespace at either end. */
  predicate Cleaned(s: string) {
    LRM !in s && (s == [] || (!IsPySpace(s[0]) && !IsPySpace(s[|s| - 1])))
  }

  /** `clean_text`: nothing for a missing or empty text, else the text without LRMs and stripped. */
  function CleanText(text: Option<string>): (r: string)
    ensures text.None? || text.value == [] ==> r == []
    ensures text.Some? && text.value != [] ==> r == PyStrip(Filter(text.value, NotLrm))
    ensures Cleaned(r)
  {
    if text.None? || text.value == [] then []
    else
      var kept := Filter(text.value, NotLrm);
      StripKeeps(kept, IsPySpace, NotLrm);
      PyStrip(kept)
  }

  /** Cleaning a cleaned text changes nothing. */
  lemma CleanTextIdempotent(text: Option<string>)
    ensures CleanText(Some(CleanText(text))) == CleanText(text)
  {
    CleanTextKeeps(CleanText(text));
  }

  /** A text with no LRM and no surrounding whitespace is kept as it is. */
  lemma CleanTextKeeps(s: string)
    requires Cleaned(s)
    ensures CleanText(Some(s)) == s
  {
    if s != [] {
      assert AllIn(s, NotLrm);
      FilterIdentity(s, NotLrm);
      StripOfTrimmed(s, IsPySpace);
    }
  }

  /** The fruit groups the map's icons stand for. */
  datatype Fruit = Lemon | OrangeClementine | Kumquat | GrapefruitPomelo | BananaPapayaGuavaAvocado
    | LoquatMulberry | CarobSycamore | PassionfruitPitanga | MangoApricotPecan | OlivePomegranateFig

  /** The fruit group as written to the CSV. */
  function FruitName(f: Fruit): (r: string)
    ensures r != []
  {
    match f
    case Lemon => "Lemon"
    case OrangeClementine => "Orange/Clementine"
    case Kumquat => "Kumquat"
    case GrapefruitPomelo => "Grapefruit/Pomelo"
    case BananaPapayaGuavaAvocado => "Banana/Papaya/Guava/Avocado"
    case LoquatMulberry => "Loquat/Mulberry"
    case CarobSycamore => "Carob/Sycamore"
    case PassionfruitPitanga => "Passionfruit/Pitanga"
    case MangoApricotPecan => "Mango/Apricot/Pecan"
    case OlivePomegranateFig => "Olive/Pomegranate/Fig"
  }

  datatype Legitimacy = Legitimate | SemiLegitimate | NotLegitimate

  const LEGITIMATE: string := "Legitimate"
  const SEMI_LEGITIMATE: string := "Semi-Legitimate"
  const NOT_LEGITIMATE: string := "Not Legitimate"

  /** The legitimacy as written to the CSV. */
  function LegitimacyName(l: Legitimacy): (r: string)
    ensures r in {LEGITIMATE, SEMI_LEGITIMATE, NOT_LEGITIMATE}
  {
    match l
    case Legitimate => LEGITIMATE
    case SemiLegitimate => SEMI_LEGITIMATE
    case NotLegitimate => NOT_LEGITIMATE
  }

  /** What a style URL is known to stand for. */
  datatype Inferred = Inferred(fruit: Fruit, legitimacy: Legitimacy)

  /** `STYLE_MAPPING`: each known icon style URL and what it stands for; no URL occurs twice. */
  const STYLE_MAPPING: seq<(string, Inferred)> := [
    ("#icon-ci-5", Inferred(Lemon, SemiLegitimate)),
    ("#icon-ci-6", Inferred(Lemon, Legitimate)),
    ("#icon-ci-7", Inferred(Lemon, NotLegitimate)),
    ("#icon-ci-8", Inferred(OrangeClementine, SemiLegitimate)),
    ("#icon-ci-9", Inferred(OrangeClementine, Legitimate)),
    ("#icon-ci-10", Inferred(OrangeClementine, NotLegitimate)),
    ("#icon-ci-11", Inferred(OrangeClementine, Legitimate)),
    ("#icon-ci-12", Inferred(OrangeClementine, SemiLegitimate)),
    ("#icon-ci-13", Inferred(OrangeClementine, NotLegitimate)),
    ("#icon-ci-14", Inferred(GrapefruitPomelo, Legitimate)),
    ("#icon-ci-15", Inferred(GrapefruitPomelo, SemiLegitimate)),
    ("#icon-ci-16", Inferred(GrapefruitPomelo, NotLegitimate)),
    ("#icon-ci-17", Inferred(GrapefruitPomelo, SemiLegitimate)),
    ("#icon-ci-18", Inferred(GrapefruitPomelo, Legitimate)),
    ("#icon-ci-19", Inferred(GrapefruitPomelo, Legitimate)),
    ("#icon-ci-20", Inferred(PassionfruitPitanga, Legitimate)),
    ("#icon-ci-21", Inferred(PassionfruitPitanga, Legitimate)),
    ("#icon-ci-22", Inferred(PassionfruitPitanga, SemiLegitimate)),
    ("#icon-ci-23", Inferred(PassionfruitPitanga, NotLegitimate)),
    ("#icon-ci-24", Inferred(PassionfruitPitanga, SemiLegitimate)),
    ("#icon-ci-25", Inferred(Kumquat, SemiLegitimate)),
    ("#icon-ci-26", Inferred(Kumquat, Legitimate)),
    ("#icon-ci-27", Inferred(Kumquat, NotLegitimate)),
    ("#icon-ci-28", Inferred(BananaPapayaGuavaAvocado, NotLegitimate)),
    ("#icon-ci-29", Inferred(BananaPapayaGuavaAvocado, SemiLegitimate)),
    ("#icon-ci-30", Inferred(BananaPapayaGuavaAvocado, SemiLegitimate)),
    ("#icon-ci-31", Inferred(BananaPapayaGuavaAvocado, NotLegitimate)),
    ("#icon-ci-32", Inferred(BananaPapayaGuavaAvocado, Legitimate)),
    ("#icon-ci-33", Inferred(BananaPapayaGuavaAvocado, Legitimate)),
    ("#icon-ci-34", Inferred(BananaPapayaGuavaAvocado, Legitimate)),
    ("#icon-ci-35", Inferred(BananaPapayaGuavaAvocado, Legitimate)),
    ("#icon-ci-36", Inferred(BananaPapayaGuavaAvocado, SemiLegitimate)),
    ("#icon-ci-37", Inferred(BananaPapayaGuavaAvocado, Legitimate)),
    ("#icon-ci-38", Inferred(BananaPapayaGuavaAvocado, Legitimate)),
    ("#icon-ci-39", Inferred(BananaPapayaGuavaAvocado, NotLegitimate)),
    ("#icon-ci-40", Inferred(LoquatMulberry, Legitimate)),
    ("#icon-ci-41", Inferred(LoquatMulberry, SemiLegitimate)),
    ("#icon-ci-42", Inferred(LoquatMulberry, NotLegitimate)),
    ("#icon-ci-43", Inferred(LoquatMulberry, Legitimate)),
    ("#icon-ci-44", Inferred(LoquatMulberry, SemiLegitimate)),
    ("#icon-ci-45", Inferred(LoquatMulberry, NotLegitimate)),
    ("#icon-ci-46", Inferred(OlivePomegranateFig, Legitimate)),
    ("#icon-ci-47", Inferred(OlivePomegranateFig, SemiLegitimate)),
    ("#icon-ci-48", Inferred(OlivePomegranateFig, SemiLegitimate)),
    ("#icon-ci-49", Inferred(OlivePomegranateFig, SemiLegitimate)),
    ("#icon-ci-50", Inferred(OlivePomegranateFig, NotLegitimate)),
    ("#icon-ci-51", Inferred(OlivePomegranateFig, Legitimate)),
    ("#icon-ci-52", Inferred(OlivePomegranateFig, NotLegitimate)),
    ("#icon-ci-53", Inferred(OlivePomegranateFig, NotLegitimate)),
    ("#icon-ci-54", Inferred(OlivePomegranateFig, Legitimate)),
    ("#icon-ci-55", Inferred(MangoApricotPecan, SemiLegitimate)),
    ("#icon-ci-56", Inferred(MangoApricotPecan, NotLegitimate)),
    ("#icon-ci-57", Inferred(MangoApricotPecan, Legitimate)),
    ("#icon-ci-58", Inferred(MangoApricotPecan, Legitimate)),
    ("#icon-ci-59", Inferred(MangoApricotPecan, NotLegitimate)),
    ("#icon-ci-1", Inferred(CarobSycamore, SemiLegitimate)),
    ("#icon-ci-2", Inferred(CarobSycamore, SemiLegitimate)),
    ("#icon-ci-3", Inferred(CarobSycamore, Legitimate)),
    ("#icon-ci-4", Inferred(CarobSycamore, Legitimate)),
    ("#icon-959-009D57", Inferred(OlivePomegranateFig, Legitimate)),
    ("#icon-961-009D57", Inferred(MangoApricotPecan, Legitimate)),
    ("#icon-960-009D57", Inferred(OlivePomegranateFig, Legitimate)),
    ("#icon-962-009D57", Inferred(OlivePomegranateFig, Legitimate))
  ]

  /** A dictionary lookup: the value of the key, or `None` when it is not a key. */
  function Lookup(entries: seq<(string, Inferred)>, key: string): (r: Option<Inferred>)
    ensures r.None? <==> forall i | 0 <= i < |entries| :: entries[i].0 != key
    ensures r.Some? ==> exists i | 0 <= i < |entries| :: entries[i] == (key, r.value)
  {
    if entries == [] then None
    else if entries[0].0 == key then Some(entries[0].1)
    else
      var r := Lookup(entries[1..], key);
      assert forall i | 1 <= i < |entries| :: entries[i] == entries[1..][i - 1];
      r
  }



  /** The tag ElementTree matches for `kml:<local>` when the document has a namespace, else `<local>`. */
  function Qualified(ns: Option<string>, local: string): string {
    if ns.Some? then "{" + ns.value + "}" + local else local
  }

  /** The document's namespace: the root tag's `{…}` part with the braces stripped, if it has one. */
  function Namespace(root: Element): Option<string> {
    if '}' in root.tag then Some(StripChar(FirstPiece(root.tag, '}'), '{')) else None
  }

  /** The tag without its namespace (`tag.split('}')[-1]`). */
  function LocalName(tag: string): string {
    LastPiece(tag, '}')
  }

  /** A qualified tag's local name is the name it was built from. */
  lemma QualifiedLocal(ns: Option<string>, local: string)
    requires '}' !in local
    ensures LocalName(Qualified(ns, local)) == local
  {
    if ns.Some? {
      assert Qualified(ns, local) == "{" + ns.value + ['}'] + local;
      LastPieceAfter("{" + ns.value, '}', local);
    } else {
      SplitClean(local, '}');
    }
  }

  /** A root tagged in namespace `uri` yields that namespace, so the tags built from it match its elements. */
  lemma NamespaceOfRoot(root: Element, uri: string, local: string)
    requires '{' !in uri && '}' !in uri
    requires root.tag == Qualified(Some(uri), local)
    ensures Namespace(root) == Some(uri)
  {
    var head := "{" + uri;
    assert root.tag == head + ['}'] + local;
    IndexOfAfterClean(head, '}', local);
    assert FirstPiece(root.tag, '}') == head;
    var brace := IsChar('{');
    assert head[0] == '{' && head[1..] == uri;
    assert uri == [] || !brace(uri[0]);
    assert LeadingCount(head, brace) == 1 by {
      assert LeadingCount(head, brace) == 1 + LeadingCount(uri, brace);
    }
    if uri != [] {
      assert !brace(uri[|uri| - 1]);
      assert TrailingCount(uri, brace) == 0;
      assert uri[..|uri| - 0] == uri;
    }
    assert Strip(head, brace) == uri;
  }


  /** All elements below `cs` and the `cs` themselves, in document order (`iter()` without the parent). */
  function DescendantsOf(cs: seq<Element>): seq<Element>
    decreases cs
  {
    if cs == [] then []
    else
      var last := cs[|cs| - 1];
      DescendantsOf(cs[..|cs| - 1]) + [last] + DescendantsOf(last.children)
  }

  /** What `.//` searches from `e`: everything below it. */
  function Descendants(e: Element): seq<Element> {
    DescendantsOf(e.children)
  }

  /** The position of the first element with the tag, or `|es|` when there is none. */
  function FirstIndex(es: seq<Element>, tag: string): (i: nat)
    ensures i <= |es|
    ensures i < |es| ==> es[i].tag == tag
    ensures forall j | 0 <= j < i :: es[j].tag != tag
  {
    if es == [] then 0
    else if es[0].tag == tag then 0
    else 1 + FirstIndex(es[1..], tag)
  }

  /** ElementTree `find` over the candidates (children, or descendants for `.//`): the first match. */
  function Find(es: seq<Element>, tag: string): (r: Option<Element>)
    ensures r.Some? ==> r.value.tag == tag
  {
    var i := FirstIndex(es, tag);
    if i < |es| then Some(es[i]) else None
  }

  /** `find` gives the candidate with the tag that comes before every other one with it. */
  lemma {:induction false} FindFirst(es: seq<Element>, tag: string, i: nat)
    requires i < |es| && es[i].tag == tag
    requires forall j | 0 <= j < i :: es[j].tag != tag
    ensures Find(es, tag) == Some(es[i])
  {
    if i > 0 {
      FindFirst(es[1..], tag, i - 1);
    }
  }

  /** `find` gives nothing exactly when no candidate has the tag. */
  lemma FindNone(es: seq<Element>, tag: string)
    ensures Find(es, tag).None? <==> forall j | 0 <= j < |es| :: es[j].tag != tag
  {
  }

  /** ElementTree `findall`: every candidate with the tag, in order. */
  function FindAll(es: seq<Element>, tag: string): (r: seq<Element>)
    ensures |r| <= |es|
    ensures forall i | 0 <= i < |r| :: r[i].tag == tag
    ensures |es| == 1 ==> r == if es[0].tag == tag then es else []
  {
    if es == [] then []
    else (if es[0].tag == tag then [es[0]] else []) + FindAll(es[1..], tag)
  }

  /** `findall` keeps document order: the matches of a longer list follow those of its first part. */
  lemma {:induction false} FindAllAppend(a: seq<Element>, b: seq<Element>, tag: string)
    ensures FindAll(a + b, tag) == FindAll(a, tag) + FindAll(b, tag)
  {
    if a != [] {
      var ab := a + b;
      assert ab[0] == a[0] && ab[1..] == a[1..] + b;
      FindAllAppend(a[1..], b, tag);
      var head := if a[0].tag == tag then [a[0]] else [];
      assert FindAll(ab, tag) == head + FindAll(a[1..] + b, tag);
      assert FindAll(a, tag) == head + FindAll(a[1..], tag);
    } else {
      assert a + b == b;
    }
  }

  /** `findall` keeps exactly the candidates with the tag. */
  lemma {:induction false} FindAllMembers(es: seq<Element>, tag: string, x: Element)
    ensures x in FindAll(es, tag) <==> x in es && x.tag == tag
  {
    if es != [] {
      FindAllMembers(es[1..], tag, x);
      assert x in es <==> x == es[0] || x in es[1..];
    }
  }

  /** The text of a found element; nothing when none was found. */
  function TextOf(e: Option<Element>): Option<string> {
    if e.Some? then e.value.text else None
  }

  /** Python truthiness of an element's text. */
  predicate Truthy(text: Option<string>) {
    text.Some? && text.value != []
  }

  /** An element whose `id` attribute is set and non-empty (`if not style_id: continue`). */
  predicate HasId(e: Element) {
    "id" in e.attrs && e.attrs["id"] != []
  }

  /** A Style's colour and icon; either may be missing. */
  datatype StyleInfo = StyleInfo(color: Option<string>, icon: Option<string>)

  /** A Style element's entry: the first IconStyle below it, its own `color` child and the first `href` below it. */
  function StyleOf(style: Element, ns: Option<string>): (r: StyleInfo)
    ensures r.color.Some? || r.icon.Some? ==> Find(Descendants(style), Qualified(ns, "IconStyle")).Some?
  {
    var iconStyle := Find(Descendants(style), Qualified(ns, "IconStyle"));
    if iconStyle.None? then StyleInfo(None, None)
    else
      StyleInfo(
        TextOf(Find(iconStyle.value.children, Qualified(ns, "color"))),
        TextOf(Find(Descendants(iconStyle.value), Qualified(ns, "href"))))
  }

  /** The Style table after the given Style elements, in document order. */
  function StylesTable(styles: seq<Element>, ns: Option<string>): (r: map<string, StyleInfo>)
    ensures |r| <= |styles|
    decreases |styles|
  {
    if styles == [] then map[]
    else
      var table := StylesTable(styles[..|styles| - 1], ns);
      var style := styles[|styles| - 1];
      if HasId(style) then table[style.attrs["id"] := StyleOf(style, ns)] else table
  }

  /** A key of the Style table is exactly the id of some Style that has one. */
  lemma {:induction false} StylesTableKeys(styles: seq<Element>, ns: Option<string>, k: string)
    ensures k in StylesTable(styles, ns) <==> exists i | 0 <= i < |styles| :: HasId(styles[i]) && styles[i].attrs["id"] == k
    decreases |styles|
  {
    if styles != [] {
      var init := styles[..|styles| - 1];
      StylesTableKeys(init, ns, k);
      assert forall i | 0 <= i < |init| :: init[i] == styles[i];
    }
  }

  /** Of several Styles with one id, the last in document order wins. */
  lemma {:induction false} StylesTableLastWins(styles: seq<Element>, ns: Option<string>, i: nat)
    requires i < |styles| && HasId(styles[i])
    requires forall j | i < j < |styles| :: !HasId(styles[j]) || styles[j].attrs["id"] != styles[i].attrs["id"]
    ensures styles[i].attrs["id"] in StylesTable(styles, ns)
    ensures StylesTable(styles, ns)[styles[i].attrs["id"]] == StyleOf(styles[i], ns)
    decreases |styles|
  {
    var n := |styles| - 1;
    var init := styles[..n];
    StylesTableStep(styles, ns, n);
    assert styles[..n + 1] == styles;
    if i < n {
      assert init[i] == styles[i];
      StylesTableLastWins(init, ns, i);
    }
  }

  /** `styles`: the Style table, filled by a loop over every Style element in the document. */
  method BuildStyles(root: Element, ns: Option<string>) returns (styles: map<string, StyleInfo>)
    ensures styles == StylesTable(FindAll(Descendants(root), Qualified(ns, "Style")), ns)
  {
    var found := FindAll(Descendants(root), Qualified(ns, "Style"));
    styles := map[];
    var i := 0;
    while i < |found|
      invariant i <= |found|
      invariant styles == StylesTable(found[..i], ns)
    {
      var style := found[i];
      StylesTableStep(found, ns, i);
      if HasId(style) {
        styles := styles[style.attrs["id"] := StyleOf(style, ns)];
      }
      i := i + 1;
    }
    assert found[..i] == found;
  }

  /** One more Style adds its entry when it has an id. */
  lemma StylesTableStep(found: seq<Element>, ns: Option<string>, i: nat)
    requires i < |found|
    ensures StylesTable(found[..i + 1], ns) ==
      if HasId(found[i]) then StylesTable(found[..i], ns)[found[i].attrs["id"] := StyleOf(found[i], ns)]
      else StylesTable(found[..i], ns)
  {
    assert found[..i + 1][..i] == found[..i];
  }

  /**
    What a StyleMap's `normal` Pair gives: nothing, a style reference, or a crash (a `styleUrl`
    without text, whose `.strip` fails on `None` and ends the conversion).
   */
  datatype Normal = Unset | Ref(ref: string) | Crash

  /** A Pair whose own `key` child has the text `normal`. */
  predicate IsNormalPair(pair: Element, ns: Option<string>) {
    var key := Find(pair.children, Qualified(ns, "key"));
    key.Some? && key.value.text == Some("normal")
  }

  /** The reference of a `normal` Pair: its `styleUrl` child's text with `#` stripped from both ends. */
  function PairNormal(pair: Element, ns: Option<string>): Normal {
    var url := Find(pair.children, Qualified(ns, "styleUrl"));
    if url.None? then Unset
    else if url.value.text.None? then Crash
    else Ref(StripChar(url.value.text.value, '#'))
  }

  /** The first `normal` Pair decides; later Pairs are never looked at. */
  function NormalOf(pairs: seq<Element>, ns: Option<string>): Normal
    decreases |pairs|
  {
    if pairs == [] then Unset
    else if IsNormalPair(pairs[0], ns) then PairNormal(pairs[0], ns)
    else NormalOf(pairs[1..], ns)
  }

  /** One step of the search for the `normal` Pair. */
  lemma NormalOfStep(pairs: seq<Element>, ns: Option<string>, i: nat)
    requires i < |pairs|
    ensures NormalOf(pairs[i..], ns) ==
      if IsNormalPair(pairs[i], ns) then PairNormal(pairs[i], ns) else NormalOf(pairs[i + 1..], ns)
  {
    assert pairs[i..][0] == pairs[i];
    assert pairs[i..][1..] == pairs[i + 1..];
  }

  /** The first `normal` Pair, wherever it stands, is the one that counts. */
  lemma NormalOfFirst(pairs: seq<Element>, ns: Option<string>, i: nat)
    requires i < |pairs| && IsNormalPair(pairs[i], ns)
    requires forall j | 0 <= j < i :: !IsNormalPair(pairs[j], ns)
    ensures NormalOf(pairs, ns) == PairNormal(pairs[i], ns)
  {
    NormalOfSkip(pairs, ns, i);
    NormalOfStep(pairs, ns, i);
  }

  /** Pairs that are not `normal` are passed over. */
  lemma {:induction false} NormalOfSkip(pairs: seq<Element>, ns: Option<string>, k: nat)
    requires k <= |pairs|
    requires forall j | 0 <= j < k :: !IsNormalPair(pairs[j], ns)
    ensures NormalOf(pairs[k..], ns) == NormalOf(pairs, ns)
  {
    if k == 0 {
      assert pairs[0..] == pairs;
    } else {
      NormalOfSkip(pairs, ns, k - 1);
      NormalOfStep(pairs, ns, k - 1);
    }
  }

  /** Without a `normal` Pair a StyleMap has no reference. */
  lemma {:induction false} NormalOfNone(pairs: seq<Element>, ns: Option<string>)
    requires forall j | 0 <= j < |pairs| :: !IsNormalPair(pairs[j], ns)
    ensures NormalOf(pairs, ns) == Unset
    decreases |pairs|
  {
    if pairs != [] {
      NormalOfNone(pairs[1..], ns);
    }
  }

  /** The direct `Pair` children of a StyleMap. */
  function Pairs(styleMap: Element, ns: Option<string>): seq<Element> {
    FindAll(styleMap.children, Qualified(ns, "Pair"))
  }

  /** The loop over a StyleMap's Pairs that stops at the first `normal` one. */
  method FindNormal(styleMap: Element, ns: Option<string>) returns (normal: Normal)
    ensures normal == NormalOf(Pairs(styleMap, ns), ns)
  {
    var pairs := Pairs(styleMap, ns);
    var i := 0;
    while i < |pairs|
      invariant i <= |pairs|
      invariant NormalOf(pairs, ns) == NormalOf(pairs[i..], ns)
    {
      NormalOfStep(pairs, ns, i);
      if IsNormalPair(pairs[i], ns) {
        normal := PairNormal(pairs[i], ns);
        return;
      }
      i := i + 1;
    }
    normal := Unset;
  }

  /** What one StyleMap contributes: its id when set and non-empty, and what its `normal` Pair gives. */
  datatype MapEntry = MapEntry(id: Option<string>, normal: Normal)

  function EntryOf(styleMap: Element, ns: Option<string>): MapEntry {
    MapEntry(if HasId(styleMap) then Some(styleMap.attrs["id"]) else None, NormalOf(Pairs(styleMap, ns), ns))
  }

  /** The entries of the given StyleMaps, in document order. */
  function Entries(styleMaps: seq<Element>, ns: Option<string>): (r: seq<MapEntry>)
    ensures |r| == |styleMaps| && forall i | 0 <= i < |r| :: r[i] == EntryOf(styleMaps[i], ns)
    decreases |styleMaps|
  {
    if styleMaps == [] then []
    else
      var init := styleMaps[..|styleMaps| - 1];
      assert forall i | 0 <= i < |init| :: init[i] == styleMaps[i];
      Entries(init, ns) + [EntryOf(styleMaps[|styleMaps| - 1], ns)]
  }

  /** An entry that ends the conversion: an id, and a `normal` `styleUrl` without text. */
  predicate Crashes(e: MapEntry) {
    e.id.Some? && e.normal.Crash?
  }

  /** An entry that enters the table: an id and a non-empty `normal` reference. */
  predicate Records(e: MapEntry) {
    e.id.Some? && e.normal.Ref? && e.normal.ref != []
  }

  /** The entry enters the table under the key `k`. */
  predicate RecordsAs(e: MapEntry, k: string) {
    Records(e) && e.id.value == k
  }

  /** The StyleMap table after the given entries, or `None` once one of them crashed. */
  function MapsTable(entries: seq<MapEntry>): (r: Option<map<string, string>>)
    ensures r.Some? ==> |r.value| <= |entries|
    decreases |entries|
  {
    if entries == [] then Some(map[])
    else
      var prev := MapsTable(entries[..|entries| - 1]);
      var e := entries[|entries| - 1];
      if prev.None? || e.id.None? then prev
      else if Crashes(e) then None
      else if Records(e) then Some(prev.value[e.id.value := e.normal.ref])
      else prev
  }

  /** The StyleMap table of the given StyleMap elements. */
  function StyleMapsTable(styleMaps: seq<Element>, ns: Option<string>): Option<map<string, string>> {
    MapsTable(Entries(styleMaps, ns))
  }

  /** The conversion stops exactly when some StyleMap with an id has a `normal` `styleUrl` without text. */
  lemma StyleMapsCrash(styleMaps: seq<Element>, ns: Option<string>)
    ensures StyleMapsTable(styleMaps, ns).None? <==>
      exists i | 0 <= i < |styleMaps| :: HasId(styleMaps[i]) && NormalOf(Pairs(styleMaps[i], ns), ns).Crash?
  {
    var entries := Entries(styleMaps, ns);
    MapsTableCrash(entries);
    assert forall i | 0 <= i < |styleMaps| :: Crashes(entries[i]) <==> HasId(styleMaps[i]) && NormalOf(Pairs(styleMaps[i], ns), ns).Crash?;
  }

  /** The table after one more entry that does not crash. */
  lemma MapsTableStep(entries: seq<MapEntry>, i: nat, table: map<string, string>)
    requires i < |entries| && MapsTable(entries[..i]) == Some(table) && !Crashes(entries[i])
    ensures MapsTable(entries[..i + 1]) ==
      Some(if Records(entries[i]) then table[entries[i].id.value := entries[i].normal.ref] else table)
  {
    assert entries[..i + 1][..i] == entries[..i];
  }

  /** An entry that crashes after a prefix that did not ends the whole table. */
  lemma CrashAt(entries: seq<MapEntry>, i: nat)
    requires i < |entries| && MapsTable(entries[..i]).Some? && Crashes(entries[i])
    ensures MapsTable(entries).None?
  {
    assert entries[..i + 1][..i] == entries[..i];
    CrashPersists(entries, i + 1);
  }

  /** The table fails exactly when some entry crashes. */
  lemma {:induction false} MapsTableCrash(entries: seq<MapEntry>)
    ensures MapsTable(entries).None? <==> exists i | 0 <= i < |entries| :: Crashes(entries[i])
    decreases |entries|
  {
    if entries != [] {
      var init := entries[..|entries| - 1];
      MapsTableCrash(init);
      assert forall i | 0 <= i < |init| :: init[i] == entries[i];
    }
  }

  /** Once a prefix has crashed the whole table has. */
  lemma {:induction false} CrashPersists(entries: seq<MapEntry>, n: nat)
    requires n <= |entries| && MapsTable(entries[..n]).None?
    ensures MapsTable(entries).None?
    decreases |entries|
  {
    if n < |entries| {
      var init := entries[..|entries| - 1];
      assert init[..n] == entries[..n];
      CrashPersists(init, n);
    } else {
      assert entries[..n] == entries;
    }
  }

  /** Without a crash, a key is exactly the id of an entry that records. */
  lemma {:induction false} MapsTableKeys(entries: seq<MapEntry>, k: string)
    requires MapsTable(entries).Some?
    ensures k in MapsTable(entries).value <==> exists i | 0 <= i < |entries| :: RecordsAs(entries[i], k)
    decreases |entries|
  {
    if entries != [] {
      var last := |entries| - 1;
      var init := entries[..last];
      var e := entries[last];
      assert MapsTable(init).Some?;
      MapsTableKeys(init, k);
      if exists i | 0 <= i < |entries| :: RecordsAs(entries[i], k) {
        var i :| 0 <= i < |entries| && RecordsAs(entries[i], k);
        if i < last {
          assert RecordsAs(init[i], k);
        }
      }
      if k in MapsTable(entries).value && !RecordsAs(e, k) {
        var i :| 0 <= i < |init| && RecordsAs(init[i], k);
        assert RecordsAs(entries[i], k);
      }
    }
  }

  /** Every value of the table is a non-empty style reference. */
  lemma {:induction false} MapsTableNonEmpty(entries: seq<MapEntry>, k: string)
    requires MapsTable(entries).Some? && k in MapsTable(entries).value
    ensures MapsTable(entries).value[k] != []
    decreases |entries|
  {
    var init := entries[..|entries| - 1];
    var e := entries[|entries| - 1];
    if !RecordsAs(e, k) {
      MapsTableNonEmpty(init, k);
    }
  }

  /** `style_maps`: the StyleMap table, filled by a loop over every StyleMap in the document; `None` for a crash. */
  method BuildStyleMaps(root: Element, ns: Option<string>) returns (maps: Option<map<string, string>>)
    ensures maps == StyleMapsTable(FindAll(Descendants(root), Qualified(ns, "StyleMap")), ns)
  {
    maps := StyleMapsOf(FindAll(Descendants(root), Qualified(ns, "StyleMap")), ns);
  }

  /** The loop of `BuildStyleMaps` over the StyleMap elements found. */
  method StyleMapsOf(found: seq<Element>, ns: Option<string>) returns (maps: Option<map<string, string>>)
    ensures maps == StyleMapsTable(found, ns)
  {
    ghost var entries := Entries(found, ns);
    var table: map<string, string> := map[];
    var i := 0;
    while i < |found|
      invariant i <= |found|
      invariant MapsTable(entries[..i]) == Some(table)
    {
      var sm := found[i];
      if HasId(sm) {
        var normal := FindNormal(sm, ns);
        ghost var e := MapEntry(Some(sm.attrs["id"]), normal);
        assert entries[i] == e;
        if normal.Crash? {
          CrashAt(entries, i);
          return None;
        }
        MapsTableStep(entries, i, table);
        if normal.Ref? && normal.ref != [] {
          assert Records(e);
          table := table[sm.attrs["id"] := normal.ref];
        } else {
          assert !Records(e);
        }
      } else {
        assert entries[i].id.None?;
        MapsTableStep(entries, i, table);
      }
      assert MapsTable(entries[..i + 1]) == Some(table);
      i := i + 1;
    }
    assert entries[..i] == entries;
    maps := Some(table);
  }

  /** One line of the CSV, its fields in the header's order. */
  datatype CsvRow = CsvRow(
    name: string,
    description: string,
    longitude: string,
    latitude: string,
    layer: string,
    icon: string,
    color: string,
    styleUrl: string,
    fruitType: string,
    legitimacy: string)

  /**
    The namespace the Placemarks are read with, the two tables built from the document, and the
    style mapping (`STYLE_MAPPING` when converting).
   */
  datatype Tables = Tables(
    ns: Option<string>,
    styles: map<string, StyleInfo>,
    styleMaps: map<string, string>,
    mapping: seq<(string, Inferred)>)

  /** Longitude and latitude from a `coordinates` text: the first two comma-separated parts of the stripped text. */
  function CoordinatePair(text: Option<string>): (r: (string, string))
    ensures !Truthy(text) ==> r == ("", "")
    ensures ',' !in r.0 && ',' !in r.1
  {
    if !Truthy(text) then ("", "")
    else
      var parts := Split(PyStrip(text.value), ',');
      if |parts| >= 2 then (parts[0], parts[1]) else ("", "")
  }

  /** The coordinates of a Placemark: from the `coordinates` child of the first Point below it. */
  function Coordinates(placemark: Element, ns: Option<string>): (string, string) {
    var point := Find(Descendants(placemark), Qualified(ns, "Point"));
    if point.None? then ("", "")
    else CoordinatePair(TextOf(Find(point.value.children, Qualified(ns, "coordinates"))))
  }

  /** `lon,lat,…` gives `(lon, lat)` when neither part holds a comma. */
  lemma CoordinatePairSplit(text: string, parts: seq<string>)
    requires |parts| >= 2 && forall i | 0 <= i < |parts| :: ',' !in parts[i]
    requires text != [] && PyStrip(text) == Join(parts, ",")
    ensures CoordinatePair(Some(text)) == (parts[0], parts[1])
  {
    SplitJoin(parts, ',');
  }

  /** A text without a comma gives no coordinates. */
  lemma CoordinatePairNoComma(text: string)
    requires ',' !in text
    ensures CoordinatePair(Some(text)) == ("", "")
  {
    var s := PyStrip(text);
    assert forall i | 0 <= i < |s| :: s[i] == text[LeadingCount(text, IsPySpace) + i];
    SplitClean(s, ',');
  }

  /** The stripped text of a Placemark's own `styleUrl` child, when that text is non-empty. */
  function RawStyleUrl(placemark: Element, ns: Option<string>): Option<string> {
    var text := TextOf(Find(placemark.children, Qualified(ns, "styleUrl")));
    if Truthy(text) then Some(PyStrip(text.value)) else None
  }

  /** The reference a style URL leads to: `#` stripped, then replaced once through the StyleMap table. */
  function StyleTarget(raw: string, styleMaps: map<string, string>): (r: string)
    ensures StripChar(raw, '#') !in styleMaps ==> r == StripChar(raw, '#')
  {
    var ref := StripChar(raw, '#');
    if ref in styleMaps then styleMaps[ref] else ref
  }

  /** The Style a style URL resolves to, if the table has it. */
  function ResolvedStyle(raw: string, t: Tables): Option<StyleInfo> {
    var target := StyleTarget(raw, t.styleMaps);
    if target in t.styles then Some(t.styles[target]) else None
  }

  /** Python `value if value else ''`. */
  function OrEmpty(v: Option<string>): string {
    if v.Some? then v.value else ""
  }

  /** The row of one Placemark under the given layer. */
  function PlacemarkRow(placemark: Element, layer: Option<string>, t: Tables): CsvRow {
    var coordinates := Coordinates(placemark, t.ns);
    var raw := RawStyleUrl(placemark, t.ns);
    var inferred := if raw.Some? then Lookup(t.mapping, raw.value) else None;
    var style := if raw.Some? then ResolvedStyle(raw.value, t) else None;
    CsvRow(
      CleanText(TextOf(Find(placemark.children, Qualified(t.ns, "name")))),
      CleanText(TextOf(Find(placemark.children, Qualified(t.ns, "description")))),
      coordinates.0,
      coordinates.1,
      CleanText(layer),
      if style.Some? then OrEmpty(style.value.icon) else "",
      if style.Some? then OrEmpty(style.value.color) else "",
      if raw.Some? then raw.value else "",
      if inferred.Some? then FruitName(inferred.value.fruit) else "",
      if inferred.Some? then LegitimacyName(inferred.value.legitimacy) else "")
  }

  /** Fruit type and legitimacy are filled exactly when the stripped style URL is a known style. */
  lemma InferredIffKnown(placemark: Element, layer: Option<string>, t: Tables)
    ensures var row := PlacemarkRow(placemark, layer, t);
      var raw := RawStyleUrl(placemark, t.ns);
      && (row.fruitType != [] <==> raw.Some? && Lookup(t.mapping, raw.value).Some?)
      && (row.legitimacy != [] <==> raw.Some? && Lookup(t.mapping, raw.value).Some?)
      && row.legitimacy in {"", LEGITIMATE, SEMI_LEGITIMATE, NOT_LEGITIMATE}
  {
  }

  /** Colour and icon come from the Style the style URL leads to, and are empty when there is none. */
  lemma ColorAndIcon(placemark: Element, layer: Option<string>, t: Tables)
    ensures var row := PlacemarkRow(placemark, layer, t);
      var raw := RawStyleUrl(placemark, t.ns);
      var target := if raw.Some? then Some(StyleTarget(raw.value, t.styleMaps)) else None;
      && (target.None? || target.value !in t.styles ==> row.color == [] && row.icon == [])
      && (target.Some? && target.value in t.styles ==>
          row.color == OrEmpty(t.styles[target.value].color) && row.icon == OrEmpty(t.styles[target.value].icon))
  {
  }

  /** A StyleMap is followed once: a reference it leads to is looked up as a Style even when it names another StyleMap. */
  lemma StyleMapFollowedOnce(raw: string, styleMaps: map<string, string>)
    requires StripChar(raw, '#') in styleMaps
    ensures StyleTarget(raw, styleMaps) == styleMaps[StripChar(raw, '#')]
  {
  }

  /** The rows an element gives under the current layer (`process_element`). */
  function Rows(e: Element, layer: Option<string>, t: Tables): seq<CsvRow>
    decreases e
  {
    var tag := LocalName(e.tag);
    if tag == "Folder" || tag == "Document" then
      var name := Find(e.children, Qualified(t.ns, "name"));
      var inner := if tag == "Folder" && name.Some? then name.value.text else layer;
      RowsOf(e.children, inner, t)
    else if tag == "Placemark" then [PlacemarkRow(e, layer, t)]
    else []
  }

  /** The rows of several sibling elements, in document order. */
  function RowsOf(es: seq<Element>, layer: Option<string>, t: Tables): seq<CsvRow>
    decreases es
  {
    if es == [] then []
    else RowsOf(es[..|es| - 1], layer, t) + Rows(es[|es| - 1], layer, t)
  }

  /** The rows of one more sibling. */
  lemma RowsOfStep(es: seq<Element>, i: nat, layer: Option<string>, t: Tables)
    requires i < |es|
    ensures RowsOf(es[..i + 1], layer, t) == RowsOf(es[..i], layer, t) + Rows(es[i], layer, t)
  {
    assert es[..i + 1][..i] == es[..i];
  }

  /** A Folder that has a `name` child: the only element that changes the layer. */
  predicate NamedFolder(e: Element, ns: Option<string>) {
    LocalName(e.tag) == "Folder" && Find(e.children, Qualified(ns, "name")).Some?
  }

  /** Below elements with no named Folder among them or under them, every row carries the given layer. */
  lemma {:induction false} InheritedLayer(es: seq<Element>, layer: Option<string>, t: Tables)
    requires forall d | d in DescendantsOf(es) :: !NamedFolder(d, t.ns)
    ensures forall row | row in RowsOf(es, layer, t) :: row.layer == CleanText(layer)
    decreases es
  {
    if es != [] {
      var last := es[|es| - 1];
      assert DescendantsOf(es) == DescendantsOf(es[..|es| - 1]) + [last] + DescendantsOf(last.children);
      InheritedLayer(es[..|es| - 1], layer, t);
      InheritedLayerOne(last, layer, t);
    }
  }

  lemma {:induction false} InheritedLayerOne(e: Element, layer: Option<string>, t: Tables)
    requires !NamedFolder(e, t.ns) && forall d | d in DescendantsOf(e.children) :: !NamedFolder(d, t.ns)
    ensures forall row | row in Rows(e, layer, t) :: row.layer == CleanText(layer)
    decreases e
  {
    var tag := LocalName(e.tag);
    if tag == "Folder" || tag == "Document" {
      InheritedLayer(e.children, layer, t);
    }
  }

  /** A named Folder with no named Folder below it sets the layer of all its rows to its name. */
  lemma NamedFolderLayer(f: Element, layer: Option<string>, t: Tables)
    requires NamedFolder(f, t.ns) && forall d | d in Descendants(f) :: !NamedFolder(d, t.ns)
    ensures forall row | row in Rows(f, layer, t) ::
      row.layer == CleanText(Find(f.children, Qualified(t.ns, "name")).value.text)
  {
    InheritedLayer(f.children, Find(f.children, Qualified(t.ns, "name")).value.text, t);
  }

  /** A Document passes the layer on unchanged, named or not. */
  lemma DocumentKeepsLayer(d: Element, layer: Option<string>, t: Tables)
    requires LocalName(d.tag) == "Document"
    ensures Rows(d, layer, t) == RowsOf(d.children, layer, t)
  {
  }

  /** A Placemark gives exactly its own row. */
  lemma PlacemarkOneRow(e: Element, layer: Option<string>, t: Tables)
    requires LocalName(e.tag) == "Placemark"
    ensures Rows(e, layer, t) == [PlacemarkRow(e, layer, t)]
  {
  }

  /** Sibling Placemarks give one row each, in order, under the given layer. */
  lemma {:induction false} PlacemarkRows(es: seq<Element>, layer: Option<string>, t: Tables)
    requires forall i | 0 <= i < |es| :: LocalName(es[i].tag) == "Placemark"
    ensures |RowsOf(es, layer, t)| == |es|
    ensures forall i | 0 <= i < |es| :: RowsOf(es, layer, t)[i] == PlacemarkRow(es[i], layer, t)
    decreases |es|
  {
    if es != [] {
      var last := |es| - 1;
      var init := es[..last];
      PlacemarkRows(init, layer, t);
      RowsOfStep(es, last, layer, t);
      PlacemarkOneRow(es[last], layer, t);
      assert es[..last + 1] == es;
      var prev := RowsOf(init, layer, t);
      var rows := RowsOf(es, layer, t);
      assert rows == prev + [PlacemarkRow(es[last], layer, t)];
      forall i | 0 <= i < |es|
        ensures rows[i] == PlacemarkRow(es[i], layer, t)
      {
        if i < last {
          assert prev[i] == PlacemarkRow(init[i], layer, t);
          assert init[i] == es[i];
          assert rows[i] == prev[i];
        } else {
          assert |prev| == last;
          assert rows[last] == PlacemarkRow(es[last], layer, t);
        }
      }
    }
  }


  /** Anything other than a Folder, a Document or a Placemark gives no row, whatever is below it. */
  lemma OtherTagsSkipped(e: Element, layer: Option<string>, t: Tables)
    requires LocalName(e.tag) !in {"Folder", "Document", "Placemark"}
    ensures Rows(e, layer, t) == []
  {
  }

  /** The elements below `es` and `es` themselves whose local name is Placemark. */
  function PlacemarkCount(es: seq<Element>): nat {
    if es == [] then 0
    else PlacemarkCount(es[..|es| - 1]) + (if LocalName(es[|es| - 1].tag) == "Placemark" then 1 else 0)
  }

  lemma {:induction false} PlacemarkCountConcat(a: seq<Element>, b: seq<Element>)
    ensures PlacemarkCount(a + b) == PlacemarkCount(a) + PlacemarkCount(b)
    decreases |b|
  {
    if b == [] {
      assert a + b == a;
    } else {
      var init := b[..|b| - 1];
      assert (a + b)[..|a + b| - 1] == a + init;
      PlacemarkCountConcat(a, init);
    }
  }

  /** No more rows than Placemark elements in the tree (those inside a Placemark or a skipped element give none). */
  lemma {:induction false} RowsAtMostPlacemarks(es: seq<Element>, layer: Option<string>, t: Tables)
    ensures |RowsOf(es, layer, t)| <= PlacemarkCount(DescendantsOf(es))
    decreases es
  {
    if es != [] {
      var init := es[..|es| - 1];
      var last := es[|es| - 1];
      RowsAtMostPlacemarks(init, layer, t);
      RowsOfOneAtMost(last, layer, t);
      PlacemarkCountConcat(DescendantsOf(init) + [last], DescendantsOf(last.children));
      PlacemarkCountConcat(DescendantsOf(init), [last]);
    }
  }

  lemma {:induction false} RowsOfOneAtMost(e: Element, layer: Option<string>, t: Tables)
    ensures |Rows(e, layer, t)| <= PlacemarkCount(DescendantsOf(e.children)) + (if LocalName(e.tag) == "Placemark" then 1 else 0)
    decreases e
  {
    var tag := LocalName(e.tag);
    if tag == "Folder" || tag == "Document" {
      var name := Find(e.children, Qualified(t.ns, "name"));
      RowsAtMostPlacemarks(e.children, if tag == "Folder" && name.Some? then name.value.text else layer, t);
    }
  }

  /** The CSV being written and the number of rows written so far. */
  class Output {
    var rows: seq<CsvRow>
    var count: nat

    ghost predicate Valid()
      reads this
    {
      count == |rows|
    }

    constructor ()
      ensures Valid() && rows == []
    {
      rows := [];
      count := 0;
    }

    /** `writer.writerow`. */
    method WriteRow(row: CsvRow)
      modifies this
      ensures rows == old(rows) + [row] && count == old(count)
    {
      rows := rows + [row];
    }
  }

  /** `process_element`: writes the rows of `e` and counts them. */
  method ProcessElement(out: Output, e: Element, layer: Option<string>, t: Tables)
    modifies out
    requires out.Valid()
    ensures out.Valid() && out.rows == old(out.rows) + Rows(e, layer, t)
    decreases e
  {
    var tag := LocalName(e.tag);
    if tag == "Folder" || tag == "Document" {
      var nameElem := Find(e.children, Qualified(t.ns, "name"));
      var layerName := if nameElem.Some? then nameElem.value.text else layer;
      var current := layer;
      if tag != "Document" {
        current := layerName;
      }
      ProcessChildren(out, e.children, current, t, e);
    } else if tag == "Placemark" {
      out.WriteRow(PlacemarkRow(e, layer, t));
      out.count := out.count + 1;
    }
  }

  /** The loop over the children of `parent`, in `process_element` and over the root. */
  method ProcessChildren(out: Output, children: seq<Element>, layer: Option<string>, t: Tables, ghost parent: Element)
    modifies out
    requires out.Valid() && children == parent.children
    ensures out.Valid() && out.rows == old(out.rows) + RowsOf(children, layer, t)
    decreases parent, 0
  {
    var i := 0;
    while i < |children|
      invariant i <= |children| && out.Valid()
      invariant out.rows == old(out.rows) + RowsOf(children[..i], layer, t)
    {
      ProcessElement(out, children[i], layer, t);
      RowsOfStep(children, i, layer, t);
      ConcatAssoc(old(out.rows), RowsOf(children[..i], layer, t), Rows(children[i], layer, t));
      i := i + 1;
    }
    assert children[..i] == children;
  }

  /** Every StyleMap element of the document, in document order. */
  function StyleMapElements(root: Element): seq<Element> {
    FindAll(Descendants(root), Qualified(Namespace(root), "StyleMap"))
  }

  /** What the converter writes for a parsed document: its rows, or `None` when it stops with an error. */
  function Converted(root: Element): (r: Option<seq<CsvRow>>)
    ensures r.None? <==> exists i | 0 <= i < |StyleMapElements(root)| ::
      HasId(StyleMapElements(root)[i]) && NormalOf(Pairs(StyleMapElements(root)[i], Namespace(root)), Namespace(root)).Crash?
  {
    var ns := Namespace(root);
    StyleMapsCrash(StyleMapElements(root), ns);
    var styleMaps := StyleMapsTable(StyleMapElements(root), ns);
    if styleMaps.None? then None
    else
      var styles := StylesTable(FindAll(Descendants(root), Qualified(ns, "Style")), ns);
      Some(RowsOf(root.children, Some(DEFAULT_LAYER), Tables(ns, styles, styleMaps.value, STYLE_MAPPING)))
  }

  const DEFAULT_LAYER: string := "Unknown Layer"

  /** `convert_kmz_to_csv` after parsing: the tables, then every child of the root under the default layer. */
  method ConvertKml(root: Element) returns (r: Option<seq<CsvRow>>, count: nat)
    ensures r == Converted(root)
    ensures r.Some? ==> count == |r.value|
    ensures r.None? ==> count == 0
  {
    var ns := Namespace(root);
    var styles := BuildStyles(root, ns);
    var styleMaps := BuildStyleMaps(root, ns);
    if styleMaps.None? {
      return None, 0;
    }
    var t := Tables(ns, styles, styleMaps.value, STYLE_MAPPING);
    var out := new Output();
    ProcessChildren(out, root.children, Some(DEFAULT_LAYER), t, root);
    assert out.rows == RowsOf(root.children, Some(DEFAULT_LAYER), t);
    assert Converted(root) == Some(RowsOf(root.children, Some(DEFAULT_LAYER), t));
    r := Some(out.rows);
    count := out.count;
  }
}

=== FILE: media.dfy ===
/**
  The media record shared by the four server functions: the six moderation statuses, the size
  ceiling, the checks every entry point repeats, the `tree_media` row, the HTTP-level outcome of
  a handler, and the two stores as objects whose state the handlers change.
 */
module Media {
  import opened Wrappers
  import opened Text
  import opened Json
  import opened Sequences

  /** 50 MiB. */
  const MAX_FILE_SIZE: int := 50 * 1024 * 1024

  datatype Status = Approved | Flagged | Deleted | Test | Pending | Skipped

  /** The wire name of a status, as in the allowed-status lists of the functions. */
  function StatusName(st: Status): string {
    match st
    case Approved => "approved"
    case Flagged => "flagged"
    case Deleted => "deleted"
    case Test => "test"
    case Pending => "pending"
    case Skipped => "skipped"
  }

  /** `allowedStatuses.includes(text)`, returning the status it names. */
  function ParseStatus(text: string): (r: Option<Status>)
    ensures r.Some? ==> StatusName(r.value) == text
    ensures r.None? ==> forall st: Status :: StatusName(st) != text
  {
    if text == "approved" then Some(Approved)
    else if text == "flagged" then Some(Flagged)
    else if text == "deleted" then Some(Deleted)
    else if text == "test" then Some(Test)
    else if text == "pending" then Some(Pending)
    else if text == "skipped" then Some(Skipped)
    else None
  }

  /** Every status name is accepted and read back as that status; no two statuses share a name. */
  lemma ParseStatusName(st: Status)
    ensures ParseStatus(StatusName(st)) == Some(st)
  {
  }

  /** A value that names one of the six statuses (`typeof v === "string" && allowed.includes(v)`). */
  function StatusOf(v: Value): Option<Status> {
    if v.Str? then ParseStatus(v.s) else None
  }

  /** `typeof v === "string" && v.trim().length > 0`. */
  predicate NonBlank(v: Value) {
    v.Str? && Trim(v.s) != []
  }

  predicate IsImageMime(mime: string) {
    StartsWith(mime, "image/")
  }

  /** `0 < size <= MAX_FILE_SIZE`. */
  predicate SizeInRange(size: int) {
    0 < size <= MAX_FILE_SIZE
  }

  /** The size error every entry point answers with, naming the ceiling in decimal. */
  const SIZE_MESSAGE: string := "fileSizeBytes must be between 1 and " + IntToString(MAX_FILE_SIZE)

  /** One row of the `tree_media` table. `createdAt` is the store's clock reading at insertion. */
  datatype MediaRow = MediaRow(
    id: string,
    treeId: string,
    s3Key: string,
    mimeType: string,
    fileSizeBytes: int,
    status: Status,
    metadata: map<string, Value>,
    uploadedBy: Option<string>,
    createdAt: int)

  /** The size message is none of the other refusals' messages. */
  lemma SizeMessageDistinct()
    ensures SIZE_MESSAGE !in {"treeId is required", "s3Key is required", "mimeType must be an image",
      "file is required", "Only image uploads are supported", "metadata must be an object", "invalid status"}
  {
    assert SIZE_MESSAGE[4] == 'S';
  }

  /** What every entry point has checked before it writes a row. */
  predicate WellFormedRow(r: MediaRow) {
    Trim(r.treeId) != [] && Trim(r.s3Key) != [] && IsImageMime(r.mimeType) && SizeInRange(r.fileSizeBytes)
  }

  predicate AllWellFormed(rows: seq<MediaRow>) {
    forall i | 0 <= i < |rows| :: WellFormedRow(rows[i])
  }

  /** Appending a well-formed row keeps every row well-formed. */
  lemma AppendWellFormed(rows: seq<MediaRow>, row: MediaRow)
    ensures AllWellFormed(rows) && WellFormedRow(row) ==> AllWellFormed(rows + [row])
  {
    assert forall i | 0 <= i < |rows| :: (rows + [row])[i] == rows[i];
  }

  /** A status change keeps a row well-formed: well-formedness does not depend on the status. */
  lemma StatusChangeWellFormed(rows: seq<MediaRow>, i: nat, status: Status)
    requires i < |rows|
    ensures AllWellFormed(rows) ==> AllWellFormed(rows[i := rows[i].(status := status)])
  {
    var changed := rows[i := rows[i].(status := status)];
    assert forall j | 0 <= j < |rows| :: changed[j] == rows[j] || j == i;
  }

  predicate UniqueIds(rows: seq<MediaRow>) {
    forall i, j | 0 <= i < j < |rows| :: rows[i].id != rows[j].id
  }

  /** Position of the row with identifier `id`, or `|rows|` when there is none. */
  function FindRow(rows: seq<MediaRow>, id: string): (i: nat)
    ensures i <= |rows|
    ensures i < |rows| ==> rows[i].id == id
    ensures forall j | 0 <= j < i :: rows[j].id != id
  {
    FirstWhere(rows, (row: MediaRow) => row.id == id)
  }

  /**
    An HTTP request as a handler sees it: the method, the headers (names in lower case, as
    `Headers.get` matches them case-insensitively) and the JSON body, `Undefined` when it does not
    parse.
   */
  datatype Request = Request(verb: string, headers: map<string, string>, body: Value)

  /** The HTTP outcome of a handler: the CORS preflight answer, a 200 body, or an error status. */
  datatype Response<T> = Preflight | Ok(body: T) | Err(code: int, message: string)

  /** The object store: the set of keys that hold an object. */
  class ObjectStore {
    var keys: set<string>

    constructor (initial: set<string>)
      ensures keys == initial
    {
      keys := initial;
    }

    /** `HeadObject`: succeeds exactly when the key holds an object and the service answers. */
    method Probe(key: string, fault: bool) returns (found: bool)
      ensures found <==> !fault && key in keys
    {
      found := !fault && key in keys;
    }

    /** `PutObject`: stores the object under `key` unless the service fails. */
    method Put(key: string, fault: bool) returns (ok: bool)
      modifies this
      ensures ok == !fault
      ensures keys == if ok then old(keys) + {key} else old(keys)
    {
      ok := !fault;
      if ok {
        keys := keys + {key};
      }
    }
  }

  /** The `tree_media` table, rows in insertion order. */
  class ModerationStore {
    var rows: seq<MediaRow>

    /** Identifiers are a primary key. */
    ghost predicate Valid()
      reads this
    {
      UniqueIds(rows)
    }

    constructor ()
      ensures Valid() && rows == []
    {
      rows := [];
    }

    /** `insert(row).select().single()`: fails on a service fault or an identifier already taken. */
    method Insert(row: MediaRow, fault: bool) returns (ok: bool)
      requires Valid()
      modifies this
      ensures Valid()
      ensures ok <==> !fault && forall i | 0 <= i < |old(rows)| :: old(rows)[i].id != row.id
      ensures rows == if ok then old(rows) + [row] else old(rows)
      ensures old(AllWellFormed(rows)) && WellFormedRow(row) ==> AllWellFormed(rows)
    {
      var i := FindRow(rows, row.id);
      ok := !fault && i == |rows|;
      if ok {
        AppendWellFormed(rows, row);
        rows := rows + [row];
      }
    }

    /**
      `update({ status }).eq("id", id).select().single()`: changes the status of the row with that
      identifier and returns it; reports an error (and changes nothing) on a fault or when no row
      has that identifier.
     */
    method UpdateStatus(id: string, status: Status, fault: bool) returns (updated: Option<MediaRow>)
      requires Valid()
      modifies this
      ensures Valid()
      ensures updated.Some? <==> !fault && exists i | 0 <= i < |old(rows)| :: old(rows)[i].id == id
      ensures updated.None? ==> rows == old(rows)
      ensures updated.Some? ==>
        var i := FindRow(old(rows), id);
        && i < |old(rows)|
        && updated.value == old(rows)[i].(status := status)
        && rows == old(rows)[i := updated.value]
      ensures old(AllWellFormed(rows)) ==> AllWellFormed(rows)
    {
      var i := FindRow(rows, id);
      if fault || i == |rows| {
        updated := None;
      } else {
        var row := rows[i].(status := status);
        StatusChangeWellFormed(rows, i, status);
        rows := rows[i := row];
        updated := Some(row);
      }
    }
  }
}

=== FILE: query_runner.dfy ===
/**
  The SQL helpers of the tree database client: quote escaping for string literals, the example
  query builders (which interpolate their arguments without escaping), and running a list of
  queries one after the other.
 */
module QueryRunner {
  import opened Wrappers
  import opened Text

  /** `value.replace(/'/g, "''")`: every single quote doubled, nothing else changed. */
  function EscapeSql(value: string): (r: string)
    ensures |r| == |value| + Count(value, '\'')
    ensures forall c :: c in r <==> c in value
    ensures '\'' !in value ==> r == value
  {
    if '\'' !in value then NoDoubling(value, '\''); Double(value, '\'') else Double(value, '\'')
  }

  lemma {:induction false} NoDoubling(s: string, c: char)
    requires c !in s
    ensures Double(s, c) == s
  {
    if s != [] {
      NoDoubling(s[1..], c);
      assert s == [s[0]] + s[1..];
    }
  }

  /** Collapsing each `''` of an escaped value gives the value back. */
  lemma UnescapeSql(value: string)
    ensures Undouble(EscapeSql(value), '\'') == value
  {
    UndoubleDouble(value, '\'');
  }

  /**
    How SQL reads the body of a string literal whose opening quote has been consumed: `''` stands
    for one quote and a lone quote ends the literal. The result is the literal's text and what
    follows it, or `None` when the literal is never closed.
   */
  function ReadLiteral(s: string): Option<(string, string)>
    decreases |s|
  {
    if s == [] then None
    else if s[0] == '\'' then
      if |s| >= 2 && s[1] == '\'' then
        var more := ReadLiteral(s[2..]);
        if more.None? then None else Some((['\''] + more.value.0, more.value.1))
      else Some(([], s[1..]))
    else
      var more := ReadLiteral(s[1..]);
      if more.None? then None else Some(([s[0]] + more.value.0, more.value.1))
  }

  /** A doubled value followed by a quote reads back as exactly that value. */
  lemma {:induction false} DoubledIsOneLiteral(value: string, rest: string)
    requires rest == [] || rest[0] != '\''
    ensures ReadLiteral(Double(value, '\'') + "'" + rest) == Some((value, rest))
  {
    if value != [] {
      var d := Double(value[1..], '\'');
      var tail := d + "'" + rest;
      DoubledIsOneLiteral(value[1..], rest);
      assert value == [value[0]] + value[1..];
      if value[0] == '\'' {
        var s := ['\'', '\''] + tail;
        assert Double(value, '\'') + "'" + rest == s;
        assert s[2..] == tail;
        assert ReadLiteral(s) == Some((['\''] + value[1..], rest));
      } else {
        var s := [value[0]] + tail;
        assert Double(value, '\'') + "'" + rest == s;
        assert s[1..] == tail;
        assert ReadLiteral(s) == Some(([value[0]] + value[1..], rest));
      }
    } else {
      assert Double(value, '\'') + "'" + rest == ['\''] + rest;
    }
  }

  /** An escaped value followed by a closing quote reads back as exactly that value. */
  lemma EscapedIsOneLiteral(value: string, rest: string)
    requires rest == [] || rest[0] != '\''
    ensures ReadLiteral(EscapeSql(value) + "'" + rest) == Some((value, rest))
  {
    DoubledIsOneLiteral(value, rest);
  }

  /** Unescaped, a quote inside a value ends the literal early: the rest is read as SQL. */
  lemma {:induction false} RawQuoteEndsLiteral(a: string, b: string)
    requires '\'' !in a && (b == [] || b[0] != '\'')
    ensures ReadLiteral(a + "'" + b) == Some((a, b))
  {
    EscapedIsOneLiteral(a, b);
  }

  const TABLE_SELECT: string := "SELECT * FROM trees_processed WHERE "

  /** The equality builders: `"<column>" = '<value>'` with the value as given. */
  function FindBy(column: string, value: string): (r: string)
    ensures StartsWith(r, TABLE_SELECT + "\"" + column + "\" = '")
  {
    TABLE_SELECT + "\"" + column + "\" = '" + value + "'"
  }

  /** The column each equality builder compares. */
  const EQUALITY_BUILDERS: map<string, string> := map[
    "findByTreeId" := "meta-tree-id",
    "findByInternalId" := "meta-internal-id",
    "findByMunicipality" := "muni_name",
    "findByRegion" := "muni_region",
    "findBySpecies" := "attributes-species-clean-he",
    "findByGenus" := "attributes-genus",
    "findBySourceType" := "meta-source-type",
    "findByCollectionType" := "meta-collection-type",
    "findByDataSource" := "meta-source",
    "findByRoad" := "road_name",
    "findByParcel" := "cad_code"]

  /** The value sits in one literal exactly when it was escaped first (or has no quote). */
  lemma FindByLiteral(column: string, value: string)
    ensures var prefix := TABLE_SELECT + "\"" + column + "\" = '";
      && ReadLiteral(FindBy(column, EscapeSql(value))[|prefix|..]) == Some((value, []))
      && FindBy(column, value)[|prefix|..] == value + "'"
  {
    var prefix := TABLE_SELECT + "\"" + column + "\" = '";
    assert FindBy(column, EscapeSql(value))[|prefix|..] == EscapeSql(value) + "'" + [];
    EscapedIsOneLiteral(value, []);
  }

  /** `searchSpecies`: the term inside `%…%` patterns for the Hebrew and the English name. */
  function SearchSpecies(term: string): (r: string)
    ensures Contains(r, "'%" + term + "%'")
  {
    var pattern := "'%" + term + "%'";
    var r := TABLE_SELECT + "\"attributes-species-clean-he\" ILIKE " + pattern +
      " OR \"attributes-species-clean-en\" ILIKE " + pattern;
    var at := |TABLE_SELECT + "\"attributes-species-clean-he\" ILIKE "|;
    assert r[at..at + |pattern|] == pattern;
    ContainsAt(r, pattern, at);
    r
  }

  /** `findWithHealthScore`: a lower bound when a score is given, else only a present score. */
  function FindWithHealthScore(minScore: Option<int>): (r: string)
    ensures minScore.Some? ==> r == TABLE_SELECT + "\"attributes-health-score\" >= " + IntToString(minScore.value)
    ensures minScore.None? ==> r == TABLE_SELECT + "\"attributes-health-score\" IS NOT NULL"
  {
    if minScore.Some? then TABLE_SELECT + "\"attributes-health-score\" >= " + IntToString(minScore.value)
    else TABLE_SELECT + "\"attributes-health-score\" IS NOT NULL"
  }

  const DEFAULT_RECENT_DAYS: int := 30
  const DEFAULT_SAMPLE: int := 10

  /** `recentDataSources`: sources dated within the last `days` days, 30 by default. */
  function RecentDataSources(days: Option<int>): (r: string)
    ensures Contains(r, "INTERVAL '" + IntToString(days.GetOr(DEFAULT_RECENT_DAYS)) + "' DAY")
  {
    var interval := "INTERVAL '" + IntToString(days.GetOr(DEFAULT_RECENT_DAYS)) + "' DAY";
    var head := "SELECT DISTINCT \"meta-source\", \"meta-date\" FROM trees_processed WHERE \"meta-date\" >= CURRENT_DATE - ";
    var r := head + interval + " ORDER BY \"meta-date\" DESC";
    assert r[|head|..|head| + |interval|] == interval;
    ContainsAt(r, interval, |head|);
    r
  }

  /** `getSample`: the first `limit` rows, 10 by default. */
  function GetSample(limit: Option<int>): (r: string)
    ensures limit.None? ==> r == "SELECT * FROM trees_processed LIMIT 10"
    ensures limit.Some? ==> r == "SELECT * FROM trees_processed LIMIT " + IntToString(limit.value)
  {
    "SELECT * FROM trees_processed LIMIT " + IntToString(limit.GetOr(DEFAULT_SAMPLE))
  }

  /** `findByBoundingBox`: inclusive bounds on latitude (`location-y`) and longitude (`location-x`). */
  function FindByBoundingBox(minLat: int, maxLat: int, minLon: int, maxLon: int): string {
    TABLE_SELECT + "\"location-y\" >= " + IntToString(minLat) + " AND \"location-y\" <= " + IntToString(maxLat) +
      " AND \"location-x\" >= " + IntToString(minLon) + " AND \"location-x\" <= " + IntToString(maxLon)
  }

  /**
    `runQueries`: the queries run one after the other, each with the same row limit, and their
    results collected in order. `run` is the database call; the first failure ends the run.
   */
  method RunQueries<R, E>(queries: seq<string>, numRows: int, run: (string, int) -> Result<R, E>)
    returns (r: Result<seq<R>, E>, ran: nat)
    ensures ran <= |queries|
    ensures forall i | 0 <= i < ran - 1 :: run(queries[i], numRows).Success?
    ensures r.Success? <==> ran == |queries| && forall i | 0 <= i < |queries| :: run(queries[i], numRows).Success?
    ensures r.Success? ==> |r.value| == |queries| && forall i | 0 <= i < |queries| :: run(queries[i], numRows) == Success(r.value[i])
    ensures r.Failure? ==> 0 < ran && run(queries[ran - 1], numRows) == Failure(r.error)
  {
    var results: seq<R> := [];
    ran := 0;
    while ran < |queries|
      invariant ran <= |queries| && |results| == ran
      invariant forall i | 0 <= i < ran :: run(queries[i], numRows) == Success(results[i])
    {
      var result := run(queries[ran], numRows);
      ran := ran + 1;
      if result.Failure? {
        return Failure(result.error), ran;
      }
      results := results + [result.value];
    }
    r := Success(results);
  }
}

=== FILE: record_upload.dfy ===
/**
  The upload recorder: after a direct upload, checks the request, makes sure the object exists in
  the object store, and inserts a `pending` (or caller-chosen) row into the moderation store with
  metadata merged from the caller and from the request headers.
 */
module RecordUpload {
  import opened Wrappers
  import opened Text
  import opened Json
  import opened Media

  /**
    The requester's address: the first comma-separated entry of a non-empty `x-forwarded-for`,
    trimmed; else `x-real-ip`; else `cf-connecting-ip`; else none.
   */
  function RequesterIp(headers: map<string, string>): (r: Option<string>)
    ensures "x-forwarded-for" in headers && headers["x-forwarded-for"] != [] ==>
      r == Some(Trim(FirstPiece(headers["x-forwarded-for"], ',')))
    ensures !("x-forwarded-for" in headers && headers["x-forwarded-for"] != []) ==>
      (r.None? <==> "x-real-ip" !in headers && "cf-connecting-ip" !in headers)
    ensures !("x-forwarded-for" in headers && headers["x-forwarded-for"] != []) && r.Some? ==>
      ("x-real-ip" in headers && r.value == headers["x-real-ip"]) ||
      ("x-real-ip" !in headers && r.value == headers["cf-connecting-ip"])
  {
    if "x-forwarded-for" in headers && headers["x-forwarded-for"] != [] then
      Some(Trim(FirstPiece(headers["x-forwarded-for"], ',')))
    else if "x-real-ip" in headers then Some(headers["x-real-ip"])
    else if "cf-connecting-ip" in headers then Some(headers["cf-connecting-ip"])
    else None
  }

  /** A proxy chain `client, proxy1, proxy2` yields the trimmed client entry. */
  lemma ForwardedFirstHop(headers: map<string, string>, client: string, rest: string)
    requires ',' !in client
    requires "x-forwarded-for" in headers && headers["x-forwarded-for"] == client + "," + rest
    ensures RequesterIp(headers) == Some(Trim(client))
  {
    IndexOfAfterClean(client, ',', rest);
    assert client + "," + rest == client + [','] + rest;
    assert (client + [','] + rest)[..|client|] == client;
  }

  /** An optional string as a JSON value: absent becomes `undefined`. */
  function OptionValue(o: Option<string>): Value {
    if o.Some? then Str(o.value) else Undefined
  }

  /**
    The stored metadata: the caller's object overlaid with `originalFileName`, `uploaderIp` and
    `userAgent`, then stripped of null and undefined entries.
   */
  function MetadataPayload(caller: map<string, Value>, originalFileName: Value, ip: Option<string>, userAgent: Option<string>): (r: map<string, Value>)
    ensures "originalFileName" in r <==> !Nullish(originalFileName)
    ensures "uploaderIp" in r <==> ip.Some?
    ensures "userAgent" in r <==> userAgent.Some?
    ensures "originalFileName" in r ==> r["originalFileName"] == originalFileName
    ensures ip.Some? ==> r["uploaderIp"] == Str(ip.value)
    ensures userAgent.Some? ==> r["userAgent"] == Str(userAgent.value)
    ensures forall k | k !in DerivedKeys :: (k in r <==> k in caller && !Nullish(caller[k]))
    ensures forall k | k !in DerivedKeys && k in r :: r[k] == caller[k]
  {
    Compact(caller + map[
      "originalFileName" := originalFileName,
      "uploaderIp" := OptionValue(ip),
      "userAgent" := OptionValue(userAgent)])
  }

  /** The three keys the recorder derives itself. */
  const DerivedKeys: set<string> := {"originalFileName", "uploaderIp", "userAgent"}

  /** A caller key named like a derived value is dropped when the derived value is absent. */
  lemma AbsentIpRemovesCallerKey(caller: map<string, Value>, originalFileName: Value, userAgent: Option<string>)
    requires "uploaderIp" in caller && !Nullish(caller["uploaderIp"])
    ensures "uploaderIp" !in MetadataPayload(caller, originalFileName, None, userAgent)
  {
  }

  /** The status a request asks for: a non-empty string is looked up, anything else is `pending`. */
  function RequestedStatus(v: Value): (r: Option<Status>)
    ensures !(v.Str? && v.s != []) ==> r == Some(Pending)
    ensures v.Str? && v.s != [] ==> (r.Some? <==> exists st: Status :: StatusName(st) == v.s)
    ensures r.Some? && v.Str? && v.s != [] ==> StatusName(r.value) == v.s
  {
    if Truthy(v) && v.Str? then ParseStatus(v.s) else Some(Pending)
  }

  /** The fields of a request that passed every check. */
  datatype Checked = Checked(
    treeId: string,
    s3Key: string,
    mimeType: string,
    size: int,
    metadata: map<string, Value>,
    status: Status,
    originalFileName: Value,
    uploadedBy: Option<string>)

  /** `metadata` as destructured with the default `{}`: undefined becomes the empty object. */
  function MetadataArg(v: Value): Value {
    if v.Undefined? then Obj(map[]) else v
  }

  /**
    The recorder's checks on a parsed, non-null body, in their order: the message of the first
    that fails, or the checked fields.
   */
  function CheckRecord(body: Value): (r: Result<Checked, string>)
    ensures r == Failure("treeId is required") <==> !NonBlank(Get(body, "treeId"))
    ensures r == Failure("s3Key is required") <==>
      NonBlank(Get(body, "treeId")) && !NonBlank(Get(body, "s3Key"))
    ensures r == Failure("mimeType must be an image") <==>
      NonBlank(Get(body, "treeId")) && NonBlank(Get(body, "s3Key")) &&
      !(Get(body, "mimeType").Str? && IsImageMime(Get(body, "mimeType").s))
    ensures r == Failure(SIZE_MESSAGE) <==>
      NonBlank(Get(body, "treeId")) && NonBlank(Get(body, "s3Key")) &&
      Get(body, "mimeType").Str? && IsImageMime(Get(body, "mimeType").s) &&
      !(Get(body, "fileSizeBytes").Num? && SizeInRange(Get(body, "fileSizeBytes").n))
    ensures r == Failure("metadata must be an object") <==>
      NonBlank(Get(body, "treeId")) && NonBlank(Get(body, "s3Key")) &&
      Get(body, "mimeType").Str? && IsImageMime(Get(body, "mimeType").s) &&
      Get(body, "fileSizeBytes").Num? && SizeInRange(Get(body, "fileSizeBytes").n) &&
      !MetadataArg(Get(body, "metadata")).Obj?
    ensures r == Failure("invalid status") <==>
      NonBlank(Get(body, "treeId")) && NonBlank(Get(body, "s3Key")) &&
      Get(body, "mimeType").Str? && IsImageMime(Get(body, "mimeType").s) &&
      Get(body, "fileSizeBytes").Num? && SizeInRange(Get(body, "fileSizeBytes").n) &&
      MetadataArg(Get(body, "metadata")).Obj? && RequestedStatus(Get(body, "status")).None?
    ensures r.Success? <==>
      NonBlank(Get(body, "treeId")) && NonBlank(Get(body, "s3Key")) &&
      Get(body, "mimeType").Str? && IsImageMime(Get(body, "mimeType").s) &&
      Get(body, "fileSizeBytes").Num? && SizeInRange(Get(body, "fileSizeBytes").n) &&
      MetadataArg(Get(body, "metadata")).Obj? && RequestedStatus(Get(body, "status")).Some?
    ensures r.Success? ==>
      && r.value.treeId == Get(body, "treeId").s
      && r.value.s3Key == Get(body, "s3Key").s
      && r.value.mimeType == Get(body, "mimeType").s
      && r.value.size == Get(body, "fileSizeBytes").n
      && Some(r.value.status) == RequestedStatus(Get(body, "status"))
      && r.value.metadata == MetadataArg(Get(body, "metadata")).fields
      && r.value.originalFileName == Get(body, "originalFileName")
      && (r.value.uploadedBy.Some? <==> Get(body, "uploadedBy").Str?)
      && (r.value.uploadedBy.Some? ==> r.value.uploadedBy.value == Get(body, "uploadedBy").s)
  {
    SizeMessageDistinct();
    var treeId := Get(body, "treeId");
    var s3Key := Get(body, "s3Key");
    var mimeType := Get(body, "mimeType");
    var size := Get(body, "fileSizeBytes");
    var metadata := MetadataArg(Get(body, "metadata"));
    var status := RequestedStatus(Get(body, "status"));
    var uploadedBy := Get(body, "uploadedBy");
    if !NonBlank(treeId) then Failure("treeId is required")
    else if !NonBlank(s3Key) then Failure("s3Key is required")
    else if !(mimeType.Str? && IsImageMime(mimeType.s)) then Failure("mimeType must be an image")
    else if !(size.Num? && SizeInRange(size.n)) then Failure(SIZE_MESSAGE)
    else if !metadata.Obj? then Failure("metadata must be an object")
    else if status.None? then Failure("invalid status")
    else Success(Checked(treeId.s, s3Key.s, mimeType.s, size.n, metadata.fields, status.value,
      Get(body, "originalFileName"), if uploadedBy.Str? then Some(uploadedBy.s) else None))
  }

  /** Every request that passes the checks describes a well-formed row. */
  lemma CheckedIsWellFormed(body: Value, c: Checked, id: string, meta: map<string, Value>, now: int)
    requires CheckRecord(body) == Success(c)
    ensures WellFormedRow(RecordRow(c, meta, id, now))
  {
  }

  /** An explicit status outside the six names is refused; an empty one means `pending`. */
  lemma StatusRules(body: Value)
    requires NonBlank(Get(body, "treeId")) && NonBlank(Get(body, "s3Key"))
    requires Get(body, "mimeType").Str? && IsImageMime(Get(body, "mimeType").s)
    requires Get(body, "fileSizeBytes").Num? && SizeInRange(Get(body, "fileSizeBytes").n)
    requires Get(body, "metadata").Undefined? || Get(body, "metadata").Obj?
    ensures Get(body, "status") == Str("") ==> CheckRecord(body).Success? && CheckRecord(body).value.status == Pending
    ensures Get(body, "status") == Str("archived") ==> CheckRecord(body) == Failure("invalid status")
  {
    assert MetadataArg(Get(body, "metadata")).Obj?;
    if Get(body, "status") == Str("") {
      assert RequestedStatus(Get(body, "status")) == Some(Pending);
    }
    if Get(body, "status") == Str("archived") {
      assert ParseStatus("archived").None?;
      assert RequestedStatus(Get(body, "status")).None?;
    }
  }

  const RECORD_FAILED: string := "Unable to record upload"
  const SAVE_FAILED: string := "Unable to save media record"

  /**
    The recorder. `probeFault` and `insertFault` are the object store's and the moderation store's
    failures; `rowId` and `now` are the identifier and timestamp the moderation store assigns.
   */
  method RecordUpload(req: Request, objects: ObjectStore, db: ModerationStore,
                      probeFault: bool, rowId: string, now: int, insertFault: bool)
    returns (r: Response<MediaRow>)
    requires db.Valid()
    modifies db
    ensures db.Valid()
    ensures old(AllWellFormed(db.rows)) ==> AllWellFormed(db.rows)
    ensures r.Preflight? <==> req.verb == "OPTIONS"
    ensures r.Ok? ==> db.rows == old(db.rows) + [r.body]
    ensures !r.Ok? ==> db.rows == old(db.rows)
    ensures req.verb != "OPTIONS" && Nullish(req.body) ==> r == Err(500, RECORD_FAILED)
    ensures req.verb != "OPTIONS" && !Nullish(req.body) && CheckRecord(req.body).Failure? ==>
      r == Err(400, CheckRecord(req.body).error)
    ensures req.verb != "OPTIONS" && !Nullish(req.body) && CheckRecord(req.body).Success? ==>
      var c := CheckRecord(req.body).value;
      && (probeFault || c.s3Key !in objects.keys ==> r == Err(400, "Uploaded object could not be verified"))
      && (!probeFault && c.s3Key in objects.keys && !r.Ok? ==> r == Err(500, SAVE_FAILED))
      && (r.Ok? ==> r.body == RecordRow(c, MetadataPayload(c.metadata, c.originalFileName, RequesterIp(req.headers),
            if "user-agent" in req.headers then Some(req.headers["user-agent"]) else None), rowId, now))
    ensures r.Ok? <==>
      req.verb != "OPTIONS" && !Nullish(req.body) && CheckRecord(req.body).Success? &&
      !probeFault && CheckRecord(req.body).value.s3Key in objects.keys &&
      !insertFault && forall i | 0 <= i < |old(db.rows)| :: old(db.rows)[i].id != rowId
  {
    if req.verb == "OPTIONS" {
      return Preflight;
    }
    if Nullish(req.body) {
      return Err(500, RECORD_FAILED);
    }
    var checked := CheckRecord(req.body);
    if checked.Failure? {
      return Err(400, checked.error);
    }
    var c := checked.value;
    var userAgent := if "user-agent" in req.headers then Some(req.headers["user-agent"]) else None;
    var payload := MetadataPayload(c.metadata, c.originalFileName, RequesterIp(req.headers), userAgent);
    CheckedIsWellFormed(req.body, c, rowId, payload, now);
    r := SaveRecord(c, payload, objects, db, probeFault, rowId, now, insertFault);
  }

  /** The row a checked request is stored as. */
  function RecordRow(c: Checked, payload: map<string, Value>, rowId: string, now: int): (r: MediaRow)
    ensures r.treeId == c.treeId && r.s3Key == c.s3Key && r.mimeType == c.mimeType && r.fileSizeBytes == c.size
    ensures r.status == c.status && r.uploadedBy == c.uploadedBy
    ensures r.id == rowId && r.metadata == payload && r.createdAt == now
  {
    MediaRow(rowId, c.treeId, c.s3Key, c.mimeType, c.size, c.status, payload, c.uploadedBy, now)
  }

  /** The recorder's store steps for a checked request: the existence probe, then the insert. */
  method SaveRecord(c: Checked, payload: map<string, Value>, objects: ObjectStore, db: ModerationStore,
                    probeFault: bool, rowId: string, now: int, insertFault: bool)
    returns (r: Response<MediaRow>)
    requires db.Valid()
    modifies db
    ensures db.Valid() && !r.Preflight?
    ensures old(AllWellFormed(db.rows)) && WellFormedRow(RecordRow(c, payload, rowId, now)) ==> AllWellFormed(db.rows)
    ensures r.Ok? ==> r.body == RecordRow(c, payload, rowId, now) && db.rows == old(db.rows) + [r.body]
    ensures !r.Ok? ==> db.rows == old(db.rows)
    ensures probeFault || c.s3Key !in objects.keys ==> r == Err(400, "Uploaded object could not be verified")
    ensures !probeFault && c.s3Key in objects.keys && !r.Ok? ==> r == Err(500, SAVE_FAILED)
    ensures r.Ok? <==>
      !probeFault && c.s3Key in objects.keys && !insertFault && forall i | 0 <= i < |old(db.rows)| :: old(db.rows)[i].id != rowId
  {
    var found := objects.Probe(c.s3Key, probeFault);
    if !found {
      return Err(400, "Uploaded object could not be verified");
    }
    var row := RecordRow(c, payload, rowId, now);
    var inserted := db.Insert(row, insertFault);
    if !inserted {
      return Err(500, SAVE_FAILED);
    }
    r := Ok(row);
  }
}

=== FILE: review_dashboard.dfy ===
/**
  The moderators' dashboard: the page of rows the review gateway returned is narrowed on the
  client by municipality and by upload date, the distinct tree ids of the page are looked up for
  their municipality, and an offset steps through the list 50 rows at a time.
 */
module ReviewDashboard {
  import opened Wrappers
  import opened Text
  import opened Media
  import opened Sequences

  const PAGE_SIZE: int := 50

  /** The municipality shown for a tree the lookup did not return ("unknown"). */
  const UNKNOWN_MUNICIPALITY: string := "לא ידוע"

  /** The municipality of a row's tree, or the "unknown" label. */
  function MunicipalityOf(row: MediaRow, municipalities: map<string, string>): string {
    if row.treeId in municipalities then municipalities[row.treeId] else UNKNOWN_MUNICIPALITY
  }

  /**
    The client-side filter. `query` is the municipality box, `lower` the locale's lower-casing,
    `from` and `to` the first and the last instant of the chosen days when they are set.
   */
  predicate Keep(row: MediaRow, municipalities: map<string, string>, query: string,
                 lower: string -> string, from: Option<int>, to: Option<int>)
    ensures lower(Trim(query)) == [] && from.None? && to.None? ==> Keep(row, municipalities, query, lower, from, to)
    ensures from.Some? && to.Some? && to.value < from.value ==> !Keep(row, municipalities, query, lower, from, to)
  {
    && (lower(Trim(query)) == [] || Contains(lower(MunicipalityOf(row, municipalities)), lower(Trim(query))))
    && (from.None? || from.value <= row.createdAt)
    && (to.None? || row.createdAt <= to.value)
  }

  /** `a` is `b` with some elements left out, the rest in the same order. */
  predicate Subsequence<T(==)>(a: seq<T>, b: seq<T>)
    decreases |b|
  {
    a == [] || (b != [] && ((a[0] == b[0] && Subsequence(a[1..], b[1..])) || Subsequence(a, b[1..])))
  }

  /** The rows of the loaded page that pass the filter. */
  function FilteredItems(items: seq<MediaRow>, municipalities: map<string, string>, query: string,
                         lower: string -> string, from: Option<int>, to: Option<int>): (r: seq<MediaRow>)
    ensures |r| <= |items|
    ensures forall row :: row in r <==> row in items && Keep(row, municipalities, query, lower, from, to)
  {
    if items == [] then []
    else
      var rest := FilteredItems(items[1..], municipalities, query, lower, from, to);
      assert forall row :: row in items <==> row == items[0] || row in items[1..];
      if Keep(items[0], municipalities, query, lower, from, to) then [items[0]] + rest else rest
  }

  /** Filtering only drops rows: what is left keeps the page's order. */
  lemma {:induction false} FilteredKeepsOrder(items: seq<MediaRow>, municipalities: map<string, string>, query: string,
                                             lower: string -> string, from: Option<int>, to: Option<int>)
    ensures Subsequence(FilteredItems(items, municipalities, query, lower, from, to), items)
  {
    if items != [] {
      FilteredKeepsOrder(items[1..], municipalities, query, lower, from, to);
      var rest := FilteredItems(items[1..], municipalities, query, lower, from, to);
      if !Keep(items[0], municipalities, query, lower, from, to) {
        SubsequenceSkip(rest, items);
      }
    }
  }

  /** Dropping the head of the longer sequence keeps a subsequence a subsequence of the whole. */
  lemma {:induction false} SubsequenceSkip<T>(a: seq<T>, b: seq<T>)
    requires b != [] && Subsequence(a, b[1..])
    ensures Subsequence(a, b)
  {
  }

  /** With an empty box and no dates, nothing is filtered out. */
  lemma {:induction false} NoFilterKeepsAll(items: seq<MediaRow>, municipalities: map<string, string>, query: string,
                                            lower: string -> string)
    requires lower(Trim(query)) == []
    ensures FilteredItems(items, municipalities, query, lower, None, None) == items
  {
    if items != [] {
      NoFilterKeepsAll(items[1..], municipalities, query, lower);
      assert items == [items[0]] + items[1..];
    }
  }

  /** A duplicate-free sequence. */
  predicate Distinct<T(==)>(s: seq<T>) {
    forall i, j | 0 <= i < j < |s| :: s[i] != s[j]
  }

  /** The tree ids of the rows in order of first appearance, each once, as a JavaScript `Set` keeps them. */
  function TreeIds(items: seq<MediaRow>): (r: seq<string>)
    ensures Distinct(r)
    ensures forall id :: id in r <==> exists i | 0 <= i < |items| :: items[i].treeId == id
    ensures |r| <= |items|
  {
    if items == [] then []
    else
      var init := items[..|items| - 1];
      var last := items[|items| - 1];
      var ids := TreeIds(init);
      assert forall i | 0 <= i < |init| :: init[i] == items[i];
      if last.treeId in ids then ids else ids + [last.treeId]
  }

  /** The first row's tree always comes first. */
  lemma {:induction false} TreeIdsStartWithFirst(items: seq<MediaRow>)
    requires items != []
    ensures TreeIds(items) != [] && TreeIds(items)[0] == items[0].treeId
    decreases |items|
  {
    if |items| > 1 {
      var init := items[..|items| - 1];
      assert init[0] == items[0];
      TreeIdsStartWithFirst(init);
    }
  }

  /** The position of the first row of the tree `id` on the page, or the page length. */
  function FirstRowOf(items: seq<MediaRow>, id: string): nat {
    FirstWhere(items, (row: MediaRow) => row.treeId == id)
  }

  /** The ids come in the order in which their trees first appear on the page. */
  lemma {:induction false} TreeIdsFirstAppearance(items: seq<MediaRow>)
    ensures forall a, b | 0 <= a < b < |TreeIds(items)| ::
      FirstRowOf(items, TreeIds(items)[a]) < FirstRowOf(items, TreeIds(items)[b])
    ensures forall a | 0 <= a < |TreeIds(items)| :: FirstRowOf(items, TreeIds(items)[a]) < |items|
    decreases |items|
  {
    if items != [] {
      var init := items[..|items| - 1];
      var last := items[|items| - 1];
      assert items == init + [last];
      var ids := TreeIds(init);
      TreeIdsFirstAppearance(init);
      forall a | 0 <= a < |ids|
        ensures FirstRowOf(items, ids[a]) == FirstRowOf(init, ids[a]) < |init|
      {
        FirstRowKept(init, last, ids[a]);
      }
      var r := TreeIds(items);
      if last.treeId !in ids {
        assert r == ids + [last.treeId];
        FirstRowNew(init, last);
        forall a, b | 0 <= a < b < |r| ensures FirstRowOf(items, r[a]) < FirstRowOf(items, r[b]) {
          assert r[a] == ids[a];
          if b < |ids| {
            assert r[b] == ids[b];
          }
        }
      } else {
        assert r == ids;
      }
    }
  }

  /** A tree that already has a row keeps its first row when a row is added. */
  lemma FirstRowKept(init: seq<MediaRow>, last: MediaRow, id: string)
    requires FirstRowOf(init, id) < |init|
    ensures FirstRowOf(init + [last], id) == FirstRowOf(init, id)
  {
    FirstWhereAppend(init, last, (row: MediaRow) => row.treeId == id);
  }

  /** A tree first seen in the added row has that row as its first. */
  lemma FirstRowNew(init: seq<MediaRow>, last: MediaRow)
    requires last.treeId !in TreeIds(init)
    ensures FirstRowOf(init + [last], last.treeId) == |init|
  {
    assert forall i | 0 <= i < |init| :: init[i].treeId != last.treeId;
    FirstWhereAppend(init, last, (row: MediaRow) => row.treeId == last.treeId);
  }

  /** There is a page before this one. */
  predicate HasPrev(offset: int) {
    offset > 0
  }

  /** Some row of the list lies after this page. */
  predicate HasNext(offset: int, count: int) {
    offset + PAGE_SIZE < count
  }

  /** The dashboard's paging state: the status it lists and the offset of the page shown. */
  class ReviewPager {
    var statusFilter: Status
    var offset: int

    ghost predicate Valid()
      reads this
    {
      offset >= 0
    }

    /** A fresh dashboard lists `pending` rows from the start. */
    constructor ()
      ensures Valid()
      ensures statusFilter == Pending && offset == 0
      ensures !HasPrev(offset)
    {
      statusFilter := Pending;
      offset := 0;
    }

    /** Choosing another status starts its list from the beginning. */
    method SetStatus(status: Status)
      modifies this
      ensures Valid()
      ensures statusFilter == status && offset == 0
      ensures !HasPrev(offset)
    {
      statusFilter := status;
      offset := 0;
    }

    /** First: back to the beginning. */
    method First()
      modifies this
      ensures Valid()
      ensures offset == 0 && statusFilter == old(statusFilter)
    {
      offset := 0;
    }

    /** Prev: one page back, never before the beginning. */
    method Prev()
      requires Valid()
      modifies this
      ensures Valid()
      ensures statusFilter == old(statusFilter)
      ensures old(offset) >= PAGE_SIZE ==> offset == old(offset) - PAGE_SIZE
      ensures old(offset) < PAGE_SIZE ==> offset == 0
      ensures offset <= old(offset)
      ensures HasPrev(old(offset)) ==> offset < old(offset)
    {
      offset := if offset - PAGE_SIZE > 0 then offset - PAGE_SIZE else 0;
    }

    /** Next: one page on; while the button is enabled the new page starts inside the list. */
    method Next(count: int)
      requires Valid()
      modifies this
      ensures Valid()
      ensures statusFilter == old(statusFilter)
      ensures offset == old(offset) + PAGE_SIZE
      ensures HasNext(old(offset), count) ==> offset < count
      ensures HasPrev(offset)
    {
      offset := offset + PAGE_SIZE;
    }
  }

  /** Prev undoes Next from any reachable offset, so paging back and forth lands on the same page. */
  method PrevAfterNext(pager: ReviewPager, count: int)
    requires pager.Valid()
    modifies pager
    ensures pager.Valid()
    ensures pager.offset == old(pager.offset) && pager.statusFilter == old(pager.statusFilter)
  {
    pager.Next(count);
    pager.Prev();
  }
}

=== FILE: review_media.dfy ===
/**
  The review gateway: one POST endpoint that either lists moderation rows of one status, newest
  first and one page at a time, or changes the status of one row.
 */
module ReviewMedia {
  import opened Wrappers
  import opened Text
  import opened Json
  import opened Media
  import opened Sorting

  const MAX_LIMIT: int := 200
  const DEFAULT_LIMIT: int := 50

  /** `payload?.action ?? "list"`: only the exact string `"update"` selects an update. */
  predicate IsUpdate(payload: Value) {
    Get(payload, "action") == Str("update")
  }

  /** The status to list: an allowed string, else `pending`. */
  function ListStatus(v: Value): (r: Status)
    ensures StatusOf(v).Some? ==> r == StatusOf(v).value
    ensures StatusOf(v).None? ==> r == Pending
  {
    StatusOf(v).GetOr(Pending)
  }

  /** The page size: a positive number capped at 200, else 50. */
  function SafeLimit(v: Value): (r: int)
    ensures 1 <= r <= MAX_LIMIT
    ensures v.Num? && v.n > 0 ==> r == if v.n < MAX_LIMIT then v.n else MAX_LIMIT
    ensures !(v.Num? && v.n > 0) ==> r == DEFAULT_LIMIT
  {
    if v.Num? && v.n > 0 then (if v.n < MAX_LIMIT then v.n else MAX_LIMIT) else DEFAULT_LIMIT
  }

  /** The page start: a number that is at least 0, else 0. */
  function SafeOffset(v: Value): (r: nat)
    ensures v.Num? && v.n >= 0 ==> r == v.n
    ensures !(v.Num? && v.n >= 0) ==> r == 0
  {
    if v.Num? && v.n >= 0 then v.n else 0
  }

  /** The tree filter: a non-empty array restricts the list, anything else does not. */
  function TreeFilter(v: Value): (r: Option<seq<Value>>)
    ensures r.Some? <==> v.Arr? && v.items != []
    ensures r.Some? ==> r.value == v.items
  {
    if v.Arr? && |v.items| > 0 then Some(v.items) else None
  }

  /** A row the list query selects: the status matches and, with a tree filter, its tree is named. */
  predicate Selected(row: MediaRow, status: Status, trees: Option<seq<Value>>) {
    row.status == status && (trees.None? || Str(row.treeId) in trees.value)
  }

  /** The selected rows, in store order. */
  function Matching(rows: seq<MediaRow>, status: Status, trees: Option<seq<Value>>): (r: seq<MediaRow>)
    ensures |r| <= |rows|
    ensures forall i | 0 <= i < |r| :: Selected(r[i], status, trees)
    ensures forall row :: row in r <==> row in rows && Selected(row, status, trees)
    ensures |rows| == 1 ==> r == if Selected(rows[0], status, trees) then rows else []
  {
    if rows == [] then []
    else
      assert rows == [rows[0]] + rows[1..];
      if Selected(rows[0], status, trees) then [rows[0]] + Matching(rows[1..], status, trees)
      else Matching(rows[1..], status, trees)
  }

  /** The selection keeps store order: it works piece by piece, a selected row giving itself. */
  lemma {:induction false} MatchingAppend(a: seq<MediaRow>, b: seq<MediaRow>, status: Status, trees: Option<seq<Value>>)
    ensures Matching(a + b, status, trees) == Matching(a, status, trees) + Matching(b, status, trees)
  {
    if a != [] {
      var ab := a + b;
      assert ab[0] == a[0] && ab[1..] == a[1..] + b;
      MatchingAppend(a[1..], b, status, trees);
      var head := if Selected(a[0], status, trees) then [a[0]] else [];
      assert Matching(ab, status, trees) == head + Matching(a[1..] + b, status, trees);
      assert Matching(a, status, trees) == head + Matching(a[1..], status, trees);
    } else {
      assert a + b == b;
    }
  }

  function CreatedAt(row: MediaRow): int {
    row.createdAt
  }

  /** One page of the list and the number of rows the filters select. */
  datatype Listing = Listing(items: seq<MediaRow>, count: nat, status: Status)

  /** `range(offset, offset + limit - 1)` over an ordered result: at most `limit` rows from `offset` on. */
  function Window<T>(ordered: seq<T>, offset: nat, limit: nat): (r: seq<T>)
    ensures |r| <= limit
    ensures offset < |ordered| ==> |r| == if offset + limit <= |ordered| then limit else |ordered| - offset
    ensures offset >= |ordered| ==> r == []
    ensures forall i | 0 <= i < |r| :: r[i] == ordered[offset + i]
  {
    if offset < |ordered| then ordered[offset..if offset + limit <= |ordered| then offset + limit else |ordered|]
    else []
  }

  /** A window of a newest-first order is newest-first. */
  lemma WindowSorted<T>(ordered: seq<T>, offset: nat, limit: nat, key: T -> int)
    requires SortedDesc(ordered, key)
    ensures SortedDesc(Window(ordered, offset, limit), key)
  {
    var w := Window(ordered, offset, limit);
    forall i, j | 0 <= i < j < |w|
      ensures key(w[i]) >= key(w[j])
    {
      assert w[i] == ordered[offset + i] && w[j] == ordered[offset + j];
    }
  }

  /** The rows of a page are selected rows of the store, newest first. */
  lemma PageRows(rows: seq<MediaRow>, status: Status, trees: Option<seq<Value>>, offset: nat, limit: nat)
    ensures var items := Window(SortDesc(Matching(rows, status, trees), CreatedAt), offset, limit);
      && (forall i | 0 <= i < |items| :: Selected(items[i], status, trees) && items[i] in rows)
      && SortedDesc(items, CreatedAt)
  {
    var ordered := SortDesc(Matching(rows, status, trees), CreatedAt);
    var items := Window(ordered, offset, limit);
    forall i | 0 <= i < |items|
      ensures Selected(items[i], status, trees) && items[i] in rows
    {
      SortDescSameElements(Matching(rows, status, trees), CreatedAt, items[i]);
    }
    WindowSorted(ordered, offset, limit, CreatedAt);
  }

  /** Two windows that meet cover one longer window. */
  lemma WindowsAdjacent<T>(ordered: seq<T>, offset: nat, limit: nat)
    ensures Window(ordered, offset, limit) + Window(ordered, offset + limit, limit) == Window(ordered, offset, 2 * limit)
  {
    var a := Window(ordered, offset, limit);
    var b := Window(ordered, offset + limit, limit);
    var w := Window(ordered, offset, 2 * limit);
    if offset < |ordered| && offset + limit < |ordered| {
      assert |a| == limit;
      assert forall i | 0 <= i < |a + b| :: (a + b)[i] == w[i];
    }
  }

  /**
    `select("*", {count: "exact"}).eq("status", …).order("created_at", {ascending: false})
    .range(offset, offset + limit - 1)`, with the optional tree filter.
   */
  function ListMedia(rows: seq<MediaRow>, status: Status, limit: int, offset: nat, trees: Option<seq<Value>>): (r: Listing)
    requires limit >= 1
    ensures r.status == status
    ensures r.count == |Matching(rows, status, trees)|
    ensures |r.items| <= limit
    ensures forall i | 0 <= i < |r.items| :: Selected(r.items[i], status, trees) && r.items[i] in rows
    ensures SortedDesc(r.items, CreatedAt)
    ensures offset < r.count ==> |r.items| == if offset + limit <= r.count then limit else r.count - offset
    ensures offset >= r.count ==> r.items == []
    ensures r.items == Window(SortDesc(Matching(rows, status, trees), CreatedAt), offset, limit)
  {
    var ordered := SortDesc(Matching(rows, status, trees), CreatedAt);
    PageRows(rows, status, trees, offset, limit);
    Listing(Window(ordered, offset, limit), |ordered|, status)
  }

  /** Two consecutive pages are consecutive stretches of one newest-first order. */
  lemma ConsecutivePages(rows: seq<MediaRow>, status: Status, limit: int, offset: nat, trees: Option<seq<Value>>)
    requires limit >= 1
    ensures var ordered := SortDesc(Matching(rows, status, trees), CreatedAt);
      var both := ListMedia(rows, status, limit, offset, trees).items + ListMedia(rows, status, limit, offset + limit, trees).items;
      both == Window(ordered, offset, 2 * limit)
  {
    var ordered := SortDesc(Matching(rows, status, trees), CreatedAt);
    WindowsAdjacent(ordered, offset, limit);
  }

  /** What a 200 answer carries. */
  datatype ReviewBody = Updated(media: MediaRow) | Page(listing: Listing)

  const REVIEW_FAILED: string := "Review media request failed"

  /**
    The gateway. `fault` is the moderation store's failure on the one query the request makes.
    Only an update changes the store, and only the status of the row it names.
   */
  method ReviewMedia(req: Request, db: ModerationStore, fault: bool) returns (r: Response<ReviewBody>)
    requires db.Valid()
    modifies db
    ensures db.Valid()
    ensures old(AllWellFormed(db.rows)) ==> AllWellFormed(db.rows)
    ensures r.Preflight? <==> req.verb == "OPTIONS"
    ensures req.verb != "OPTIONS" && req.verb != "POST" ==> r == Err(405, "Method not allowed")
    ensures req.verb == "POST" && Nullish(req.body) ==> r == Err(500, REVIEW_FAILED)
    ensures !(req.verb == "POST" && !Nullish(req.body) && IsUpdate(req.body) && r.Ok?) ==> db.rows == old(db.rows)
    ensures req.verb == "POST" && !Nullish(req.body) && IsUpdate(req.body) ==>
      var id := Get(req.body, "id");
      var status := Get(req.body, "status");
      && (!NonBlank(id) ==> r == Err(400, "id is required"))
      && (NonBlank(id) && StatusOf(status).None? ==> r == Err(400, "invalid status"))
      && (NonBlank(id) && StatusOf(status).Some? ==>
            && (r.Ok? <==> !fault && exists i | 0 <= i < |old(db.rows)| :: old(db.rows)[i].id == id.s)
            && (!r.Ok? ==> r == Err(500, "Failed to update status"))
            && (r.Ok? ==>
                  var i := FindRow(old(db.rows), id.s);
                  && i < |old(db.rows)|
                  && r.body == Updated(old(db.rows)[i].(status := StatusOf(status).value))
                  && db.rows == old(db.rows)[i := r.body.media]))
    ensures req.verb == "POST" && !Nullish(req.body) && !IsUpdate(req.body) ==>
      if fault then r == Err(500, "Failed to load media")
      else r == Ok(Page(ListMedia(old(db.rows), ListStatus(Get(req.body, "status")),
        SafeLimit(Get(req.body, "limit")), SafeOffset(Get(req.body, "offset")), TreeFilter(Get(req.body, "treeIds")))))
  {
    if req.verb == "OPTIONS" {
      return Preflight;
    }
    if req.verb != "POST" {
      return Err(405, "Method not allowed");
    }
    if Nullish(req.body) {
      return Err(500, REVIEW_FAILED);
    }
    var payload := req.body;
    if IsUpdate(payload) {
      var id := Get(payload, "id");
      var status := Get(payload, "status");
      if !NonBlank(id) {
        return Err(400, "id is required");
      }
      var parsed := StatusOf(status);
      if parsed.None? {
        return Err(400, "invalid status");
      }
      var updated := db.UpdateStatus(id.s, parsed.value, fault);
      if updated.None? {
        return Err(500, "Failed to update status");
      }
      return Ok(Updated(updated.value));
    }
    if fault {
      return Err(500, "Failed to load media");
    }
    var listing := ListMedia(db.rows, ListStatus(Get(payload, "status")), SafeLimit(Get(payload, "limit")),
      SafeOffset(Get(payload, "offset")), TreeFilter(Get(payload, "treeIds")));
    r := Ok(Page(listing));
  }
}

=== FILE: sequences.dfy ===
/** Searching a sequence: the linear search the media rows and the review dashboard share. */
module Sequences {
  /** The position of the first element satisfying `p`, or `|s|` when there is none. */
  function FirstWhere<T>(s: seq<T>, p: T -> bool): (i: nat)
    ensures i <= |s|
    ensures i < |s| ==> p(s[i])
    ensures forall j | 0 <= j < i :: !p(s[j])
  {
    if s == [] then 0
    else if p(s[0]) then 0
    else 1 + FirstWhere(s[1..], p)
  }

  /** Appending an element does not move a match that was already there. */
  lemma {:induction false} FirstWhereAppend<T>(s: seq<T>, x: T, p: T -> bool)
    ensures FirstWhere(s + [x], p) == if FirstWhere(s, p) < |s| then FirstWhere(s, p) else if p(x) then |s| else |s| + 1
  {
    if s != [] {
      assert (s + [x])[0] == s[0];
      assert (s + [x])[1..] == s[1..] + [x];
      FirstWhereAppend(s[1..], x, p);
    }
  }
}

=== FILE: sorting.dfy ===
/**
  Ordering by an integer key, largest first: the "newest first" order of the moderation list
  and of the tree card's community gallery. Elements with equal keys keep their input order.
 */
module Sorting {

  /** `s` is ordered by `key`, largest first. */
  predicate SortedDesc<T>(s: seq<T>, key: T -> int) {
    forall i, j | 0 <= i < j < |s| :: key(s[i]) >= key(s[j])
  }

  /** Every key of `s` is at most `b`. */
  predicate KeysAtMost<T>(s: seq<T>, key: T -> int, b: int) {
    forall i | 0 <= i < |s| :: key(s[i]) <= b
  }

  /** `x` placed in `s` before the first element whose key is not larger than `x`'s. */
  function InsertDesc<T>(x: T, s: seq<T>, key: T -> int): (r: seq<T>)
    ensures |r| == |s| + 1
    ensures multiset(r) == multiset(s) + multiset{x}
  {
    if s == [] then [x]
    else if key(s[0]) <= key(x) then [x] + s
    else
      assert s == [s[0]] + s[1..];
      [s[0]] + InsertDesc(x, s[1..], key)
  }

  lemma {:induction false} InsertDescBound<T>(x: T, s: seq<T>, key: T -> int, b: int)
    requires key(x) <= b && KeysAtMost(s, key, b)
    ensures KeysAtMost(InsertDesc(x, s, key), key, b)
  {
    if s != [] && key(s[0]) > key(x) {
      InsertDescBound(x, s[1..], key, b);
    }
  }

  /** Inserting into a descending sequence keeps it descending. */
  lemma {:induction false} InsertDescSorted<T>(x: T, s: seq<T>, key: T -> int)
    requires SortedDesc(s, key)
    ensures SortedDesc(InsertDesc(x, s, key), key)
  {
    if s != [] && key(s[0]) > key(x) {
      InsertDescSorted(x, s[1..], key);
      InsertDescBound(x, s[1..], key, key(s[0]));
    }
  }

  /** Insertion sort by key, largest first, keeping the input order of equal keys. */
  function SortDesc<T>(s: seq<T>, key: T -> int): (r: seq<T>)
    ensures |r| == |s|
    ensures multiset(r) == multiset(s)
    ensures SortedDesc(r, key)
  {
    if s == [] then []
    else
      assert s == [s[0]] + s[1..];
      InsertDescSorted(s[0], SortDesc(s[1..], key), key);
      InsertDesc(s[0], SortDesc(s[1..], key), key)
  }

  /** A sequence already in order is left as it is. */
  lemma {:induction false} SortDescOfSorted<T>(s: seq<T>, key: T -> int)
    requires SortedDesc(s, key)
    ensures SortDesc(s, key) == s
  {
    if s != [] {
      assert SortedDesc(s[1..], key);
      SortDescOfSorted(s[1..], key);
      assert s[1..] == [] || key(s[1..][0]) <= key(s[0]);
    }
  }

  /** Every element of the sorted sequence comes from the input, and the other way round. */
  lemma SortDescSameElements<T>(s: seq<T>, key: T -> int, x: T)
    ensures x in SortDesc(s, key) <==> x in s
  {
    var r := SortDesc(s, key);
    assert x in r <==> x in multiset(r);
    assert x in s <==> x in multiset(s);
  }

  /** The elements of `s` whose key is `k`, in order. */
  function WithKey<T>(s: seq<T>, key: T -> int, k: int): seq<T> {
    if s == [] then [] else (if key(s[0]) == k then [s[0]] else []) + WithKey(s[1..], key, k)
  }

  /** The elements of key `k` in `[x] + s`: `x` when it has that key, then those of `s`. */
  lemma WithKeyCons<T>(x: T, s: seq<T>, key: T -> int, k: int)
    ensures WithKey([x] + s, key, k) == (if key(x) == k then [x] else []) + WithKey(s, key, k)
  {
    assert ([x] + s)[0] == x && ([x] + s)[1..] == s;
  }

  /** Inserting `x` puts it before every element with its own key and moves no other element of that key. */
  lemma {:induction false} InsertDescWithKey<T>(x: T, s: seq<T>, key: T -> int, k: int)
    ensures WithKey(InsertDesc(x, s, key), key, k) == (if key(x) == k then [x] else []) + WithKey(s, key, k)
  {
    var r := InsertDesc(x, s, key);
    if s == [] || key(s[0]) <= key(x) {
      assert r == [x] + s;
      WithKeyCons(x, s, key, k);
    } else {
      var rest := InsertDesc(x, s[1..], key);
      assert r == [s[0]] + rest;
      assert s == [s[0]] + s[1..];
      InsertDescWithKey(x, s[1..], key, k);
      WithKeyCons(s[0], rest, key, k);
      WithKeyCons(s[0], s[1..], key, k);
      var tail := WithKey(s[1..], key, k);
      if key(x) == k {
        assert WithKey(r, key, k) == [] + ([x] + tail) == [x] + tail;
        assert WithKey(s, key, k) == [] + tail == tail;
      } else {
        var head := if key(s[0]) == k then [s[0]] else [];
        assert WithKey(r, key, k) == head + ([] + tail) == head + tail;
        assert WithKey(s, key, k) == head + tail;
      }
    }
  }

  /** The sort is stable: the elements of each key stay in their input order. */
  lemma {:induction false} SortDescStable<T>(s: seq<T>, key: T -> int, k: int)
    ensures WithKey(SortDesc(s, key), key, k) == WithKey(s, key, k)
  {
    if s != [] {
      SortDescStable(s[1..], key, k);
      InsertDescWithKey(s[0], SortDesc(s[1..], key), key, k);
    }
  }
}

=== FILE: text.dfy ===
/**
  String operations shared by the TypeScript and Python code: whitespace classes, trimming,
  prefix and substring tests, splitting on one character, whitespace-run replacement,
  character filtering, lower-casing of ASCII letters and decimal rendering of integers.
  Strings are sequences of Unicode scalar values.
 */
module Text {

  /** JavaScript's whitespace (the class `\s`, and what `String.prototype.trim` removes). */
  predicate IsSpace(c: char) {
    c == '\t' || c == '\n' || c == '\U{B}' || c == '\U{C}' || c == '\r' || c == ' ' ||
    c == '\U{A0}' || c == '\U{1680}' || ('\U{2000}' <= c <= '\U{200A}') ||
    c == '\U{2028}' || c == '\U{2029}' || c == '\U{202F}' || c == '\U{205F}' ||
    c == '\U{3000}' || c == '\U{FEFF}'
  }

  /** Python's `str.isspace` for one character (what `str.strip()` removes). */
  predicate IsPySpace(c: char) {
    c == '\t' || c == '\n' || c == '\U{B}' || c == '\U{C}' || c == '\r' ||
    ('\U{1C}' <= c <= '\U{1F}') || c == ' ' || c == '\U{85}' || c == '\U{A0}' ||
    c == '\U{1680}' || ('\U{2000}' <= c <= '\U{200A}') || c == '\U{2028}' ||
    c == '\U{2029}' || c == '\U{202F}' || c == '\U{205F}' || c == '\U{3000}'
  }

  predicate AllIn(s: string, ok: char -> bool) {
    forall i | 0 <= i < |s| :: ok(s[i])
  }

  predicate NoneIn(s: string, bad: char -> bool) {
    forall i | 0 <= i < |s| :: !bad(s[i])
  }

  /** Number of leading characters of `s` that satisfy `ws`. */
  function LeadingCount(s: string, ws: char -> bool): (n: nat)
    ensures n <= |s|
    ensures forall i | 0 <= i < n :: ws(s[i])
    ensures n < |s| ==> !ws(s[n])
  {
    if s == [] || !ws(s[0]) then 0 else 1 + LeadingCount(s[1..], ws)
  }

  /** Number of trailing characters of `s` that satisfy `ws`. */
  function TrailingCount(s: string, ws: char -> bool): (n: nat)
    ensures n <= |s|
    ensures forall i | |s| - n <= i < |s| :: ws(s[i])
    ensures n < |s| ==> !ws(s[|s| - 1 - n])
  {
    if s == [] || !ws(s[|s| - 1]) then 0 else 1 + TrailingCount(s[..|s| - 1], ws)
  }

  /** `s` with every leading and trailing `ws` character removed. */
  function Strip(s: string, ws: char -> bool): (r: string)
    ensures LeadingCount(s, ws) + |r| <= |s|
    ensures r == s[LeadingCount(s, ws)..LeadingCount(s, ws) + |r|]
    ensures !AllIn(s, ws) ==> |r| == |s| - LeadingCount(s, ws) - TrailingCount(s, ws)
    ensures r == [] || (!ws(r[0]) && !ws(r[|r| - 1]))
    ensures r == [] <==> AllIn(s, ws)
  {
    var a := s[LeadingCount(s, ws)..];
    assert a == [] || !ws(a[0]);
    var r := a[..|a| - TrailingCount(a, ws)];
    assert r == [] ==> a == [];
    r
  }

  /** JavaScript `String.prototype.trim`. */
  function Trim(s: string): string {
    Strip(s, IsSpace)
  }

  /** Python `str.strip()` with no argument. */
  function PyStrip(s: string): string {
    Strip(s, IsPySpace)
  }

  /** Stripping keeps a property every character has. */
  lemma StripKeeps(s: string, ws: char -> bool, ok: char -> bool)
    requires AllIn(s, ok)
    ensures AllIn(Strip(s, ws), ok)
  {
    var r := Strip(s, ws);
    assert forall i | 0 <= i < |r| :: r[i] == s[LeadingCount(s, ws) + i];
  }

  /** Python `str.strip(c)`: removes every leading and trailing `c`. */
  function StripChar(s: string, c: char): string {
    Strip(s, IsChar(c))
  }

  /** The test for one given character. */
  function IsChar(c: char): char -> bool {
    x => x == c
  }

  lemma StripOfClean(s: string, ws: char -> bool)
    requires NoneIn(s, ws)
    ensures Strip(s, ws) == s
  {
    assert s == [] || !ws(s[0]);
    assert s == [] || !ws(s[|s| - 1]);
  }

  /** Stripping twice strips nothing more. */
  lemma StripIdempotent(s: string, ws: char -> bool)
    ensures Strip(Strip(s, ws), ws) == Strip(s, ws)
  {
    var r := Strip(s, ws);
    assert r == [] || !ws(r[0]);
    assert r == [] || !ws(r[|r| - 1]);
  }

  /** A string that neither starts nor ends with a `ws` character is not changed by stripping. */
  lemma StripOfTrimmed(s: string, ws: char -> bool)
    requires s == [] || (!ws(s[0]) && !ws(s[|s| - 1]))
    ensures Strip(s, ws) == s
  {
    assert LeadingCount(s, ws) == 0;
    assert s[0..] == s;
    assert TrailingCount(s, ws) == 0;
  }

  predicate StartsWith(s: string, prefix: string) {
    prefix <= s
  }

  /** `t` occurs as a contiguous piece of `s` (JavaScript `includes`, Python `in`). */
  predicate Contains(s: string, t: string)
    decreases |s|
  {
    t <= s || (s != [] && Contains(s[1..], t))
  }

  lemma ContainsAt(s: string, t: string, i: nat)
    requires i + |t| <= |s| && s[i..i + |t|] == t
    ensures Contains(s, t)
    decreases i
  {
    if i > 0 {
      assert s[1..][i - 1..i - 1 + |t|] == t;
      ContainsAt(s[1..], t, i - 1);
    }
  }

  lemma ContainsChar(s: string, c: char)
    ensures Contains(s, [c]) <==> c in s
  {
    if s != [] {
      ContainsChar(s[1..], c);
      assert c in s <==> s[0] == c || c in s[1..];
    }
  }

  /** Index of the first `c` in `s`, or `|s|` when there is none. */
  function IndexOf(s: string, c: char): (i: nat)
    ensures i <= |s|
    ensures i < |s| ==> s[i] == c
    ensures c !in s[..i]
    ensures i == |s| <==> c !in s
  {
    if s == [] then 0
    else if s[0] == c then 0
    else
      var j := IndexOf(s[1..], c);
      assert s[..1 + j] == [s[0]] + s[1..][..j];
      1 + j
  }

  /** `parts` glued together with `sep` between neighbours. */
  function Join(parts: seq<string>, sep: string): string {
    if parts == [] then []
    else if |parts| == 1 then parts[0]
    else parts[0] + sep + Join(parts[1..], sep)
  }

  /** JavaScript `s.split(c)` and Python `s.split(c)` for a one-character separator. */
  function Split(s: string, sep: char): (r: seq<string>)
    ensures |r| >= 1
    ensures forall i | 0 <= i < |r| :: sep !in r[i]
    decreases |s|
  {
    var i := IndexOf(s, sep);
    if i == |s| then [s] else [s[..i]] + Split(s[i + 1..], sep)
  }

  /** Splitting and joining again gives back the string. */
  lemma {:induction false} JoinSplit(s: string, sep: char)
    ensures Join(Split(s, sep), [sep]) == s
    decreases |s|
  {
    var i := IndexOf(s, sep);
    if i < |s| {
      var rest := Split(s[i + 1..], sep);
      var parts := [s[..i]] + rest;
      assert Split(s, sep) == parts;
      assert parts[1..] == rest;
      assert Join(parts, [sep]) == s[..i] + [sep] + Join(rest, [sep]);
      JoinSplit(s[i + 1..], sep);
      assert s == s[..i] + [sep] + s[i + 1..];
    }
  }

  /** A string without the separator is one piece. */
  lemma SplitClean(s: string, sep: char)
    requires sep !in s
    ensures Split(s, sep) == [s]
  {
  }

  /** Splitting a join of separator-free pieces gives the pieces back. */
  lemma {:induction false} SplitJoin(parts: seq<string>, sep: char)
    requires |parts| >= 1
    requires forall i | 0 <= i < |parts| :: sep !in parts[i]
    ensures Split(Join(parts, [sep]), sep) == parts
    decreases |parts|
  {
    if |parts| > 1 {
      var rest := Join(parts[1..], [sep]);
      var s := parts[0] + [sep] + rest;
      IndexOfAfterClean(parts[0], sep, rest);
      assert s[..|parts[0]|] == parts[0];
      assert s[|parts[0]| + 1..] == rest;
      assert parts == [parts[0]] + parts[1..];
      SplitJoin(parts[1..], sep);
    }
  }

  lemma {:induction false} IndexOfAfterClean(a: string, sep: char, b: string)
    requires sep !in a
    ensures IndexOf(a + [sep] + b, sep) == |a|
  {
    if a != [] {
      assert (a + [sep] + b)[1..] == a[1..] + [sep] + b;
      IndexOfAfterClean(a[1..], sep, b);
    }
  }

  /** The text after the last `sep` (JavaScript `s.split(sep).pop()`). */
  function LastPiece(s: string, sep: char): (r: string)
    ensures sep !in r
  {
    var p := Split(s, sep);
    p[|p| - 1]
  }

  /** The last piece of `a + [sep] + b` is `b` when `b` has no separator. */
  lemma {:induction false} LastPieceAfter(a: string, sep: char, b: string)
    requires sep !in b
    ensures LastPiece(a + [sep] + b, sep) == b
    decreases |a|
  {
    var s := a + [sep] + b;
    var i := IndexOf(s, sep);
    if i == |a| {
      assert s[i + 1..] == b;
      SplitClean(b, sep);
    } else {
      assert i < |a| by {
        assert s[|a|] == sep;
        assert sep in s[..|a| + 1];
      }
      assert s[i + 1..] == a[i + 1..] + [sep] + b;
      LastPieceAfter(a[i + 1..], sep, b);
    }
  }

  /** The text before the first `sep` (JavaScript `s.split(sep)[0]`). */
  function FirstPiece(s: string, sep: char): (r: string)
    ensures sep !in r
    ensures r <= s
    ensures r == Split(s, sep)[0]
  {
    s[..IndexOf(s, sep)]
  }

  /** `s` with every maximal run of whitespace replaced by `rep` (JavaScript `s.replace(/\s+/g, rep)`). */
  function ReplaceSpaceRuns(s: string, rep: string): (r: string)
    decreases |s|
  {
    if s == [] then []
    else if IsSpace(s[0]) then rep + ReplaceSpaceRuns(s[LeadingCount(s, IsSpace)..], rep)
    else [s[0]] + ReplaceSpaceRuns(s[1..], rep)
  }

  /** Replacing runs leaves a whitespace-free string when the replacement has no whitespace. */
  lemma {:induction false} ReplaceSpaceRunsClean(s: string, rep: string)
    requires NoneIn(rep, IsSpace)
    ensures NoneIn(ReplaceSpaceRuns(s, rep), IsSpace)
    decreases |s|
  {
    if s == [] {
    } else if IsSpace(s[0]) {
      ReplaceSpaceRunsClean(s[LeadingCount(s, IsSpace)..], rep);
    } else {
      ReplaceSpaceRunsClean(s[1..], rep);
    }
  }

  /** A whitespace-free string is left alone. */
  lemma {:induction false} ReplaceSpaceRunsIdentity(s: string, rep: string)
    requires NoneIn(s, IsSpace)
    ensures ReplaceSpaceRuns(s, rep) == s
    decreases |s|
  {
    if s != [] {
      ReplaceSpaceRunsIdentity(s[1..], rep);
    }
  }

  /** The characters of `s` that satisfy `keep`, in order (JavaScript `s.replace(/[^...]/g, "")`). */
  function Filter(s: string, keep: char -> bool): (r: string)
    ensures |r| <= |s|
    ensures AllIn(r, keep)
    ensures |s| == 1 ==> r == if keep(s[0]) then s else []
  {
    if s == [] then []
    else
      if keep(s[0]) then [s[0]] + Filter(s[1..], keep)
      else Filter(s[1..], keep)
  }

  /** Filtering works piece by piece and keeps the order: a kept character is itself, a dropped one nothing. */
  lemma {:induction false} FilterAppend(a: string, b: string, keep: char -> bool)
    ensures Filter(a + b, keep) == Filter(a, keep) + Filter(b, keep)
  {
    if a != [] {
      var ab := a + b;
      assert ab[0] == a[0] && ab[1..] == a[1..] + b;
      FilterAppend(a[1..], b, keep);
      var head := if keep(a[0]) then [a[0]] else [];
      assert Filter(ab, keep) == head + Filter(a[1..] + b, keep);
      assert Filter(a, keep) == head + Filter(a[1..], keep);
    } else {
      assert a + b == b;
    }
  }

  lemma {:induction false} FilterIdentity(s: string, keep: char -> bool)
    requires AllIn(s, keep)
    ensures Filter(s, keep) == s
  {
    if s != [] {
      FilterIdentity(s[1..], keep);
    }
  }

  lemma {:induction false} FilterKeepsClean(s: string, keep: char -> bool, bad: char -> bool)
    requires NoneIn(s, bad)
    ensures NoneIn(Filter(s, keep), bad)
  {
    if s != [] {
      FilterKeepsClean(s[1..], keep, bad);
    }
  }

  predicate IsAsciiUpper(c: char) { 'A' <= c <= 'Z' }
  predicate IsAsciiLower(c: char) { 'a' <= c <= 'z' }
  predicate IsDigit(c: char) { '0' <= c <= '9' }
  predicate IsAsciiAlnum(c: char) { IsAsciiUpper(c) || IsAsciiLower(c) || IsDigit(c) }
  /** The regular-expression class `\w`: `[A-Za-z0-9_]`. */
  predicate IsWordChar(c: char) { IsAsciiAlnum(c) || c == '_' }

  /**
    JavaScript `toLowerCase` on one character, exact for every character whose lower case is an
    ASCII letter or digit: `A`-`Z`, and the Kelvin sign U+212A, whose lower case is `k`.
   */
  function LowerChar(c: char): (r: char)
    ensures IsAsciiLower(r) || IsDigit(r) ==> IsAsciiAlnum(c) || c == '\U{212A}'
  {
    if IsAsciiUpper(c) then (c as int + 32) as char
    else if c == '\U{212A}' then 'k'
    else c
  }

  function LowerAscii(s: string): (r: string)
    ensures |r| == |s|
    ensures forall i | 0 <= i < |s| :: r[i] == LowerChar(s[i])
  {
    if s == [] then [] else [LowerChar(s[0])] + LowerAscii(s[1..])
  }

  function DigitChar(d: nat): char
    requires d < 10
  {
    ('0' as int + d) as char
  }

  /** Decimal rendering of a natural number, without leading zeros. */
  function NatToString(n: nat): (r: string)
    ensures |r| >= 1
    ensures AllIn(r, IsDigit)
  {
    if n < 10 then [DigitChar(n)] else NatToString(n / 10) + [DigitChar(n % 10)]
  }

  /** The number a string of decimal digits denotes. */
  function DigitsValue(s: string): int {
    if s == [] then 0 else DigitsValue(s[..|s| - 1]) * 10 + (s[|s| - 1] as int - '0' as int)
  }

  /** The rendering denotes the number itself, and has a leading zero only for zero. */
  lemma {:induction false} NatToStringValue(n: nat)
    ensures DigitsValue(NatToString(n)) == n
    ensures NatToString(n)[0] == '0' <==> n == 0
  {
    if n >= 10 {
      var r := NatToString(n);
      NatToStringValue(n / 10);
      assert r[..|r| - 1] == NatToString(n / 10);
      assert r[0] == NatToString(n / 10)[0];
    }
  }

  /** JavaScript `String(n)` for an integer. */
  function IntToString(n: int): string {
    if n < 0 then "-" + NatToString(-n) else NatToString(n)
  }

  /** Number of occurrences of `c` in `s`. */
  function Count(s: string, c: char): nat {
    if s == [] then 0 else (if s[0] == c then 1 else 0) + Count(s[1..], c)
  }

  lemma CountConcat(a: string, b: string, c: char)
    ensures Count(a + b, c) == Count(a, c) + Count(b, c)
  {
    if a == [] {
      assert a + b == b;
    } else {
      assert (a + b)[0] == a[0];
      assert (a + b)[1..] == a[1..] + b;
      CountConcat(a[1..], b, c);
    }
  }

  /** Every `c` doubled (JavaScript `s.replace(/c/g, cc)`): the escape of CSV and SQL quotes. */
  function Double(s: string, c: char): (r: string)
    ensures |r| == |s| + Count(s, c)
    ensures forall d :: d in r <==> d in s
  {
    if s == [] then []
    else
      assert forall d :: d in s <==> d == s[0] || d in s[1..];
      (if s[0] == c then [c, c] else [s[0]]) + Double(s[1..], c)
  }

  /** Every doubled `c` collapsed back to one, left to right. */
  function Undouble(s: string, c: char): string
    decreases |s|
  {
    if s == [] then []
    else if |s| >= 2 && s[0] == c && s[1] == c then [c] + Undouble(s[2..], c)
    else [s[0]] + Undouble(s[1..], c)
  }

  /** Collapsing undoes doubling. */
  lemma {:induction false} UndoubleDouble(s: string, c: char)
    ensures Undouble(Double(s, c), c) == s
  {
    if s != [] {
      var rest := Double(s[1..], c);
      UndoubleDouble(s[1..], c);
      if s[0] == c {
        assert Double(s, c) == [c, c] + rest;
        assert ([c, c] + rest)[2..] == rest;
      } else {
        assert Double(s, c) == [s[0]] + rest;
        assert ([s[0]] + rest)[1..] == rest;
      }
    }
  }

  /** Concatenation regrouped, for the places where the solver does not regroup it by itself. */
  lemma ConcatAssoc<T>(a: seq<T>, b: seq<T>, c: seq<T>)
    ensures a + b + c == a + (b + c)
  {
  }
}

=== FILE: tree_api.dfy ===
/**
  Turning the rows the tree database returns for one tree id (one row per data source) into the
  single record the tree card shows: fields merged across rows, the list of sources, the list of
  internal ids, the coordinates and the identification status.
 */
module TreeApi {
  import opened Wrappers
  import opened Json

  /** One database row: column name to value; a missing column reads as `undefined`. */
  type TreeRow = map<string, Value>

  function Field(row: TreeRow, key: string): Value {
    if key in row then row[key] else Undefined
  }

  const TREE_ID: string := "meta-tree-id"

  /** One row's merge step for one key: a non-null value fills a falsy merged value. */
  function MergeStep(current: Value, incoming: Value): (r: Value)
    ensures Truthy(current) ==> r == current
    ensures Nullish(incoming) ==> r == current
  {
    if !Nullish(incoming) && !Truthy(current) then incoming else current
  }

  /** The merged value of `key` after the rows, starting from `init`, applied in order. */
  function Merged(rows: seq<TreeRow>, key: string, init: Value): (r: Value)
    ensures Truthy(init) ==> r == init
    ensures Nullish(r) ==> r == init
  {
    if rows == [] then init
    else MergeStep(Merged(rows[..|rows| - 1], key, init), Field(rows[|rows| - 1], key))
  }

  /** The merge starts from the first row's tree id, and from nothing for every other key. */
  function Initial(rows: seq<TreeRow>, key: string): Value
    requires rows != []
  {
    if key == TREE_ID then Field(rows[0], TREE_ID) else Undefined
  }

  /** Merging one more row is one more merge step. */
  lemma MergedPrefix(rows: seq<TreeRow>, i: nat, key: string, init: Value)
    requires i < |rows|
    ensures Merged(rows[..i + 1], key, init) == MergeStep(Merged(rows[..i], key, init), Field(rows[i], key))
  {
    assert rows[..i + 1][..i] == rows[..i];
  }

  /** A truthy starting value is never replaced. */
  lemma {:induction false} MergedKeepsTruthy(rows: seq<TreeRow>, key: string, init: Value)
    requires Truthy(init)
    ensures Merged(rows, key, init) == init
  {
    if rows != [] {
      MergedKeepsTruthy(rows[..|rows| - 1], key, init);
    }
  }

  /** Once a truthy value has been merged, later rows leave it alone. */
  lemma {:induction false} MergedStaysTruthy(rows: seq<TreeRow>, key: string, init: Value, j: nat)
    requires j <= |rows| && Truthy(Merged(rows[..j], key, init))
    ensures Merged(rows, key, init) == Merged(rows[..j], key, init)
    decreases |rows|
  {
    if j < |rows| {
      var init' := rows[..|rows| - 1];
      assert init'[..j] == rows[..j];
      MergedStaysTruthy(init', key, init, j);
    } else {
      assert rows[..j] == rows;
    }
  }

  /** Without a truthy value anywhere the merge stays falsy. */
  lemma {:induction false} MergedFalsy(rows: seq<TreeRow>, key: string, init: Value)
    requires !Truthy(init)
    requires forall i | 0 <= i < |rows| :: !Truthy(Field(rows[i], key))
    ensures !Truthy(Merged(rows, key, init))
  {
    if rows != [] {
      MergedFalsy(rows[..|rows| - 1], key, init);
    }
  }

  /** From a falsy start, the merged value is the first truthy value in row order. */
  lemma {:induction false} MergedFirstTruthy(rows: seq<TreeRow>, key: string, init: Value, j: nat)
    requires !Truthy(init)
    requires j < |rows| && Truthy(Field(rows[j], key))
    requires forall i | 0 <= i < j :: !Truthy(Field(rows[i], key))
    ensures Merged(rows, key, init) == Field(rows[j], key)
  {
    var upto := rows[..j + 1];
    assert upto[..j] == rows[..j];
    MergedFalsy(rows[..j], key, init);
    assert Merged(upto, key, init) == Field(rows[j], key);
    MergedStaysTruthy(rows, key, init, j + 1);
  }

  /** From a falsy start and with no truthy value, the merged value is the last non-null one. */
  lemma {:induction false} MergedLastNonNull(rows: seq<TreeRow>, key: string, init: Value, j: nat)
    requires !Truthy(init)
    requires forall i | 0 <= i < |rows| :: !Truthy(Field(rows[i], key))
    requires j < |rows| && !Nullish(Field(rows[j], key))
    requires forall i | j < i < |rows| :: Nullish(Field(rows[i], key))
    ensures Merged(rows, key, init) == Field(rows[j], key)
    decreases |rows|
  {
    var init' := rows[..|rows| - 1];
    if j < |rows| - 1 {
      MergedLastNonNull(init', key, init, j);
    } else {
      MergedFalsy(init', key, init);
    }
  }

  /** With only null values the starting value survives. */
  lemma {:induction false} MergedAllNull(rows: seq<TreeRow>, key: string, init: Value)
    requires forall i | 0 <= i < |rows| :: Nullish(Field(rows[i], key))
    ensures Merged(rows, key, init) == init
  {
    if rows != [] {
      MergedAllNull(rows[..|rows| - 1], key, init);
    }
  }

  /** The card's id is the first row's tree id whenever that is a non-empty string. */
  lemma IdFromFirstRow(rows: seq<TreeRow>, id: string)
    requires rows != [] && Field(rows[0], TREE_ID) == Str(id) && id != []
    ensures Merged(rows, TREE_ID, Initial(rows, TREE_ID)) == Str(id)
  {
    MergedKeepsTruthy(rows, TREE_ID, Str(id));
  }

  /** A data source credit: the source's name and the date of its survey. */
  datatype DataSource = DataSource(name: Value, date: Value)

  /** The credit one row carries: its source and its date, when both are set. */
  function SourceOf(row: TreeRow): seq<DataSource> {
    if Truthy(Field(row, "meta-source")) && Truthy(Field(row, "meta-date"))
    then [DataSource(Field(row, "meta-source"), Field(row, "meta-date"))] else []
  }

  /** The credits of the rows that carry both a source and a date, in row order. */
  function Sources(rows: seq<TreeRow>): (r: seq<DataSource>)
    ensures |r| <= |rows|
  {
    if rows == [] then []
    else Sources(rows[..|rows| - 1]) + SourceOf(rows[|rows| - 1])
  }

  /** The truthy internal ids of the rows, in row order and with repetitions. */
  function InternalIds(rows: seq<TreeRow>): (r: seq<Value>)
    ensures |r| <= |rows|
    ensures forall i | 0 <= i < |r| :: Truthy(r[i])
    ensures |rows| == 1 ==>
      r == if Truthy(Field(rows[0], "meta-internal-id")) then [Field(rows[0], "meta-internal-id")] else []
  {
    if rows == [] then []
    else
      var last := rows[|rows| - 1];
      InternalIds(rows[..|rows| - 1]) +
        if Truthy(Field(last, "meta-internal-id")) then [Field(last, "meta-internal-id")] else []
  }

  /** A single row gives its own credit, or none. */
  lemma SourcesOne(row: TreeRow)
    ensures Sources([row]) == SourceOf(row)
  {
  }

  /** The credits are collected row by row: those of a longer table follow those of its first part, duplicates kept. */
  lemma {:induction false} SourcesAppend(a: seq<TreeRow>, b: seq<TreeRow>)
    ensures Sources(a + b) == Sources(a) + Sources(b)
    decreases |b|
  {
    if b == [] {
      assert a + b == a;
    } else {
      var init := b[..|b| - 1];
      var ab := a + b;
      var tail := SourceOf(b[|b| - 1]);
      assert Sources(ab) == Sources(a + init) + tail by {
        assert ab[..|ab| - 1] == a + init && ab[|ab| - 1] == b[|b| - 1];
      }
      assert Sources(b) == Sources(init) + tail;
      SourcesAppend(a, init);
    }
  }

  /** The internal ids are collected row by row: those of a longer table follow those of its first part, duplicates kept. */
  lemma {:induction false} InternalIdsAppend(a: seq<TreeRow>, b: seq<TreeRow>)
    ensures InternalIds(a + b) == InternalIds(a) + InternalIds(b)
    decreases |b|
  {
    if b == [] {
      assert a + b == a;
    } else {
      var init := b[..|b| - 1];
      var ab := a + b;
      assert ab[..|ab| - 1] == a + init && ab[|ab| - 1] == b[|b| - 1];
      InternalIdsAppend(a, init);
      var tail := InternalIds(b)[|InternalIds(init)|..];
      assert InternalIds(b) == InternalIds(init) + tail;
      assert InternalIds(ab) == InternalIds(a + init) + tail;
    }
  }

  /** Every internal id of every row is listed. */
  lemma {:induction false} InternalIdsComplete(rows: seq<TreeRow>, i: nat)
    requires i < |rows| && Truthy(Field(rows[i], "meta-internal-id"))
    ensures Field(rows[i], "meta-internal-id") in InternalIds(rows)
    decreases |rows|
  {
    if i < |rows| - 1 {
      var init := rows[..|rows| - 1];
      assert init[i] == rows[i];
      InternalIdsComplete(init, i);
    }
  }

  /** A credit is listed exactly when some row carries that source and that date, both truthy. */
  lemma {:induction false} SourcesExact(rows: seq<TreeRow>, name: Value, date: Value)
    ensures DataSource(name, date) in Sources(rows) <==>
      Truthy(name) && Truthy(date) &&
      exists i | 0 <= i < |rows| :: Field(rows[i], "meta-source") == name && Field(rows[i], "meta-date") == date
  {
    if rows != [] {
      var init := rows[..|rows| - 1];
      var last := rows[|rows| - 1];
      assert Sources(rows) == Sources(init) + SourceOf(last);
      assert DataSource(name, date) in SourceOf(last) <==>
        Truthy(name) && Truthy(date) && Field(last, "meta-source") == name && Field(last, "meta-date") == date;
      SourcesExact(init, name, date);
      assert forall i | 0 <= i < |init| :: init[i] == rows[i];
      if exists i | 0 <= i < |rows| :: Field(rows[i], "meta-source") == name && Field(rows[i], "meta-date") == date {
        var i :| 0 <= i < |rows| && Field(rows[i], "meta-source") == name && Field(rows[i], "meta-date") == date;
        if i < |init| {
          assert Field(init[i], "meta-source") == name && Field(init[i], "meta-date") == date;
        }
      }
    }
  }

  datatype TreeStatus = Identified | Suspected

  /** The record the tree card shows. */
  datatype TreeRecord = TreeRecord(
    id: Value,
    species: Value,
    trunkDiameter: Value,
    height: Value,
    canopyArea: Value,
    crownDiameter: Value,
    ageEstimated: bool,
    municipality: Value,
    street: Value,
    parcel: Value,
    coordinates: Option<string>,
    treeSpace: Value,
    internalIds: Option<seq<Value>>,
    photoUrl: Value,
    dataSources: Option<seq<DataSource>>,
    status: TreeStatus)

  /** `"<y>, <x>"` when both merged coordinates are truthy; `show` is JavaScript's string conversion. */
  function Coordinates(y: Value, x: Value, show: Value -> string): (r: Option<string>)
    ensures r.Some? <==> Truthy(y) && Truthy(x)
    ensures r.Some? ==> r.value == show(y) + ", " + show(x)
  {
    if Truthy(y) && Truthy(x) then Some(show(y) + ", " + show(x)) else None
  }

  /** The record built from the merged fields, the credits and the internal ids. */
  function RecordOf(merged: map<string, Value>, sources: seq<DataSource>, ids: seq<Value>, show: Value -> string): (r: TreeRecord)
    ensures r.status == Identified <==> Truthy(Field(merged, "attributes-species-clean-he"))
    ensures r.ageEstimated <==> Field(merged, "attributes-age-estimated") == Str("true")
    ensures r.internalIds.Some? <==> ids != []
    ensures r.dataSources.Some? <==> sources != []
    ensures r.coordinates == Coordinates(Field(merged, "location-y"), Field(merged, "location-x"), show)
  {
    TreeRecord(
      Field(merged, TREE_ID),
      Field(merged, "attributes-species-clean-he"),
      Field(merged, "attributes-bark-diameter"),
      Field(merged, "attributes-height"),
      Field(merged, "attributes-canopy-area"),
      Field(merged, "attributes-canopy-diameter"),
      Field(merged, "attributes-age-estimated") == Str("true"),
      Field(merged, "muni_name"),
      Field(merged, "road_name"),
      Field(merged, "cad_code"),
      Coordinates(Field(merged, "location-y"), Field(merged, "location-x"), show),
      Field(merged, "environment-type"),
      if ids != [] then Some(ids) else None,
      Field(merged, "photos-general"),
      if sources != [] then Some(sources) else None,
      if Truthy(Field(merged, "attributes-species-clean-he")) then Identified else Suspected)
  }

  /** The record depends on the merged fields only through their values. */
  lemma RecordOfFields(m1: map<string, Value>, m2: map<string, Value>, sources: seq<DataSource>, ids: seq<Value>, show: Value -> string)
    requires forall key :: Field(m1, key) == Field(m2, key)
    ensures RecordOf(m1, sources, ids, show) == RecordOf(m2, sources, ids, show)
  {
  }

  /** The tree id key and every key of every row. */
  function AllKeys(rows: seq<TreeRow>): (r: set<string>)
    ensures TREE_ID in r
    ensures forall i, key | 0 <= i < |rows| && key in rows[i] :: key in r
  {
    if rows == [] then {TREE_ID}
    else AllKeys(rows[..|rows| - 1]) + rows[|rows| - 1].Keys
  }

  /** A key no row carries merges to `undefined`. */
  lemma MergedOutside(rows: seq<TreeRow>, key: string)
    requires rows != [] && key !in AllKeys(rows)
    ensures Merged(rows, key, Initial(rows, key)) == Undefined
  {
    MergedAllNull(rows, key, Undefined);
  }

  /** Every key merged across the rows. */
  function MergedFields(rows: seq<TreeRow>): (r: map<string, Value>)
    requires rows != []
    ensures forall key :: Field(r, key) == Merged(rows, key, Initial(rows, key))
  {
    var r := map key | key in AllKeys(rows) :: Merged(rows, key, Initial(rows, key));
    forall key | key !in AllKeys(rows)
      ensures Field(r, key) == Merged(rows, key, Initial(rows, key))
    {
      MergedOutside(rows, key);
    }
    r
  }

  /** The record for a non-empty list of rows. */
  function Transformed(rows: seq<TreeRow>, show: Value -> string): (r: TreeRecord)
    requires rows != []
    ensures Truthy(Field(rows[0], TREE_ID)) ==> r.id == Field(rows[0], TREE_ID)
    ensures r.dataSources.Some? <==> Sources(rows) != []
    ensures r.internalIds.Some? <==> InternalIds(rows) != []
  {
    RecordOf(MergedFields(rows), Sources(rows), InternalIds(rows), show)
  }

  /** One row merged into the record, key by key. */
  method MergeRow(merged: map<string, Value>, row: TreeRow) returns (r: map<string, Value>)
    ensures forall key :: Field(r, key) == MergeStep(Field(merged, key), Field(row, key))
  {
    r := merged;
    var todo := row.Keys;
    while todo != {}
      invariant todo <= row.Keys
      invariant forall key | key in todo :: Field(r, key) == Field(merged, key)
      invariant forall key | key !in todo :: Field(r, key) == MergeStep(Field(merged, key), Field(row, key))
      decreases |todo|
    {
      var key :| key in todo;
      if !Nullish(row[key]) && !Truthy(Field(r, key)) {
        r := r[key := row[key]];
      }
      todo := todo - {key};
    }
  }

  /** The state of the transformation once the first `i` rows are absorbed. */
  ghost predicate Absorbed(rows: seq<TreeRow>, i: nat, merged: map<string, Value>, sources: seq<DataSource>, ids: seq<Value>)
    requires 0 < |rows| && i <= |rows|
  {
    && (forall key :: Field(merged, key) == Merged(rows[..i], key, Initial(rows, key)))
    && sources == Sources(rows[..i])
    && ids == InternalIds(rows[..i])
  }

  /** One pass of the transformation's loop: row `i` merged, credited and its internal id kept. */
  method AbsorbRow(rows: seq<TreeRow>, i: nat, merged: map<string, Value>, sources: seq<DataSource>, ids: seq<Value>)
    returns (merged': map<string, Value>, sources': seq<DataSource>, ids': seq<Value>)
    requires i < |rows| && Absorbed(rows, i, merged, sources, ids)
    ensures Absorbed(rows, i + 1, merged', sources', ids')
  {
    var row := rows[i];
    merged' := MergeRow(merged, row);
    forall key
      ensures Field(merged', key) == Merged(rows[..i + 1], key, Initial(rows, key))
    {
      MergedPrefix(rows, i, key, Initial(rows, key));
    }
    sources' := sources;
    if Truthy(Field(row, "meta-source")) && Truthy(Field(row, "meta-date")) {
      sources' := sources + [DataSource(Field(row, "meta-source"), Field(row, "meta-date"))];
    }
    ids' := ids;
    if Truthy(Field(row, "meta-internal-id")) {
      ids' := ids + [Field(row, "meta-internal-id")];
    }
    assert rows[..i + 1][..i] == rows[..i] && rows[..i + 1][i] == row;
  }

  /**
    The transformation: no record for no rows; otherwise each row is merged into the record key by
    key, and its credit and internal id are collected.
   */
  method TransformTreeData(rows: seq<TreeRow>, show: Value -> string) returns (r: Option<TreeRecord>)
    ensures r.None? <==> rows == []
    ensures r.Some? ==> r.value == Transformed(rows, show)
  {
    if rows == [] {
      return None;
    }
    var merged: map<string, Value> := map[TREE_ID := Field(rows[0], TREE_ID)];
    var sources: seq<DataSource> := [];
    var ids: seq<Value> := [];
    var i := 0;
    assert rows[..0] == [];
    while i < |rows|
      invariant 0 <= i <= |rows|
      invariant Absorbed(rows, i, merged, sources, ids)
    {
      merged, sources, ids := AbsorbRow(rows, i, merged, sources, ids);
      i := i + 1;
    }
    assert rows[..i] == rows;
    assert forall key :: Field(merged, key) == Merged(rows, key, Initial(rows, key));
    RecordOfFields(merged, MergedFields(rows), sources, ids, show);
    r := Some(RecordOf(merged, sources, ids, show));
  }
}

=== FILE: tree_card.dfy ===
/**
  The tree card's upload dialog and photo gallery. The dialog is a small state machine: the
  chosen file, the upload stage (`idle → creating → uploading → saving → idle`), the error shown
  and whether the dialog is open. An upload tries the direct path (ask for a presigned URL, PUT
  the file, record it) and falls back to the upload proxy once on any failure of that path.
 */
module TreeCard {
  import opened Wrappers
  import opened Text
  import opened Media
  import opened Sorting

  datatype Stage = Idle | Creating | Uploading | Saving

  /** The file the browser hands over: name, declared type and size. */
  datatype PickedFile = PickedFile(name: string, fileType: string, size: int)

  /** What a failed service call throws: an `Error` with its message, or any other value. */
  datatype Thrown = ErrorValue(message: string) | OtherValue

  /** What the issuer's client hands back: where to PUT, the key, and the headers to send. */
  datatype UploadSpec = UploadSpec(uploadUrl: string, s3Key: string, headers: map<string, string>)

  /** One call to the media service, with its arguments. */
  datatype Call =
    | RequestUploadUrl(treeId: string, fileName: string, mimeType: string, fileSizeBytes: int)
    | UploadFileToS3(uploadUrl: string, file: PickedFile, headers: map<string, string>)
    | RecordUploadCall(treeId: string, s3Key: string, mimeType: string, fileSizeBytes: int, originalFileName: string)
    | UploadViaProxy(treeId: string, file: PickedFile)

  const PICK_IMAGE_ERROR: string := "נא לבחור קובץ תמונה בלבד"
  const NEED_IMAGE_ERROR: string := "נדרשת תמונת JPEG/PNG/HEIC וכדומה"
  const UPLOAD_FAILED_ERROR: string := "העלאת התמונה נכשלה. נסו שוב מאוחר יותר."

  /** The text shown for a thrown value: an error's message, or the fixed fallback. */
  function ErrorText(t: Thrown): (r: string)
    ensures t.ErrorValue? ==> r == t.message
    ensures t.OtherValue? ==> r == UPLOAD_FAILED_ERROR
  {
    match t
    case ErrorValue(m) => m
    case OtherValue => UPLOAD_FAILED_ERROR
  }

  /** The direct path succeeds when all three of its calls return. */
  predicate DirectSucceeds(issue: Result<UploadSpec, Thrown>, put: Option<Thrown>, record: Option<Thrown>) {
    issue.Success? && put.None? && record.None?
  }

  /** The calls the direct path makes: each call is made only when the one before it returned. */
  function DirectCalls(treeId: string, f: PickedFile, issue: Result<UploadSpec, Thrown>, put: Option<Thrown>): (r: seq<Call>)
    ensures 1 <= |r| <= 3 && r[0] == RequestUploadUrl(treeId, f.name, f.fileType, f.size)
    ensures UploadViaProxy(treeId, f) !in r
  {
    if issue.Failure? then [RequestUploadUrl(treeId, f.name, f.fileType, f.size)]
    else if put.Some? then
      [RequestUploadUrl(treeId, f.name, f.fileType, f.size), UploadFileToS3(issue.value.uploadUrl, f, issue.value.headers)]
    else
      [RequestUploadUrl(treeId, f.name, f.fileType, f.size), UploadFileToS3(issue.value.uploadUrl, f, issue.value.headers),
       RecordUploadCall(treeId, issue.value.s3Key, f.fileType, f.size, f.name)]
  }

  /** The stages the direct path sets, one per call it makes. */
  function DirectStages(issue: Result<UploadSpec, Thrown>, put: Option<Thrown>): (r: seq<Stage>)
    ensures 1 <= |r| <= 3 && r[0] == Creating && Idle !in r
  {
    if issue.Failure? then [Creating]
    else if put.Some? then [Creating, Uploading]
    else [Creating, Uploading, Saving]
  }

  /** The calls an upload of `f` makes, in order: the direct path, then the proxy when it failed. */
  function PlannedCalls(treeId: string, f: PickedFile, issue: Result<UploadSpec, Thrown>, put: Option<Thrown>, record: Option<Thrown>): (r: seq<Call>)
    ensures |r| >= 1 && r[0] == RequestUploadUrl(treeId, f.name, f.fileType, f.size)
    ensures DirectSucceeds(issue, put, record) <==> UploadViaProxy(treeId, f) !in r
    ensures !DirectSucceeds(issue, put, record) ==> r[|r| - 1] == UploadViaProxy(treeId, f)
    ensures |r| <= 4
  {
    DirectCalls(treeId, f, issue, put) + if DirectSucceeds(issue, put, record) then [] else [UploadViaProxy(treeId, f)]
  }

  /**
    The stages an upload sets, in order: the direct path's, `saving` again for the proxy, the
    reset of a dialog closed on success, and the final `idle`.
   */
  function PlannedStages(issue: Result<UploadSpec, Thrown>, put: Option<Thrown>, record: Option<Thrown>, proxy: Option<Thrown>): (r: seq<Stage>)
    ensures |r| >= 2 && r[0] == Creating && r[|r| - 1] == Idle
    ensures forall i | 0 <= i < |r| - 2 :: r[i] != Idle
    ensures !DirectSucceeds(issue, put, record) ==>
      |r| > |DirectStages(issue, put)| && r[|DirectStages(issue, put)|] == Saving
    ensures |DirectStages(issue, put)| < |r| && r[..|DirectStages(issue, put)|] == DirectStages(issue, put)
  {
    var afterDirect := AfterDirect(issue, put, record);
    var succeeded := DirectSucceeds(issue, put, record) || proxy.None?;
    (if succeeded then afterDirect + [Idle] else afterDirect) + [Idle]
  }

  /** The stages of the inner `try`: the direct path's, then `saving` again when it threw. */
  function AfterDirect(issue: Result<UploadSpec, Thrown>, put: Option<Thrown>, record: Option<Thrown>): seq<Stage> {
    DirectStages(issue, put) + if DirectSucceeds(issue, put, record) then [] else [Saving]
  }

  lemma AppendAssoc<T>(a: seq<T>, b: seq<T>, c: seq<T>, d: seq<T>)
    ensures a + b + c + d == a + (b + c + d)
  {
  }

  /** The planned stages are those of the inner `try`, the reset when the upload succeeded, and the final `idle`. */
  lemma PlannedStagesParts(issue: Result<UploadSpec, Thrown>, put: Option<Thrown>, record: Option<Thrown>, proxy: Option<Thrown>)
    ensures PlannedStages(issue, put, record, proxy) == AfterDirect(issue, put, record) +
      (if DirectSucceeds(issue, put, record) || proxy.None? then [Idle] else []) + [Idle]
  {
    var afterDirect := AfterDirect(issue, put, record);
    assert afterDirect + [] == afterDirect;
  }

  /** The dialog's state, as the component's state hooks hold it. */
  class UploadDialog {
    /** The card's tree id, sent with every call. */
    const treeId: string
    var open: bool
    var selectedFile: Option<PickedFile>
    var stage: Stage
    var uploadError: Option<string>
    /** How many times `onUploadComplete` has fired. */
    var completions: nat
    /** Every media-service call made so far, in order. */
    var calls: seq<Call>
    /** Every stage set so far, in order. */
    var stages: seq<Stage>

    constructor (treeId: string)
      ensures this.treeId == treeId
      ensures !open && selectedFile.None? && stage == Idle && uploadError.None?
      ensures completions == 0 && calls == [] && stages == []
    {
      this.treeId := treeId;
      open := false;
      selectedFile := None;
      stage := Idle;
      uploadError := None;
      completions := 0;
      calls := [];
      stages := [];
    }

    /** `isUploading`: the picker, cancel, submit and open buttons are disabled while it holds. */
    function IsUploading(): (b: bool)
      reads this
      ensures b <==> stage in {Creating, Uploading, Saving}
    {
      stage != Idle
    }

    /** `resetDialogState`: no file, no error, stage `idle`. */
    method ResetDialogState()
      modifies this
      ensures selectedFile.None? && uploadError.None? && stage == Idle
      ensures stages == old(stages) + [Idle]
      ensures open == old(open) && calls == old(calls) && completions == old(completions)
    {
      selectedFile := None;
      uploadError := None;
      stage := Idle;
      stages := stages + [Idle];
    }

    /** `handleDialogChange`: opening keeps the state; closing also resets it. */
    method HandleDialogChange(isOpen: bool)
      modifies this
      ensures open == isOpen
      ensures !isOpen ==> selectedFile.None? && uploadError.None? && stage == Idle && stages == old(stages) + [Idle]
      ensures isOpen ==> (selectedFile == old(selectedFile) && uploadError == old(uploadError) &&
        stage == old(stage) && stages == old(stages))
      ensures calls == old(calls) && completions == old(completions)
    {
      open := isOpen;
      if !isOpen {
        ResetDialogState();
      }
    }

    /**
      `handleFileChange`: clears the error; a picked image becomes the selection, a picked
      non-image sets an error and keeps the old selection, and no file clears the selection.
     */
    method HandleFileChange(file: Option<PickedFile>)
      modifies this
      ensures file.Some? && !IsImageMime(file.value.fileType) ==>
        uploadError == Some(PICK_IMAGE_ERROR) && selectedFile == old(selectedFile)
      ensures file.Some? && IsImageMime(file.value.fileType) ==> uploadError.None? && selectedFile == file
      ensures file.None? ==> uploadError.None? && selectedFile.None?
      ensures open == old(open) && stage == old(stage) && stages == old(stages)
      ensures calls == old(calls) && completions == old(completions)
    {
      uploadError := None;
      if file.Some? {
        if !IsImageMime(file.value.fileType) {
          uploadError := Some(PICK_IMAGE_ERROR);
          return;
        }
        selectedFile := file;
      } else {
        selectedFile := None;
      }
    }

    /** The direct path of `handleUpload`: the three calls in turn, each with the stage it sets. */
    method TryDirect(f: PickedFile, issue: Result<UploadSpec, Thrown>, put: Option<Thrown>, record: Option<Thrown>)
      returns (ok: bool)
      modifies this
      ensures ok == DirectSucceeds(issue, put, record)
      ensures calls == old(calls) + DirectCalls(treeId, f, issue, put)
      ensures stages == old(stages) + DirectStages(issue, put)
      ensures stage != Idle
      ensures open == old(open) && selectedFile == old(selectedFile) && uploadError == old(uploadError)
      ensures completions == old(completions)
    {
      stage := Creating;
      stages := stages + [Creating];
      calls := calls + [RequestUploadUrl(treeId, f.name, f.fileType, f.size)];
      ok := false;
      if issue.Success? {
        stage := Uploading;
        stages := stages + [Uploading];
        calls := calls + [UploadFileToS3(issue.value.uploadUrl, f, issue.value.headers)];
        if put.None? {
          stage := Saving;
          stages := stages + [Saving];
          calls := calls + [RecordUploadCall(treeId, issue.value.s3Key, f.fileType, f.size, f.name)];
          ok := record.None?;
        }
      }
    }

    /** The inner `try` of `handleUpload`: the direct path, and the proxy when it throws; what the proxy throws. */
    method UploadWithFallback(f: PickedFile, issue: Result<UploadSpec, Thrown>, put: Option<Thrown>,
                              record: Option<Thrown>, proxy: Option<Thrown>)
      returns (failure: Option<Thrown>)
      modifies this
      ensures failure == if DirectSucceeds(issue, put, record) then None else proxy
      ensures calls == old(calls) + PlannedCalls(treeId, f, issue, put, record)
      ensures stages == old(stages) + AfterDirect(issue, put, record)
      ensures open == old(open) && selectedFile == old(selectedFile) && uploadError == old(uploadError)
      ensures completions == old(completions)
    {
      var direct := TryDirect(f, issue, put, record);
      failure := None;
      if !direct {
        stage := Saving;
        stages := stages + [Saving];
        calls := calls + [UploadViaProxy(treeId, f)];
        failure := proxy;
      }
    }

    /**
      `handleUpload`, run to completion. `issue`, `put`, `record` and `proxy` are what
      `requestUploadUrl`, `uploadFileToS3`, `recordUpload` and `uploadViaProxy` do: return (a
      spec, or `None`) or throw.
     */
    method HandleUpload(issue: Result<UploadSpec, Thrown>, put: Option<Thrown>, record: Option<Thrown>, proxy: Option<Thrown>)
      requires stage == Idle
      modifies this
      ensures stage == Idle
      ensures old(selectedFile).None? ==>
        selectedFile == old(selectedFile) && uploadError == old(uploadError) && open == old(open) &&
        calls == old(calls) && stages == old(stages) && completions == old(completions)
      ensures old(selectedFile).Some? && !IsImageMime(old(selectedFile).value.fileType) ==>
        uploadError == Some(NEED_IMAGE_ERROR) && selectedFile == old(selectedFile) && open == old(open) &&
        calls == old(calls) && stages == old(stages) && completions == old(completions)
      ensures old(selectedFile).Some? && IsImageMime(old(selectedFile).value.fileType) ==>
        var f := old(selectedFile).value;
        && calls == old(calls) + PlannedCalls(treeId, f, issue, put, record)
        && stages == old(stages) + PlannedStages(issue, put, record, proxy)
        && (DirectSucceeds(issue, put, record) || proxy.None? ==>
              !open && selectedFile.None? && uploadError.None? && completions == old(completions) + 1)
        && (!DirectSucceeds(issue, put, record) && proxy.Some? ==>
              open == old(open) && selectedFile == old(selectedFile) &&
              uploadError == Some(ErrorText(proxy.value)) && completions == old(completions))
    {
      if selectedFile.None? {
        return;
      }
      var f := selectedFile.value;
      uploadError := None;
      if f.fileType == [] || !IsImageMime(f.fileType) {
        uploadError := Some(NEED_IMAGE_ERROR);
        return;
      }
      ghost var stages0 := stages;
      ghost var afterDirect := AfterDirect(issue, put, record);
      var failure := UploadWithFallback(f, issue, put, record, proxy);
      if failure.None? {
        HandleDialogChange(false);
        completions := completions + 1;
      } else {
        uploadError := Some(ErrorText(failure.value));
      }
      ghost var finish: seq<Stage> := if failure.None? then [Idle] else [];
      assert stages == stages0 + afterDirect + finish;
      stage := Idle;
      stages := stages + [Idle];
      PlannedStagesParts(issue, put, record, proxy);
      assert finish == if DirectSucceeds(issue, put, record) || proxy.None? then [Idle] else [];
      AppendAssoc(stages0, afterDirect, finish, [Idle]);
    }
  }

  /** Every call of one upload names the same tree, and the record call uses the issued key. */
  lemma CallsAgree(treeId: string, f: PickedFile, issue: Result<UploadSpec, Thrown>, put: Option<Thrown>, record: Option<Thrown>)
    ensures forall c | c in PlannedCalls(treeId, f, issue, put, record) ::
      (c.RequestUploadUrl? || c.RecordUploadCall? || c.UploadViaProxy?) ==> c.treeId == treeId
    ensures forall c | c in PlannedCalls(treeId, f, issue, put, record) && c.RecordUploadCall? ::
      issue.Success? && c.s3Key == issue.value.s3Key && c.mimeType == f.fileType && c.fileSizeBytes == f.size
    ensures forall c | c in PlannedCalls(treeId, f, issue, put, record) && c.UploadViaProxy? :: c.file == f
  {
  }

  /** A media item as the card receives it; an empty date string stands for a missing one. */
  datatype CardMedia = CardMedia(
    id: string,
    publicUrl: string,
    status: string,
    createdAt: string,
    createdAtSnake: string,
    updatedAt: string,
    updatedAtSnake: string)

  /** A gallery entry: the official photo or a community photo, with the key it is ordered by. */
  datatype GalleryItem = GalleryItem(id: string, url: string, sortKey: int)

  /** `Number.MAX_SAFE_INTEGER`, the official photo's key. */
  const MAX_SAFE_INTEGER: int := 9007199254740991

  /** `getDate`: `createdAt`, else `created_at`, else `updatedAt`, else `updated_at`; empty when none is set. */
  function MediaDate(m: CardMedia): (r: string)
    ensures m.createdAt != [] ==> r == m.createdAt
    ensures m.createdAt == [] && m.createdAtSnake != [] ==> r == m.createdAtSnake
    ensures m.createdAt == [] && m.createdAtSnake == [] && m.updatedAt != [] ==> r == m.updatedAt
    ensures m.createdAt == [] && m.createdAtSnake == [] && m.updatedAt == [] ==> r == m.updatedAtSnake
  {
    if m.createdAt != [] then m.createdAt
    else if m.createdAtSnake != [] then m.createdAtSnake
    else if m.updatedAt != [] then m.updatedAt
    else m.updatedAtSnake
  }

  function SortKey(item: GalleryItem): int {
    item.sortKey
  }

  /** The approved items, in the order given. */
  function Approved(media: seq<CardMedia>): (r: seq<CardMedia>)
    ensures forall i | 0 <= i < |r| :: r[i].status == "approved"
    ensures forall m :: m in r <==> m in media && m.status == "approved"
    ensures |media| == 1 ==> r == if media[0].status == "approved" then media else []
  {
    if media == [] then []
    else
      assert media == [media[0]] + media[1..];
      if media[0].status == "approved" then [media[0]] + Approved(media[1..])
      else Approved(media[1..])
  }

  /** The approved items keep their order: the filter works piece by piece, an approved item giving itself. */
  lemma {:induction false} ApprovedAppend(a: seq<CardMedia>, b: seq<CardMedia>)
    ensures Approved(a + b) == Approved(a) + Approved(b)
  {
    if a != [] {
      var ab := a + b;
      assert ab[0] == a[0] && ab[1..] == a[1..] + b;
      ApprovedAppend(a[1..], b);
      var head := if a[0].status == "approved" then [a[0]] else [];
      assert Approved(ab) == head + Approved(a[1..] + b);
      assert Approved(a) == head + Approved(a[1..]);
    } else {
      assert a + b == b;
    }
  }

  /** Community entries, keyed by the parsed date (`parseTime`), 0 when there is no date. */
  function CommunityEntries(media: seq<CardMedia>, parseTime: string -> int): (r: seq<GalleryItem>)
    ensures |r| == |media|
    ensures forall i | 0 <= i < |r| :: r[i].id == media[i].id && r[i].url == media[i].publicUrl
    ensures forall i | 0 <= i < |r| :: r[i].sortKey == if MediaDate(media[i]) == [] then 0 else parseTime(MediaDate(media[i]))
  {
    if media == [] then []
    else
      var m := media[0];
      [GalleryItem(m.id, m.publicUrl, if MediaDate(m) == [] then 0 else parseTime(MediaDate(m)))] +
        CommunityEntries(media[1..], parseTime)
  }

  /**
    `galleryItems`: the official photo first when there is one, then the approved community
    photos, newest first.
   */
  function GalleryItems(photoUrl: string, media: seq<CardMedia>, parseTime: string -> int): (r: seq<GalleryItem>)
    ensures var k := if photoUrl != [] then 1 else 0;
      && |r| == k + |Approved(media)|
      && (photoUrl != [] ==> r[0] == GalleryItem("official-photo", photoUrl, MAX_SAFE_INTEGER))
      && SortedDesc(r[k..], SortKey)
      && multiset(r[k..]) == multiset(CommunityEntries(Approved(media), parseTime))
  {
    var official := if photoUrl != [] then [GalleryItem("official-photo", photoUrl, MAX_SAFE_INTEGER)] else [];
    var community := SortDesc(CommunityEntries(Approved(media), parseTime), SortKey);
    assert (official + community)[|official|..] == community;
    official + community
  }

  /** Every community entry comes from one of the items it was built from. */
  lemma EntryOrigin(media: seq<CardMedia>, parseTime: string -> int, item: GalleryItem)
    requires item in CommunityEntries(media, parseTime)
    ensures exists m :: m in media && m.id == item.id && m.publicUrl == item.url
  {
    var entries := CommunityEntries(media, parseTime);
    var j :| 0 <= j < |entries| && entries[j] == item;
    assert media[j] in media;
  }

  /** Only approved media reach the gallery: every community entry names an approved item. */
  lemma GalleryOnlyApproved(photoUrl: string, media: seq<CardMedia>, parseTime: string -> int, item: GalleryItem)
    requires item in GalleryItems(photoUrl, media, parseTime) && item.id != "official-photo"
    ensures exists m :: m in media && m.status == "approved" && m.id == item.id && m.publicUrl == item.url
  {
    var k := if photoUrl != [] then 1 else 0;
    var r := GalleryItems(photoUrl, media, parseTime);
    var i :| 0 <= i < |r| && r[i] == item;
    assert i >= k;
    var community := r[k..];
    assert community[i - k] == item;
    assert item in multiset(community);
    var approved := Approved(media);
    var entries := CommunityEntries(approved, parseTime);
    assert multiset(community) == multiset(entries);
    assert item in entries;
    EntryOrigin(approved, parseTime, item);
    var m :| m in approved && m.id == item.id && m.publicUrl == item.url;
    assert m in media && m.status == "approved";
  }
}

=== FILE: tree_id_input.dfy ===
/**
  The search box of the home page: a value with a `+` is searched as a tree id (a plus code), any
  other as an internal id, and a blank value is not searched at all.
 */
module TreeIdInput {
  import opened Wrappers
  import opened Text

  datatype SearchType = TreeId | InternalId

  /** The value the box starts with. */
  const DEFAULT_SEARCH: string := "8G4P4VXP+GR5V"

  /** `detectSearchType`. */
  function DetectSearchType(value: string): (r: SearchType)
    ensures r == TreeId <==> '+' in value
  {
    if '+' in value then TreeId else InternalId
  }

  /** `handleSubmit`: the search handed to `onSearch`, or none for a blank box. */
  function HandleSubmit(searchValue: string): (r: Option<(string, SearchType)>)
    ensures r.None? <==> AllIn(searchValue, IsSpace)
    ensures r.Some? ==> r.value.0 == Trim(searchValue) && r.value.0 != []
    ensures r.Some? ==> r.value.1 == DetectSearchType(r.value.0)
  {
    var trimmed := Trim(searchValue);
    if trimmed == [] then None else Some((trimmed, DetectSearchType(trimmed)))
  }

  /** Trimming never removes a `+`, so the type does not depend on surrounding blanks. */
  lemma TrimKeepsPlus(value: string)
    ensures '+' in Trim(value) <==> '+' in value
  {
    var lead := LeadingCount(value, IsSpace);
    var a := value[lead..];
    var r := Trim(value);
    assert r == a[..|a| - TrailingCount(a, IsSpace)];
    if '+' in value {
      var k :| 0 <= k < |value| && value[k] == '+';
      assert !IsSpace(value[k]);
      assert lead <= k;
      assert a[k - lead] == '+';
      assert k - lead < |a| - TrailingCount(a, IsSpace);
      assert r[k - lead] == '+';
    }
    if '+' in r {
      var k :| 0 <= k < |r| && r[k] == '+';
      assert value[lead + k] == '+';
    }
  }

  /** The search type of a submitted value is that of the raw value. */
  lemma SubmitTypeOfRaw(value: string)
    requires !AllIn(value, IsSpace)
    ensures HandleSubmit(value).value.1 == DetectSearchType(value)
  {
    TrimKeepsPlus(value);
  }

  /** The value the box starts with is searched as a tree id. */
  lemma DefaultIsTreeId()
    ensures HandleSubmit(DEFAULT_SEARCH) == Some((DEFAULT_SEARCH, TreeId))
  {
    assert DEFAULT_SEARCH[8] == '+';
    assert !IsSpace(DEFAULT_SEARCH[0]);
    StripOfClean(DEFAULT_SEARCH, IsSpace);
  }
}

=== FILE: upload_proxy.dfy ===
/**
  The upload proxy: the one-step fallback that receives the image as a multipart form, writes it
  to the object store itself and then inserts the moderation row. Unlike the issuer it keeps the
  tree id as sent in the key, takes the extension from the file name only, and turns an unknown
  status into `pending` instead of refusing it.
 */
module UploadProxy {
  import opened Wrappers
  import opened Text
  import opened Json
  import opened Media

  /** An uploaded file part: its name, its declared type and its size in bytes. */
  datatype File = File(name: string, fileType: string, size: int)

  /** A multipart form entry: a text field or a file. */
  datatype FormValue = Text(text: string) | Upload(file: File)

  type Form = map<string, FormValue>

  /**
    `(form.get(name) as string) || fallback`: a non-empty text field is used as is, an absent or
    empty one gives the fallback, and a file part is kept as an object (`None`), on which string
    methods later throw.
   */
  function TextOr(form: Form, name: string, fallback: string): (r: Option<string>)
    ensures name in form && form[name].Upload? <==> r.None?
    ensures name in form && form[name].Text? && form[name].text != [] ==> r == Some(form[name].text)
    ensures name !in form || form[name] == Text([]) ==> r == Some(fallback)
  {
    if name !in form then Some(fallback)
    else match form[name]
      case Text(s) => if s != [] then Some(s) else Some(fallback)
      case Upload(_) => None
  }

  /** The file name: the form's, else the uploaded file's own name, else `"upload"`. */
  function FileNameField(form: Form): Option<string> {
    TextOr(form, "fileName", if "file" in form && form["file"].Upload? then form["file"].file.name else "upload")
  }

  /** The mime type: the form's, else the uploaded file's type, else `"application/octet-stream"`. */
  function MimeTypeField(form: Form): Option<string> {
    TextOr(form, "mimeType", if "file" in form && form["file"].Upload? then form["file"].file.fileType else "application/octet-stream")
  }

  /**
    The size: the `fileSizeBytes` text field converted by `number` (JavaScript `Number`), else the
    uploaded file's size, else 0.
   */
  function SizeField(form: Form, number: string -> int): (r: int)
    ensures "fileSizeBytes" in form && form["fileSizeBytes"].Text? ==> r == number(form["fileSizeBytes"].text)
    ensures !("fileSizeBytes" in form && form["fileSizeBytes"].Text?) && "file" in form && form["file"].Upload? ==>
      r == form["file"].file.size
    ensures !("fileSizeBytes" in form && form["fileSizeBytes"].Text?) && !("file" in form && form["file"].Upload?) ==>
      r == 0
  {
    if "fileSizeBytes" in form && form["fileSizeBytes"].Text? then number(form["fileSizeBytes"].text)
    else if "file" in form && form["file"].Upload? then form["file"].file.size
    else 0
  }

  /** The status: an allowed text field, else `pending` (never refused). */
  function LenientStatus(form: Form): (r: Status)
    ensures "status" in form && form["status"].Text? && ParseStatus(form["status"].text).Some? ==>
      StatusName(r) == form["status"].text
    ensures !("status" in form && form["status"].Text? && ParseStatus(form["status"].text).Some?) ==> r == Pending
  {
    if "status" in form && form["status"].Text? then ParseStatus(form["status"].text).GetOr(Pending) else Pending
  }

  /**
    The key suffix: `.` and the text after the last `.` of the file name when that text is a
    non-empty run of ASCII letters and digits (case kept), else nothing. There is no fallback to
    the mime type.
   */
  function SafeExtension(fileName: string): (r: string)
    ensures r == [] || (r[0] == '.' && |r| >= 2 && AllIn(r[1..], IsAsciiAlnum))
    ensures r != [] <==>
      '.' in fileName && LastPiece(fileName, '.') != [] && AllIn(LastPiece(fileName, '.'), IsAsciiAlnum)
    ensures r != [] ==> r == "." + LastPiece(fileName, '.')
  {
    ContainsChar(fileName, '.');
    if Contains(fileName, ".") then
      var ext := LastPiece(fileName, '.');
      if ext != [] && AllIn(ext, IsAsciiAlnum) then "." + ext else ""
    else ""
  }

  /** A name ending in `.` and a letters-and-digits extension keeps that extension, case and all. */
  lemma SafeExtensionOfName(base: string, ext: string)
    requires ext != [] && AllIn(ext, IsAsciiAlnum)
    ensures SafeExtension(base + "." + ext) == "." + ext
  {
    var name := base + "." + ext;
    ContainsAt(name, ".", |base|);
    assert '.' !in ext;
    LastPieceAfter(base, '.', ext);
    assert name == base + ['.'] + ext;
  }

  /** A name whose text after its last `.` is empty or holds anything but letters and digits gives no suffix. */
  lemma SafeExtensionRejectsName(base: string, ext: string)
    requires '.' !in ext
    requires ext == [] || exists i | 0 <= i < |ext| :: !IsAsciiAlnum(ext[i])
    ensures SafeExtension(base + "." + ext) == ""
  {
    var name := base + "." + ext;
    assert name == base + ['.'] + ext;
    assert name[|base|] == '.';
    LastPieceAfter(base, '.', ext);
  }

  /** A name without `.` gives no extension, whatever the mime type. */
  lemma SafeExtensionWithoutDot(fileName: string)
    requires '.' !in fileName
    ensures SafeExtension(fileName) == ""
  {
    ContainsChar(fileName, '.');
  }

  /** The key: prefix, the tree id exactly as sent, the token and the suffix. */
  function ProxyKey(treeId: string, token: string, fileName: string): (key: string)
    ensures StartsWith(key, "tree-media/" + treeId + "/" + token)
    ensures key[|"tree-media/" + treeId + "/" + token|..] == SafeExtension(fileName)
    ensures Trim(key) != []
  {
    var key := "tree-media/" + treeId + "/" + token + SafeExtension(fileName);
    assert key[0] == 't';
    key
  }

  /** The tree id is not sanitised: surrounding spaces and slashes reach the key. */
  lemma ProxyKeyKeepsRawId(token: string)
    ensures ProxyKey(" T/1 ", token, "upload") == "tree-media/ T/1 /" + token
  {
    assert '.' !in "upload";
    SafeExtensionWithoutDot("upload");
    var head := "tree-media/" + " T/1 " + "/";
    assert head == "tree-media/ T/1 /";
    assert head + token + "" == head + token;
  }

  /** The fields of a form that passed every check. */
  datatype ProxyChecked = ProxyChecked(treeId: string, fileName: string, mimeType: string, size: int, status: Status)

  const PROXY_FAILED: string := "Upload proxy failed"

  /** The form names a tree and carries a file part: the first two checks pass. */
  predicate HasIdAndFile(form: Form) {
    "treeId" in form && form["treeId"].Text? && Trim(form["treeId"].text) != [] &&
    "file" in form && form["file"].Upload?
  }

  /**
    The proxy's checks on a parsed form, in their order, as the refusal they end in (status code
    and message) or the checked fields. A file part where the file name or the mime type belongs
    makes a string method throw once it is reached, which is a 500.
   */
  function CheckProxy(form: Form, number: string -> int): (r: Result<ProxyChecked, (int, string)>)
    ensures r == Failure((400, "treeId is required")) <==>
      !("treeId" in form && form["treeId"].Text? && Trim(form["treeId"].text) != [])
    ensures r == Failure((400, "file is required")) <==>
      "treeId" in form && form["treeId"].Text? && Trim(form["treeId"].text) != [] &&
      !("file" in form && form["file"].Upload?)
    ensures r == Failure((400, SIZE_MESSAGE)) <==>
      HasIdAndFile(form) && !SizeInRange(SizeField(form, number))
    ensures r == Failure((400, "Only image uploads are supported")) <==>
      HasIdAndFile(form) && SizeInRange(SizeField(form, number)) &&
      MimeTypeField(form).Some? && !IsImageMime(MimeTypeField(form).value)
    ensures r == Failure((500, PROXY_FAILED)) <==>
      HasIdAndFile(form) && SizeInRange(SizeField(form, number)) &&
      (MimeTypeField(form).None? || (IsImageMime(MimeTypeField(form).value) && FileNameField(form).None?))
    ensures r.Success? <==>
      "treeId" in form && form["treeId"].Text? && Trim(form["treeId"].text) != [] &&
      "file" in form && form["file"].Upload? && SizeInRange(SizeField(form, number)) &&
      MimeTypeField(form).Some? && IsImageMime(MimeTypeField(form).value) && FileNameField(form).Some?
    ensures r.Success? ==>
      && r.value.treeId == form["treeId"].text
      && Some(r.value.fileName) == FileNameField(form)
      && Some(r.value.mimeType) == MimeTypeField(form)
      && r.value.size == SizeField(form, number)
      && r.value.status == LenientStatus(form)
    ensures r.Failure? ==> r.error.0 in {400, 500}
  {
    SizeMessageDistinct();
    var size := SizeField(form, number);
    var mime := MimeTypeField(form);
    if !("treeId" in form && form["treeId"].Text? && Trim(form["treeId"].text) != []) then
      Failure((400, "treeId is required"))
    else if !("file" in form && form["file"].Upload?) then Failure((400, "file is required"))
    else if !SizeInRange(size) then Failure((400, SIZE_MESSAGE))
    else if mime.None? then Failure((500, PROXY_FAILED))
    else if !IsImageMime(mime.value) then Failure((400, "Only image uploads are supported"))
    else if FileNameField(form).None? then Failure((500, PROXY_FAILED))
    else Success(ProxyChecked(form["treeId"].text, FileNameField(form).value, mime.value, size, LenientStatus(form)))
  }

  /** A form with a tree id and no file part is refused with 400. */
  lemma MissingFileRejected(form: Form, number: string -> int)
    requires "treeId" in form && form["treeId"] == Text("T1") && "file" !in form
    ensures CheckProxy(form, number) == Failure((400, "file is required"))
  {
    StripOfClean("T1", IsSpace);
  }

  /** A text file is refused with 400 whatever its size or name. */
  lemma NonImageRejected(form: Form, number: string -> int)
    requires "treeId" in form && form["treeId"] == Text("T1")
    requires "file" in form && form["file"].Upload? && SizeInRange(SizeField(form, number))
    requires "mimeType" in form && form["mimeType"] == Text("text/plain")
    ensures CheckProxy(form, number) == Failure((400, "Only image uploads are supported"))
  {
    assert HasIdAndFile(form) by {
      StripOfClean("T1", IsSpace);
    }
    assert MimeTypeField(form) == Some("text/plain");
    assert !IsImageMime("text/plain") by {
      assert "text/plain"[0] != "image/"[0];
    }
  }

  /** An unknown status text does not refuse the upload; it is stored as `pending`. */
  lemma UnknownStatusBecomesPending(form: Form, number: string -> int)
    requires "status" in form && form["status"] == Text("archived")
    ensures LenientStatus(form) == Pending
  {
  }

  /** Every form that passes the checks describes a well-formed row, under any key and token. */
  lemma ProxyCheckedIsWellFormed(form: Form, number: string -> int, c: ProxyChecked, id: string, token: string, now: int)
    requires CheckProxy(form, number) == Success(c)
    ensures WellFormedRow(MediaRow(id, c.treeId, ProxyKey(c.treeId, token, c.fileName), c.mimeType, c.size,
      c.status, map["originalFileName" := Str(c.fileName)], None, now))
  {
  }

  /** The row the proxy inserts for checked fields. */
  function ProxyRow(c: ProxyChecked, rowId: string, token: string, now: int): (r: MediaRow)
    ensures StartsWith(r.s3Key, "tree-media/" + c.treeId + "/" + token)
    ensures r.s3Key[|"tree-media/" + c.treeId + "/" + token|..] == SafeExtension(c.fileName)
    ensures r.treeId == c.treeId && r.mimeType == c.mimeType && r.fileSizeBytes == c.size && r.status == c.status
    ensures r.metadata == map["originalFileName" := Str(c.fileName)] && r.uploadedBy.None?
  {
    MediaRow(rowId, c.treeId, ProxyKey(c.treeId, token, c.fileName), c.mimeType, c.size, c.status,
      map["originalFileName" := Str(c.fileName)], None, now)
  }

  /**
    Everything the proxy decides before it touches a store, for a request other than the
    preflight: the content-type test, the form parse (`None` when the body is not a form) and the
    checks.
   */
  function PlanProxy(req: Request, form: Option<Form>, number: string -> int): (r: Result<ProxyChecked, (int, string)>)
    ensures !("content-type" in req.headers && Contains(req.headers["content-type"], "multipart/form-data")) ==>
      r == Failure((400, "multipart/form-data required"))
    ensures "content-type" in req.headers && Contains(req.headers["content-type"], "multipart/form-data") ==>
      r == if form.None? then Failure((500, PROXY_FAILED)) else CheckProxy(form.value, number)
  {
    var contentType := if "content-type" in req.headers then req.headers["content-type"] else "";
    if !Contains(contentType, "multipart/form-data") then Failure((400, "multipart/form-data required"))
    else if form.None? then Failure((500, PROXY_FAILED))
    else CheckProxy(form.value, number)
  }

  /**
    The proxy. `form` is the parsed multipart body (`None` when it does not parse), `number`
    converts the size field, `token` is the fresh UUID, `putFault` and `insertFault` are the two
    stores' failures, and `rowId` and `now` are what the moderation store assigns. The object is
    written before the row is inserted, so a failed insert leaves the object behind.
   */
  method UploadProxy(req: Request, form: Option<Form>, number: string -> int, objects: ObjectStore, db: ModerationStore,
                     token: string, putFault: bool, rowId: string, now: int, insertFault: bool)
    returns (r: Response<MediaRow>)
    requires db.Valid()
    modifies objects, db
    ensures db.Valid()
    ensures old(AllWellFormed(db.rows)) ==> AllWellFormed(db.rows)
    ensures r.Preflight? <==> req.verb == "OPTIONS"
    ensures r.Ok? ==> db.rows == old(db.rows) + [r.body]
    ensures !r.Ok? ==> db.rows == old(db.rows)
    ensures req.verb == "OPTIONS" || PlanProxy(req, form, number).Failure? ==> objects.keys == old(objects.keys)
    ensures req.verb != "OPTIONS" && PlanProxy(req, form, number).Failure? ==>
      r == Err(PlanProxy(req, form, number).error.0, PlanProxy(req, form, number).error.1)
    ensures req.verb != "OPTIONS" && PlanProxy(req, form, number).Success? ==>
      var c := PlanProxy(req, form, number).value;
      && objects.keys == (if putFault then old(objects.keys) else old(objects.keys) + {ProxyKey(c.treeId, token, c.fileName)})
      && (putFault ==> r == Err(500, PROXY_FAILED))
      && (r.Ok? ==> r.body == ProxyRow(c, rowId, token, now))
      && (!putFault && !r.Ok? ==> r == Err(500, "Unable to save media record"))
      && (r.Ok? <==> !putFault && !insertFault && forall i | 0 <= i < |old(db.rows)| :: old(db.rows)[i].id != rowId)
  {
    if req.verb == "OPTIONS" {
      return Preflight;
    }
    var plan := PlanProxy(req, form, number);
    if plan.Failure? {
      return Err(plan.error.0, plan.error.1);
    }
    var c := plan.value;
    ProxyCheckedIsWellFormed(form.value, number, c, rowId, token, now);
    r := StoreUpload(c, objects, db, token, putFault, rowId, now, insertFault);
  }

  /**
    The proxy's two writes for checked fields: the object under the proxy key, then, when that
    succeeded, the moderation row.
   */
  method StoreUpload(c: ProxyChecked, objects: ObjectStore, db: ModerationStore,
                     token: string, putFault: bool, rowId: string, now: int, insertFault: bool)
    returns (r: Response<MediaRow>)
    requires db.Valid()
    modifies objects, db
    ensures db.Valid() && !r.Preflight?
    ensures old(AllWellFormed(db.rows)) && WellFormedRow(ProxyRow(c, rowId, token, now)) ==> AllWellFormed(db.rows)
    ensures r.Ok? ==> r.body == ProxyRow(c, rowId, token, now) && db.rows == old(db.rows) + [r.body]
    ensures !r.Ok? ==> db.rows == old(db.rows)
    ensures objects.keys == if putFault then old(objects.keys) else old(objects.keys) + {ProxyKey(c.treeId, token, c.fileName)}
    ensures putFault ==> r == Err(500, PROXY_FAILED)
    ensures !putFault && !r.Ok? ==> r == Err(500, "Unable to save media record")
    ensures r.Ok? <==> !putFault && !insertFault && forall i | 0 <= i < |old(db.rows)| :: old(db.rows)[i].id != rowId
  {
    var key := ProxyKey(c.treeId, token, c.fileName);
    var written := objects.Put(key, putFault);
    if !written {
      return Err(500, PROXY_FAILED);
    }
    var row := ProxyRow(c, rowId, token, now);
    var inserted := db.Insert(row, insertFault);
    if !inserted {
      return Err(500, "Unable to save media record");
    }
    r := Ok(row);
  }
}

=== FILE: upload_url.dfy ===
/**
  The upload URL issuer: validates an upload request, derives the object key
  `tree-media/<sanitised id>/<token>[.<ext>]` and returns a presigned PUT URL with its terms.
  The random UUID and the signer are parameters: `token` is the fresh UUID and `signed` is the
  signer's answer (`None` when it throws).
 */
module UploadUrl {
  import opened Wrappers
  import opened Text
  import opened Json
  import opened Media

  /** The fixed mime-type-to-extension table. */
  const MIME_EXTENSIONS: map<string, string> := map[
    "image/jpeg" := "jpg",
    "image/png" := "png",
    "image/webp" := "webp",
    "image/gif" := "gif",
    "image/avif" := "avif",
    "image/heic" := "heic",
    "image/heif" := "heif",
    "image/svg+xml" := "svg"
  ]

  /** Seconds a presigned URL stays valid (five minutes). */
  const EXPIRES_IN: int := 60 * 5

  /**
    `extensionFromMime`: the table's extension, else the second `/`-separated piece of the type
    with every non-word character removed; `None` (JavaScript `undefined`) when there is no `/`.
   */
  function ExtensionFromMime(mime: string): (r: Option<string>)
    ensures mime in MIME_EXTENSIONS ==> r == Some(MIME_EXTENSIONS[mime])
    ensures r.Some? <==> '/' in mime
    ensures r.Some? ==> AllIn(r.value, IsWordChar)
    ensures IsImageMime(mime) ==> r.Some?
    ensures mime !in MIME_EXTENSIONS && |Split(mime, '/')| >= 2 ==> r == Some(Filter(Split(mime, '/')[1], IsWordChar))
  {
    assert IsImageMime(mime) ==> mime[5] == '/' && '/' in mime;
    if mime in MIME_EXTENSIONS then Some(MIME_EXTENSIONS[mime])
    else
      var parts := Split(mime, '/');
      if |parts| >= 2 then Some(Filter(parts[1], IsWordChar))
      else
        JoinSplit(mime, '/');
        None
  }

  /** The characters `/^[a-z0-9]+$/` accepts. */
  predicate IsLowerAlnum(c: char) {
    IsAsciiLower(c) || IsDigit(c)
  }

  /** The lower-cased text after the last `.` of a file name, when it has a `.` at all. */
  function NameExtension(fileName: string): Option<string> {
    if Contains(fileName, ".") then Some(LowerAscii(LastPiece(fileName, '.'))) else None
  }

  /**
    `resolveExtension`: the file name's own extension when it is a non-empty run of lower-case
    letters and digits after lower-casing, else the mime type's, else `"img"`.
   */
  function ResolveExtension(fileName: Option<string>, mime: string): (r: string)
    ensures AllIn(r, IsWordChar)
    ensures fileName.None? ==> r == ExtensionFromMime(mime).GetOr("img")
  {
    var fromName := if fileName.Some? then NameExtension(fileName.value) else None;
    if fromName.Some? && fromName.value != [] && AllIn(fromName.value, IsLowerAlnum) then
      fromName.value
    else
      ExtensionFromMime(mime).GetOr("img")
  }

  /**
    A file name whose text after its last `.` is a non-empty run of ASCII letters and digits keeps
    that text, lower-cased, as the extension.
   */
  lemma ResolveFromName(base: string, ext: string, mime: string)
    requires ext != [] && AllIn(ext, IsAsciiAlnum)
    ensures ResolveExtension(Some(base + "." + ext), mime) == LowerAscii(ext)
  {
    var name := base + "." + ext;
    assert name == base + ['.'] + ext;
    assert name[|base|..|base| + 1] == ".";
    ContainsAt(name, ".", |base|);
    assert '.' !in ext;
    LastPieceAfter(base, '.', ext);
    var lowered := LowerAscii(ext);
    assert NameExtension(name) == Some(lowered);
    assert forall i | 0 <= i < |lowered| :: IsLowerAlnum(lowered[i]);
  }

  /**
    A file name whose text after its last `.` is empty, or holds a character whose lower case is
    not an ASCII letter or digit, falls back to the mime type.
   */
  lemma ResolveRejectsName(base: string, ext: string, mime: string)
    requires '.' !in ext
    requires ext == [] || exists i | 0 <= i < |ext| :: !IsAsciiAlnum(ext[i]) && ext[i] != '\U{212A}'
    ensures ResolveExtension(Some(base + "." + ext), mime) == ExtensionFromMime(mime).GetOr("img")
  {
    var name := base + "." + ext;
    ContainsAt(name, ".", |base|);
    LastPieceAfter(base, '.', ext);
    assert name == base + ['.'] + ext;
    var lowered := LowerAscii(ext);
    if ext != [] {
      var i :| 0 <= i < |ext| && !IsAsciiAlnum(ext[i]) && ext[i] != '\U{212A}';
      assert !IsLowerAlnum(lowered[i]);
    }
  }

  /** A file name without `.` leaves the decision to the mime type. */
  lemma ResolveWithoutDot(fileName: string, mime: string)
    requires '.' !in fileName
    ensures ResolveExtension(Some(fileName), mime) == ExtensionFromMime(mime).GetOr("img")
  {
    ContainsChar(fileName, '.');
  }

  /** Characters that survive `sanitizeTreeId`: `[a-zA-Z0-9_-]`. */
  predicate IsKeyChar(c: char) {
    IsAsciiAlnum(c) || c == '-' || c == '_'
  }

  /**
    `sanitizeTreeId`: trim, turn each whitespace run into `-`, drop every character outside
    `[a-zA-Z0-9_-]`; `"tree"` when nothing is left.
   */
  function SanitizeTreeId(treeId: string): (r: string)
    ensures r != []
    ensures AllIn(r, IsKeyChar)
    ensures '/' !in r
    ensures var cleaned := Filter(ReplaceSpaceRuns(Trim(treeId), "-"), IsKeyChar);
      r == if cleaned == [] then "tree" else cleaned
  {
    var cleaned := Filter(ReplaceSpaceRuns(Trim(treeId), "-"), IsKeyChar);
    if |cleaned| > 0 then cleaned else "tree"
  }

  /** The ids sanitising leaves alone are exactly the non-empty strings over `[a-zA-Z0-9_-]`. */
  lemma SanitizeFixedPoints(treeId: string)
    ensures SanitizeTreeId(treeId) == treeId <==> treeId != [] && AllIn(treeId, IsKeyChar)
  {
    if treeId != [] && AllIn(treeId, IsKeyChar) {
      assert NoneIn(treeId, IsSpace);
      StripOfClean(treeId, IsSpace);
      ReplaceSpaceRunsIdentity(treeId, "-");
      FilterIdentity(treeId, IsKeyChar);
    }
  }

  /** Sanitising twice is sanitising once. */
  lemma SanitizeIdempotent(treeId: string)
    ensures SanitizeTreeId(SanitizeTreeId(treeId)) == SanitizeTreeId(treeId)
  {
    SanitizeFixedPoints(SanitizeTreeId(treeId));
  }

  /** An unlisted `type/subtype` gives its subtype without the non-word characters. */
  lemma ExtensionOfSubtype(kind: string, subtype: string, mime: string)
    requires '/' !in kind && '/' !in subtype && mime == kind + "/" + subtype
    requires mime !in MIME_EXTENSIONS
    ensures ExtensionFromMime(mime) == Some(Filter(subtype, IsWordChar))
  {
    assert Join([kind, subtype], "/") == mime;
    SplitJoin([kind, subtype], '/');
  }

  /** An id that is all whitespace becomes `"tree"`. */
  lemma SanitizeBlank(treeId: string)
    requires AllIn(treeId, IsSpace)
    ensures SanitizeTreeId(treeId) == "tree"
  {
  }

  /** An id with no key character and no inner whitespace, such as `"@@@"`, becomes `"tree"`. */
  lemma SanitizeNothingLeft(treeId: string)
    requires NoneIn(treeId, IsKeyChar) && NoneIn(Trim(treeId), IsSpace)
    ensures SanitizeTreeId(treeId) == "tree"
  {
    var t := Trim(treeId);
    assert t == treeId[LeadingCount(treeId, IsSpace)..LeadingCount(treeId, IsSpace) + |t|];
    assert NoneIn(t, IsKeyChar);
    ReplaceSpaceRunsIdentity(t, "-");
    FilterKeepsClean(t, IsKeyChar, IsKeyChar);
  }

  /** The object key: prefix, id, token, and `.` + extension only when there is an extension. */
  function ObjectKey(id: string, token: string, ext: string): (key: string)
    ensures StartsWith(key, "tree-media/" + id + "/" + token)
    ensures ext == [] ==> key == "tree-media/" + id + "/" + token
  {
    "tree-media/" + id + "/" + token + (if ext != [] then "." + ext else "")
  }

  /** A dot-free extension is what follows the key's last `.`. */
  lemma ObjectKeyExtension(id: string, token: string, ext: string)
    requires ext != [] && '.' !in ext
    ensures LastPiece(ObjectKey(id, token, ext), '.') == ext
  {
    LastPieceAfter("tree-media/" + id + "/" + token, '.', ext);
    assert ObjectKey(id, token, ext) == "tree-media/" + id + "/" + token + ['.'] + ext;
  }

  /** With a slash-free token, the key splits on `/` into the prefix, the id and the file part. */
  lemma ObjectKeySegments(id: string, token: string, ext: string)
    requires '/' !in id && '/' !in token && '/' !in ext
    ensures Split(ObjectKey(id, token, ext), '/') ==
      ["tree-media", id, token + (if ext != [] then "." + ext else "")]
  {
    var file := token + (if ext != [] then "." + ext else "");
    var parts := ["tree-media", id, file];
    assert Join(parts[2..], "/") == file;
    assert Join(parts[1..], "/") == id + "/" + file;
    assert Join(parts, "/") == ObjectKey(id, token, ext);
    SplitJoin(parts, '/');
  }

  /** The 200 body: the presigned URL and the terms the client must honour. */
  datatype UploadTicket = UploadTicket(
    uploadUrl: string,
    s3Key: string,
    expiresIn: int,
    bucket: string,
    maxFileSize: int,
    contentType: string)

  const UPLOAD_URL_FAILED: string := "Unable to create upload URL"

  /**
    The optional file name as `resolveExtension` sees it. Undefined and null skip the name; a
    string is used; an array skips it unless it holds the string `"."` (then `split` is not a
    function and the call throws); any other value has no callable `includes` and throws.
   */
  function FileNameArg(v: Value): Result<Option<string>, string> {
    match v
    case Undefined => Success(None)
    case Null => Success(None)
    case Str(s) => Success(Some(s))
    case Arr(items) => if Str(".") in items then Failure("split is not a function") else Success(None)
    case _ => Failure("includes is not a function")
  }

  /** The ticket for a checked request: the derived key and the fixed terms. */
  function Ticket(treeId: string, fileName: Option<string>, mime: string, token: string, bucket: string, url: string): UploadTicket {
    UploadTicket(url, ObjectKey(SanitizeTreeId(treeId), token, ResolveExtension(fileName, mime)), EXPIRES_IN, bucket, MAX_FILE_SIZE, mime)
  }

  /** The outcome of the handler, as a value of the request, the fresh token and the signer's answer. */
  function CreateUploadUrl(req: Request, token: string, bucket: string, signed: Option<string>): (r: Response<UploadTicket>)
    ensures r.Preflight? <==> req.verb == "OPTIONS"
    ensures r == Err(400, "treeId is required") <==>
      req.verb != "OPTIONS" && !Nullish(req.body) && !NonBlank(Get(req.body, "treeId"))
    ensures r == Err(400, "Only image uploads are supported") <==>
      req.verb != "OPTIONS" && !Nullish(req.body) && NonBlank(Get(req.body, "treeId")) &&
      !(Get(req.body, "mimeType").Str? && IsImageMime(Get(req.body, "mimeType").s))
    ensures r.Ok? <==>
      req.verb != "OPTIONS" && !Nullish(req.body) && NonBlank(Get(req.body, "treeId")) &&
      Get(req.body, "mimeType").Str? && IsImageMime(Get(req.body, "mimeType").s) &&
      Get(req.body, "fileSizeBytes").Num? && SizeInRange(Get(req.body, "fileSizeBytes").n) &&
      FileNameArg(Get(req.body, "fileName")).Success? && signed.Some?
    ensures r.Ok? ==>
      var mime := Get(req.body, "mimeType").s;
      && r.body.uploadUrl == signed.value
      && r.body.bucket == bucket
      && r.body.expiresIn == 300
      && r.body.maxFileSize == 52428800
      && r.body.contentType == mime
      && StartsWith(r.body.s3Key, "tree-media/" + SanitizeTreeId(Get(req.body, "treeId").s) + "/" + token)
    ensures r == Err(400, SIZE_MESSAGE) <==>
      req.verb != "OPTIONS" && !Nullish(req.body) && NonBlank(Get(req.body, "treeId")) &&
      Get(req.body, "mimeType").Str? && IsImageMime(Get(req.body, "mimeType").s) &&
      !(Get(req.body, "fileSizeBytes").Num? && SizeInRange(Get(req.body, "fileSizeBytes").n))
    ensures r == Err(500, UPLOAD_URL_FAILED) <==>
      req.verb != "OPTIONS" &&
      (Nullish(req.body) ||
       (NonBlank(Get(req.body, "treeId")) &&
        Get(req.body, "mimeType").Str? && IsImageMime(Get(req.body, "mimeType").s) &&
        Get(req.body, "fileSizeBytes").Num? && SizeInRange(Get(req.body, "fileSizeBytes").n) &&
        (FileNameArg(Get(req.body, "fileName")).Failure? || signed.None?)))
    ensures r.Err? ==> r.code in {400, 500}
  {
    SizeMessageDistinct();
    if req.verb == "OPTIONS" then Preflight
    else if Nullish(req.body) then Err(500, UPLOAD_URL_FAILED)
    else
      var treeId := Get(req.body, "treeId");
      var fileName := Get(req.body, "fileName");
      var mimeType := Get(req.body, "mimeType");
      var size := Get(req.body, "fileSizeBytes");
      if !NonBlank(treeId) then Err(400, "treeId is required")
      else if !(mimeType.Str? && IsImageMime(mimeType.s)) then Err(400, "Only image uploads are supported")
      else if !(size.Num? && SizeInRange(size.n)) then Err(400, SIZE_MESSAGE)
      else
        var name := FileNameArg(fileName);
        if name.Failure? then Err(500, UPLOAD_URL_FAILED)
        else
          if signed.None? then Err(500, UPLOAD_URL_FAILED)
          else Ok(Ticket(treeId.s, name.value, mimeType.s, token, bucket, signed.value))
  }

  /** A size error names the ceiling; exactly 50 MiB is accepted and one byte more is not. */
  lemma SizeBoundary()
    ensures SizeInRange(52428800) && !SizeInRange(52428801) && !SizeInRange(0)
  {
  }

  /** A request that passes every check is answered with the ticket for its fields. */
  lemma IssueTicket(fields: map<string, Value>, id: string, name: string, mime: string,
                    token: string, bucket: string, url: string)
    requires "treeId" in fields && fields["treeId"] == Str(id) && Trim(id) != []
    requires "fileName" in fields && fields["fileName"] == Str(name)
    requires "mimeType" in fields && fields["mimeType"] == Str(mime) && IsImageMime(mime)
    requires "fileSizeBytes" in fields && fields["fileSizeBytes"].Num? && SizeInRange(fields["fileSizeBytes"].n)
    ensures CreateUploadUrl(Request("POST", map[], Obj(fields)), token, bucket, Some(url)) ==
      Ok(Ticket(id, Some(name), mime, token, bucket, url))
  {
    var body := Obj(fields);
    assert Get(body, "treeId") == Str(id) && NonBlank(Str(id));
    assert Get(body, "mimeType") == Str(mime);
    assert Get(body, "fileName") == Str(name);
    assert FileNameArg(Str(name)) == Success(Some(name));
  }

  /**
    For a clean id and a file name with an alphanumeric extension, the ticket's key is
    `tree-media/<id>/<token>.<lower-cased extension>`.
   */
  lemma TicketKey(id: string, base: string, ext: string, mime: string, token: string, bucket: string, url: string)
    requires id != [] && AllIn(id, IsKeyChar)
    requires ext != [] && AllIn(ext, IsAsciiAlnum)
    ensures Ticket(id, Some(base + "." + ext), mime, token, bucket, url).s3Key ==
      "tree-media/" + id + "/" + token + "." + LowerAscii(ext)
  {
    var lowered := LowerAscii(ext);
    SanitizeFixedPoints(id);
    ResolveFromName(base, ext, mime);
    assert lowered != [];
    var prefix := "tree-media/" + id + "/" + token;
    assert ObjectKey(id, token, lowered) == prefix + ("." + lowered);
  }
}

=== FILE: wrappers.dfy ===
/** Option and Result, the two failure-carrying shapes every other module uses. */
module Wrappers {

  datatype Option<+T> = None | Some(value: T) {
    function GetOr(default: T): T {
      match this
      case Some(v) => v
      case None => default
    }
  }

  datatype Result<+T, +E> = Success(value: T) | Failure(error: E)
}
